=== FILE: README.md ===
# Ritvik task manager, modelled in Dafny

Ritvik is a small task manager with three parts, and this project models the logic of each:

- **Web page.** It keeps a list of tasks for one signed-in user. It shows three views of the list: the tasks assigned to the user, the tasks the user assigned, and a dashboard. It counts the tasks by status and lets the user change a task's status, create a task, or delete one. Each task is drawn as a card, and clicking a card opens a detail modal.
- **Google Chat bot.** It turns a chat event into a reply. A dialog request gets the new-task form. A slash command gets the help text or an unknown-command notice. Free text is sorted into one of four commands, and each command posts one request to the backend. Submitting the new-task form posts an add-task request.
- **HTTP backend.** Six handlers validate a JSON body and read or update a worksheet of tasks. The worksheet is held in memory, with one row per task.

The modules follow that structure:

- **Page:** `TaskCard` (the task record, the overdue rule, the status badge and status buttons), `TaskModal`, `TaskList`, `TaskStore` (the page's list, views, counts and transitions).
- **Bot:** `ChatBot` (`onMessage`, `onCardClick`) and `UpdateCommand`, which is the update command's regular expression written out as a backtracking matcher.
- **Backend:** `Sheet` (the worksheet functions of `excel_utils.py`) and `Api` (the handlers of `main.py`).
- **Shared helpers:** `Wrappers` (`Option`), `Seqs` (filter, count, subsequence) and `Text` (case folding, JavaScript and Python whitespace and trimming, substring search, decimal rendering).

Things outside the model are parameters:

- The signed-in user and the current time on the page.
- The network on the bot: `fetch` maps a request to a body or to an exception message. `JSON.parse` is a parameter too.
- On the backend: the clock, the UUID generator, `fromisoformat`, `isoformat`, `UUID(...)`, `strftime` formatting, and exception texts.

The bot's model returns its reply together with the list of requests it made, so a contract can say both what was answered and what was sent.

## Model

| member | source | states |
|---|---|---|
| TaskCard.FindOption | frontend/src/components/TaskCard.tsx:41 | `statusOptions.find` returns the first entry with the status, and nothing only when no entry has it |
| TaskCard.StatusOptionsComplete | frontend/src/components/TaskCard.tsx:5-32 | every status has exactly one table entry, so the lookup of a stored status always succeeds and returns that status's entry |
| TaskCard.StatusBadge | frontend/src/components/TaskCard.tsx:42-64 | an overdue task (due date passed, not completed) gets the "Overdue" badge; otherwise the badge shows the stored status's caption |
| TaskCard.BadgeShowsOverdue | frontend/src/components/TaskCard.tsx:42-64 | the badge reads "Overdue" exactly when the task is overdue or stored as overdue; otherwise it shows the stored status's own label and variant |
| TaskCard.CompletedNeverOverdue | frontend/src/components/TaskCard.tsx:42 | a completed task is never overdue, however old its due date, and its badge reads "Completed" |
| TaskCard.StoredOverdueShowsOverdue | frontend/src/components/TaskCard.tsx:31-63 | a task stored as overdue with a future due date still shows the "Overdue" badge, through the table lookup |
| TaskCard.PriorityColor | frontend/src/components/TaskCard.tsx:34-38 | the colour map is total over the three priorities |
| TaskCard.PriorityColorsDistinct | frontend/src/components/TaskCard.tsx:34-38 | the three priorities get three different colours |
| TaskCard.StatusButtons | frontend/src/components/TaskCard.tsx:44-99 | one button per table entry, in table order; each forwards (task id, its status) unchanged and is drawn as current exactly for the stored status |
| TaskCard.EachStatusHasOneButton | frontend/src/components/TaskCard.tsx:89-99 | every status is offered by a button, no two buttons fire the same action, and some button is current |
| TaskModal.Render | frontend/src/components/TaskModal.tsx:30-126 | no task renders nothing; otherwise the badge follows the card's overdue rule, the buttons forward (task id, status), Edit forwards the task and Delete its id |
| TaskList.CountStatusesMeaning | frontend/src/components/TaskList.tsx:37-42 | the first three badge counts count tasks by stored status, the fourth counts tasks overdue at `now`, and the stored statuses partition the list |
| TaskList.StatusesPartition | frontend/src/components/TaskList.tsx:38-40 | the four stored-status counts add up to the length of the list |
| TaskList.OverdueAtMostUncompleted | frontend/src/components/TaskList.tsx:40-41 | overdue tasks and completed tasks are disjoint, so together they number at most the list's length |
| TaskList.CountsOverlap | frontend/src/components/TaskList.tsx:38-41 | a past-due pending task counts both as pending and as overdue; a task stored as overdue counts in none of the first three |
| TaskList.OverdueBadgeShown | frontend/src/components/TaskList.tsx:56-58 | the overdue badge is drawn exactly when some task in the list is overdue |
| TaskList.GridMatchesBadges | frontend/src/components/TaskList.tsx:37-91 | the grid and the badges agree: the empty state comes with all four badges at zero, and cards are drawn exactly when the stored-status counts count some task |
| TaskList.GridCardOpensItsTask | frontend/src/components/TaskList.tsx:27-101 | clicking the k-th card of the grid (TaskCard.tsx:51) opens the modal on the k-th task of the list: its status buttons and its Delete act on that task's id |
| TaskList.ClickThenClose | frontend/src/components/TaskList.tsx:24-35 | after a click the modal renders the clicked task and its Delete forwards that task's id; closing returns to the initial state and renders nothing |
| TaskStore.FilteredTasks | frontend/src/pages/Index.tsx:133-142 | each view is a subsequence of the list: the to-me view holds exactly the tasks assigned to the user, the by-me view exactly those assigned by the user, and the dashboard the whole list |
| TaskStore.ViewIsTheSubsequence | frontend/src/pages/Index.tsx:135-138 | a view is the only order-preserving subsequence holding only the user's tasks and as many of them as the list has |
| TaskStore.PageTitle | frontend/src/pages/Index.tsx:144-153 | the title determines the view and the view the title, for all three views |
| TaskStore.CountsMatchViews | frontend/src/pages/Index.tsx:78-87 | each of the eight counts is the number of tasks satisfying its predicate, and the two totals are the lengths of the two views |
| TaskStore.RoleCountSplits | frontend/src/pages/Index.tsx:79-86 | the user's tasks on either side split by status: the four status counts add up to the total |
| TaskStore.MyStatusCountsBounded | frontend/src/pages/Index.tsx:79-86 | pending, in-progress and completed counts add up to at most the total on either side, and to strictly less once one of the user's tasks is stored as overdue |
| TaskStore.OverdueEscapesStatusCounts | frontend/src/pages/Index.tsx:79-83 | one of the user's tasks stored as overdue is in the user's view and in none of the three status lists, so the three status counts fall short of the total |
| TaskStore.MockTaskFive | frontend/src/pages/Index.tsx:58-68 | task "5" of the initial list is assigned to john.doe@company.com and stored as overdue |
| TaskStore.MockCountsMissStoredOverdue | frontend/src/pages/Index.tsx:58-83 | on the initial list, task "5" is in john.doe's view, so the total counts it, and is in none of the pending, in-progress and completed lists, so the three status counts add up to less than the total |
| TaskStore.SidebarCountIsViewSize | frontend/src/components/AppSidebar.tsx:37-52 | the two role entries of the sidebar show the lengths of their views; the dashboard entry shows the sum of both lengths, not the length of the dashboard's list |
| TaskStore.SelfAssignedCountedTwice | frontend/src/components/AppSidebar.tsx:38-42 | a task the user assigned to themself counts twice in the dashboard entry |
| TaskStore.ChangeStatus | frontend/src/pages/Index.tsx:89-92 | a status change keeps length and order, sets the status of every task with the id, and leaves every other task as it was |
| TaskStore.ChangeStatusKeepsIds | frontend/src/pages/Index.tsx:89-92 | a status change keeps every id in place, returns the same list for an unknown id, and is idempotent |
| TaskStore.CreateTask | frontend/src/pages/Index.tsx:103-111 | create appends exactly one task, with the old list as prefix; the new task has id "length + 1", the user as assigner and today as creation date |
| TaskStore.DeleteTask | frontend/src/pages/Index.tsx:125-126 | delete removes every task with the id and keeps every other task, in order; the length drops by the number of tasks with that id |
| TaskStore.DeleteIdempotent | frontend/src/pages/Index.tsx:125-126 | deleting twice is deleting once, and deleting an unknown id changes nothing |
| TaskStore.CreateThenDelete | frontend/src/pages/Index.tsx:103-126 | deleting the task just created restores the list when its id was new |
| TaskStore.MockIdsUnique | frontend/src/pages/Index.tsx:13-69 | the initial list has unique ids |
| TaskStore.DeleteFirstMock | frontend/src/pages/Index.tsx:13-69 | deleting task "1" from the initial list leaves the other four, in order |
| TaskStore.DeleteThenCreateCollides | frontend/src/pages/Index.tsx:106-126 | the id rule is not fresh: deleting "1" from the initial list and then creating gives two tasks with id "5" |
| TaskStore.Apply | frontend/src/pages/Index.tsx:89-131 | a status-change callback keeps the list's ids in place, a delete callback leaves no task with the id, and edit or open callbacks leave the list alone |
| TaskStore.StatusButtonSetsStatus | frontend/src/components/TaskCard.tsx:44-46 | pressing status button `b` on a listed task gives that task status `b` of the table |
| ChatBot.OnMessage | tmp/google-chat-bot.ts:1-136 | `onMessage` as written, run as ES2015 or later: a new-task dialog request gets the new-task dialog and makes no request; a message without text gets "No message detected."; a slash command makes no request and its reply is exactly `SlashReply` of the command id and the sender; other free text gets "Result:\n" followed by the query command's answer, with its requests; the update command replies "Result:\nError: Assignment to constant variable." and sends nothing |
| ChatBot.UpdateExampleGetsError | tmp/google-chat-bot.ts:40-132 | as written, the well-formed command "update task for Bob: report, status: done" gets "Result:\nError: Assignment to constant variable." and sends no request |
| ChatBot.NewTaskDialogFields | tmp/google-chat-bot.ts:5-34 | the dialog offers six fields, named assigner, asignee, request_date, task, deadline and status in that order (the keys `onCardClick` reads), with the status prefilled "incomplete" |
| ChatBot.SlashReply | tmp/google-chat-bot.ts:45-56 | the reply starts with the wave sign exactly for the help command; the help text greets the sender's display name, or "there" when it is empty, right after the greeting, and ends with the update command's line; any other id gets the "Unknown slash command (ID: " notice ending with the id and ")" |
| ChatBot.HelpLinesClassify | tmp/google-chat-bot.ts:51-106 | each command line of the help text is classified as the command it advertises: the add line as an add, the "get tasks for <user>" line as a query for "<user>", the update line as an update |
| ChatBot.AddTaskPhrasings | tmp/google-chat-bot.ts:59 | the add-task test accepts exactly the texts beginning, ignoring ASCII case, with "add task", "add the task" or "add a task", with nothing required after "task" |
| ChatBot.Classify | tmp/google-chat-bot.ts:59-106 | the command is the first test that passes, in source order (add, "get tasks for ", "get my tasks"/"get tasks assigned to me", "update task for " anywhere); the queried name is the text from index 14 on, trimmed |
| ChatBot.RunQuery | tmp/google-chat-bot.ts:43-130 | each query command posts exactly one request to its endpoint with the body the source builds: the message and the sender's email for add, the queried name for "get tasks for ", and the display name (or the email when it is empty) for the user's own tasks; the answer is the response body for add, the formatted array for the two list queries, and "Error: " + the message when the fetch or the parse threw; no command sends nothing and answers "Invalid command." |
| ChatBot.ListAnswerShowsErrors | tmp/google-chat-bot.ts:82-86 | a list answer starts with "Error: " exactly when the fetch threw or the body did not parse; otherwise it is the formatted array |
| ChatBot.FreeText | tmp/google-chat-bot.ts:43-130 | free text makes at most one request; no command leaves "Invalid command."; the update command throws before any request |
| ChatBot.FormatTaskList | tmp/google-chat-bot.ts:84-86 | an empty array gives "No tasks found."; one task t gives "Task List:\n1. t"; any non-empty array starts with "Task List:\n" |
| ChatBot.FormatTaskListAppend | tmp/google-chat-bot.ts:84-86 | one more task adds one more line, "n. t", at the end |
| ChatBot.UpdateBranch | tmp/google-chat-bot.ts:107-126 | the update branch as meant: no match of the pattern in the normalised text gives the usage text and no request; a match posts one request whose asignee, task and status are the trimmed groups of the first match, and answers with its response |
| ChatBot.OnMessageIntended | tmp/google-chat-bot.ts:106-132 | `onMessage` with a working update branch: every other event is handled as `OnMessage` handles it, and the update command replies "Result:\n" + the update branch's answer |
| ChatBot.OnCardClick | tmp/google-chat-bot.ts:138-178 | one add-task request whose fields are the first submitted value of each form field, or "" when missing, with an empty status replaced by "incomplete"; when the request comes back, the reply is the success line followed by the response body; when it throws, the failure text |
| UpdateCommand.Match | tmp/google-chat-bot.ts:108-110 | the matcher gives no result exactly when the pattern has no match; a result is the groups of the first match in the regex engine's backtracking order |
| UpdateCommand.FoundIsFirst | tmp/google-chat-bot.ts:108 | what the lazy and greedy searches find is a match, and no match precedes it in backtracking order |
| UpdateCommand.FirstShapeUnique | tmp/google-chat-bot.ts:108 | the first match is unique, so the capture groups are well defined |
| UpdateCommand.MatchComposed | tmp/google-chat-bot.ts:51 | round trip: a command typed in the form of the help text, "update task for A: T, status: S", gives back A, T and S whenever they can survive the pattern |
| UpdateCommand.CollapseIdempotent | tmp/google-chat-bot.ts:107 | collapsing whitespace runs twice is collapsing once |
| UpdateCommand.Extract | tmp/google-chat-bot.ts:107-117 | the update fields are absent exactly when the normalised text has no match, and otherwise they are the trimmed groups of the first match |
| Text.SearchFoldedFinds | tmp/google-chat-bot.ts:106 | the unanchored case-insensitive test succeeds exactly when the literal occurs somewhere |
| Text.StripEmptyIffAllSpace | src/ritvik/excel_utils.py:58 | `str(x).strip() == ""` holds exactly when the text is all whitespace |
| Sheet.AddTask | src/ritvik/excel_utils.py:21-34 | one row is appended after the existing ones; it has eight cells in the order of HEADERS, with the deadline cell empty exactly when there is no deadline |
| Sheet.WidthAfterAdd | src/ritvik/excel_utils.py:25-34 | adding a task makes the sheet at least eight columns wide |
| Sheet.ParseRow | src/ritvik/excel_utils.py:44-76 | a row that becomes a task has 7 or 8 cells, none of them blank, and the task's fields are its cells; a 7-cell row is read in the legacy layout |
| Sheet.ListTasks | src/ritvik/excel_utils.py:37-77 | the listing has at most one task per row; each listed task comes from a row that parses to it, and every row that parses has its task listed |
| Sheet.Kept | src/ritvik/excel_utils.py:42-77 | a single row gives its own task when it parses and nothing otherwise; every parsing row's task is kept; with KeptAppend this fixes the listing row by row, in row order |
| Sheet.KeptAppend | src/ritvik/excel_utils.py:42-77 | rows are read one at a time in order, so the listing of a concatenation is the concatenation of the listings |
| Sheet.ListTasksIgnoresAsignee | src/ritvik/excel_utils.py:37-60 | the listing does not depend on the `asignee` argument |
| Sheet.TaskRowParses | src/ritvik/excel_utils.py:25-72 | the row of a task whose cells are all non-blank and whose dates and id read back reads back as that task; the row of a task without a deadline is skipped |
| Sheet.AddThenList | src/ritvik/excel_utils.py:21-77 | on an eight-column sheet, adding a task and listing gives the old listing followed by the task |
| Sheet.AddHidesNarrowRows | src/ritvik/excel_utils.py:21-77 | on a sheet narrower than eight columns, adding a task hides every earlier row from the listing, because each is then read with an empty task id |
| Sheet.WideSheetListsNothing | src/ritvik/excel_utils.py:47-56 | on a sheet wider than eight columns no row is listed |
| Sheet.MarkTaskComplete | src/ritvik/excel_utils.py:79-88 | sets cell 5 of the first row whose cell 6 reads as the id, and changes nothing else; not found exactly when no row matches; IndexError when the sheet has a task row and is narrower than seven columns |
| Sheet.UpdateStatusByName | src/ritvik/excel_utils.py:90-100 | sets cell 5 (the deadline in HEADERS' layout) of the first row whose cells 1 and 3 equal the keys exactly, and changes nothing else; not found exactly when no row matches, once the sheet is six columns wide |
| Sheet.ByNameHidesAddedTask | src/ritvik/excel_utils.py:90-100 | updating by name the task just added writes the status into its deadline cell; when the status is not a date, the task that was listed is listed no more |
| Sheet.UpdateStatusByNameByHeaders | src/ritvik/excel_utils.py:90-100 | the intended update by name: sets the status cell (6) of the first row whose cells 1 and 3 equal the keys, and changes nothing else; not found exactly when no row matches |
| Sheet.ByNameByHeadersUpdatesAddedTask | src/ritvik/excel_utils.py:90-100 | with HEADERS' columns, updating the task just added by name lists it afterwards with the new status |
| Sheet.UpdateById | src/ritvik/excel_utils.py:103-124 | overwrites the eight cells of the first row whose cell 7 reads as the id with the task's row, and changes nothing else; not found exactly when no row matches |
| Sheet.UpdateByIdReplacesAddedTask | src/ritvik/excel_utils.py:103-124 | updating by id the task just added by `add_task` finds its row, and reading the sheet back lists the new task in its place |
| Sheet.MarkMissesAddedTask | src/ritvik/excel_utils.py:79-124 | given a task just added, `mark_task_complete` does not find it by its id (cell 6 holds the status), while `update_task_by_id` does |
| Sheet.MarkTaskCompleteByHeaders | src/ritvik/excel_utils.py:79-88 | the intended status update: sets the status cell (6) of the first row whose task-id cell (7) reads as the id, and changes nothing else |
| Sheet.MarkByHeadersFindsAddedTask | src/ritvik/excel_utils.py:79-88 | with HEADERS' columns, marking a task just added finds its row, and listing then gives the task with the new status |
| Api.FirstMissing | src/ritvik/main.py:25-28 | the first key the body lacks, with all earlier keys present; none exactly when all are present |
| Api.AddTaskFromChat | src/ritvik/main.py:11-48 | the first missing key of the seven gives 400 "Missing field: k"; with all present, a date that does not parse gives 400 "Invalid date format..."; success exactly when all seven are present, both dates parse, the text fields are strings and no text holds a control character a cell refuses; such a character gives 500 with the sheet unchanged; success appends the task with a fresh id, and nothing else changes the sheet |
| Api.EmptyBodyMissesAsigner | src/ritvik/main.py:25-28 | an empty body gets 400 "Missing field: asigner" |
| Api.GetTasksByName | src/ritvik/main.py:51-65 | an empty name gives 400; otherwise the reply does not depend on the name: an empty listing when no row is listed, and 500 otherwise, because the format reads a field the task record lacks |
| Api.UpdateTaskStatus | src/ritvik/main.py:68-85 | a falsy id or status gives 400, a non-UUID id 400; otherwise success exactly when the store found a row and the status is a value a cell can hold (not an array or object, and no text with a control character other than tab, line feed or carriage return), with the store's sheet; any other status on a found row gives 500 and saves nothing; a row too short for the store gives 500 and saves nothing; 404 when the store found no row |
| Api.TaskNameOf | src/ritvik/main.py:97 | "task" wins over "task_name" when truthy |
| Api.UpdateStatusByName | src/ritvik/main.py:88-105 | any of asignee, task or status falsy gives 400; otherwise success exactly when the store found a row and the status is a value a cell can hold (not an array or object, and no text with a control character other than tab, line feed or carriage return); any other status on a found row gives 500 and saves nothing; a row too short for the store gives 500 and saves nothing; 404 when the store found no row |
| Api.BuildTask | src/ritvik/main.py:114-129 | a task is built exactly when each truthy date parses, the five text keys are present and hold strings, and the id is a UUID; it carries those values, the parsed dates and the parsed id, with now for a falsy request date and none for a falsy deadline; otherwise the first failure in Python's evaluation order wins: the request date, the deadline, the first missing key in argument order, the id, then a non-string field |
| Api.UpdateById | src/ritvik/main.py:108-137 | a falsy id gives 400 "Missing task_id."; a failed build gives 400 "Invalid input: " followed by the build error's text, with the sheet unchanged; once the task is built, success exactly when the store, searched with the id as sent, updated a row and every text field is one a cell accepts; a refused text on a found row gives 500 with the sheet unchanged; 404 when the store found none; 500 with the sheet unchanged when a row is too short for the store |
| Api.ByIdBodyUpdatesAddedTask | src/ritvik/main.py:108-137 | end to end: a body carrying every field of a listable task as text, sent with the id of the task just added, is built into that task exactly, gets "Task '<name>' updated successfully.", and afterwards the sheet lists that task alone |
| Api.AssignedTo | src/ritvik/main.py:150-151 | the kept tasks are a subsequence of the listing, one per listed task whose asignee contains the query, ignoring case |
| Api.AssignedToUnique | src/ritvik/main.py:150-151 | the contract of AssignedTo fixes the result: any order-preserving selection of matching tasks, one per matching position, is that result |
| Api.AssignedToMe | src/ritvik/main.py:140-156 | an empty name gives 400; a string name gives the formatted tasks whose asignee contains it, ignoring case, in store order; a name that is not a string gives an empty listing when nothing is listed (the comprehension never lower-cases it) and 500 otherwise |
| Api.AssignedBy | src/ritvik/main.py:167-175 | the kept tasks are a subsequence of the listing, one per listed task where the stripped lower-cased assigner and query contain one another |
| Api.AssignedByUnique | src/ritvik/main.py:167-175 | the contract of AssignedBy fixes the result in the same way |
| Api.AssignedByMe | src/ritvik/main.py:159-188 | "assigner" wins over "asigner" when truthy; an empty query gives 400; a truthy query that is not a string gives 500, since `strip()` raises; a string query gives the formatted matching tasks in store order |
| Api.BlankQueryMatchesAll | src/ritvik/main.py:167-175 | a whitespace-only query matches every task |
| Api.ChatAddsAreRefused | src/ritvik/main.py:25-28 | the bot's add-task message and its new-task form both send "assigner", so the backend answers 400 "Missing field: asigner" and leaves the sheet alone |
| Api.ChatUpdateReachesStore | src/ritvik/main.py:95-103 | the bot's update request with non-empty fields reaches the store with exactly those fields, and succeeds exactly when the store updates a row and a cell accepts the status; a refused status on a found row gives 500 and saves nothing |
| Api.ChatUpdateHidesTask | src/ritvik/main.py:95-103 | end to end: the chat bot's update request for a task just added gets a success reply and afterwards the task is no longer listed, when the new status is not a date and a cell accepts it; a status a cell refuses gets 500 and the task stays listed |

## Left out

- Rendering, styling and toasts. The dashboard and sidebar components are left out too, except for the sums they show (`SidebarCount`).
- Dates are integers. The conversions `new Date(...)`, `toLocaleDateString`, `toISOString`, `isoformat`, `fromisoformat` and `strftime`, and time zones, are parameters or left out.
- The Unicode NFKC normalisation in the bot's update branch is not modelled. `Normalize` only collapses whitespace and trims.
- Case mapping is limited:
  - JavaScript `toLowerCase` is modelled for ASCII letters and the Kelvin sign, which is all that a comparison with lower-case ASCII text can observe.
  - Python `lower()` is modelled for ASCII letters only.
  - Full Unicode case mapping is left out.
- Text is a sequence of characters. JavaScript's UTF-16 indices (`substring(14)`) are taken as character indices.
- Network calls, the ngrok URLs and `Logger` are left out. `fetch` is a parameter that returns a body or an exception message.
- The bot's `JSON.parse` is a parameter that gives an array of strings or an error. A body that is valid JSON but not an array of strings is not modelled.
- `onCardClick`: a form field with `stringInputs` but no `value` would throw a TypeError outside the `try`. That case is not modelled.
- ChatBot.OnMessage: the file is taken to run as ES2015 or later JavaScript, where assigning to a `const` throws. `tsc` rejects line 107, and a build downlevelled to ES5 turns the `const` into `var`; under such a build the update branch behaves as `OnMessageIntended`.
- `onMessage`: a sender without an email is not modelled. The email is always a string.
- Exceptions in the backend:
  - The text of an exception is a parameter, apart from `KeyError`.
  - Pydantic coercion is not modelled: a record field that is not a JSON string fails validation.
  - An uncaught exception becomes the 500 reply.
- `src/ritvik/models.py` is not part of this model. Its record has a single `task` field, which disagrees with the eight columns of `HEADERS` that `main.py` and `excel_utils.py` use. The task record follows `HEADERS`. So `GetTasksByName` fails on the missing `task` field, as the handler's line 62 does with this record.
- Api.UpdateTaskStatus, Api.UpdateStatusByName: cells hold text. A number or boolean status is stored as its `str()` text, where openpyxl would store the number itself and a later `list_tasks` would then skip the row, since the record wants a string. An array or object status is modelled: the cell setter raises, giving 500, as it does for a string holding a control character other than tab, line feed or carriage return.
- Api.AddTaskFromChat, Api.UpdateTaskStatus, Api.UpdateStatusByName, Api.UpdateById: openpyxl truncates a string longer than 32767 characters when it stores it; the model stores the whole string. The date and UUID texts the handlers write are taken to be ones a cell accepts.
- Trailing rows whose cells are all empty are not modelled. Neither is the bare `if not row` check, since every yielded row has the sheet's width.
- Loading and saving the workbook, `init_excel` and file paths are left out. The sheet is a value; its header is whatever row 1 holds.
- The other chat bots (`tmp/hello-chat-bot.ts`, `tmp/hi-with-dialog.ts`) and the test suite are not part of this model.
- The handlers in `Api` call the worksheet functions as written. The corrected `Sheet.MarkTaskCompleteByHeaders` and `Sheet.UpdateStatusByNameByHeaders` stand beside them, with their own lemmas.
- Api.GetTasksByName, Api.AssignedToMe, Api.AssignedByMe: the task lines are produced by a formatting parameter. The `strftime` text is not modelled.
- Api.UpdateTaskStatus, Api.UpdateStatusByName: the success message text is not stated in the contract, only that the reply is a success.

## Findings

| source | as written | input that shows it | evidently intended | confidence | as-written member | corrected member |
|---|---|---|---|---|---|---|
| tmp/google-chat-bot.ts:40-108 | line 107 assigns to `messageText`, which line 40 declares `const`; under ES2015 semantics the assignment throws a TypeError, and the catch at line 128 turns it into the reply | the message "update task for Bob: report, status: done" gets "Result:\nError: Assignment to constant variable." and no request is sent | normalise the text, match it against the pattern, and post the trimmed groups to the update endpoint | high if the file runs as ES2015 or later JavaScript, as pasted into Apps Script's V8 editor; a TypeScript build downlevelled to ES5 emits `var` and the branch works; not executed | ChatBot.UpdateExampleGetsError | ChatBot.OnMessageIntended |
| src/ritvik/excel_utils.py:79-88 | `mark_task_complete` looks for the id in cell 6 and writes cell 5, the positions of the seven-column legacy layout | a task appended by `add_task`, whose status differs from its id: the id sits in cell 7, cell 6 holds the status, so `/update-task-status` answers 404 | look for the id in cell 7 and write the status in cell 6, as `HEADERS` and `update_task_by_id` lay the row out | medium, not executed | Sheet.MarkMissesAddedTask | Sheet.MarkTaskCompleteByHeaders |
| src/ritvik/excel_utils.py:94-97 | `update_task_status_by_name` writes the status to cell 5, the status column of the legacy layout but the deadline column of `HEADERS` | a task appended by `add_task`, then updated by name to "done" (the chat bot's update request): its deadline cell holds "done", which does not parse as a date, so `list_tasks` skips the row and the task disappears from every listing | write the status to cell 6, as `HEADERS` lays the row out | medium, not executed | Sheet.ByNameHidesAddedTask | Sheet.UpdateStatusByNameByHeaders |

=== FILE: Api.dfy ===
/** The HTTP handlers of the backend (src/ritvik/main.py). A handler takes
    the parsed JSON body and the worksheet and gives a reply (a message, a
    list of formatted tasks, or an error status with its detail) together
    with the worksheet afterwards. An exception nothing catches becomes
    FastAPI's 500 reply. */
module Api {
  import opened Wrappers
  import opened Text
  import Seqs
  import Sheet
  import ChatBot

  /** A JSON value of a request body: a string, null, an array or object
      (`Container`), or any other value (a number or a boolean); the last two
      are kept as their truthiness and their `str()` text. */
  datatype Value = Str(s: string) | Null | Other(truthy: bool, text: string) | Container(truthy: bool, text: string)

  type Body = map<string, Value>

  datatype Reply = Message(text: string) | Listing(items: seq<string>) | Failure(code: int, detail: string)

  datatype Handled = Handled(reply: Reply, sheet: Sheet.Sheet)

  /** Why building the task of update-by-id failed; `explain` gives the text
      of the exception, except for a missing key, whose `KeyError` text is the
      quoted key. */
  datatype InputError = BadDate(key: string) | MissingKey(key: string) | BadId | NotText

  /** The clock, the id generator, the display format of a task (which uses
      `strftime`) and exception texts, all outside the model. */
  datatype Env = Env(codec: Sheet.Codec, now: int, freshId: string,
                     formatTask: Sheet.Task -> string,
                     explain: InputError -> string)

  const RequiredFields := ["asigner", "asignee", "request_date", "task_name", "task_description", "deadline", "status"]

  const ServerError := "Internal Server Error"
  const InvalidDate := "Invalid date format. Use ISO format: YYYY-MM-DDTHH:MM"
  const Added := "Task added from chat message."
  const MissingName := "Missing asignee name."
  const MissingIdOrStatus := "Missing task_id or status."
  const InvalidId := "Invalid task_id format."
  const NotFoundById := "Task not found."
  const MissingByName := "Missing asignee, task, or status."
  const NotFoundByName := "Task not found for given asignee and task name."
  const MissingId := "Missing task_id."
  const InvalidInput := "Invalid input: "
  const NotFoundForId := "Task not found for given id."
  const MissingAssigner := "Missing assigner name."

  /** `body.get(key)`. */
  function Get(body: Body, key: string): Option<Value> {
    if key in body then Some(body[key]) else None
  }

  /** Python truthiness of `body.get(key)`. */
  predicate Truthy(v: Option<Value>) {
    match v
    case None => false
    case Some(Str(s)) => s != ""
    case Some(Null) => false
    case Some(Other(t, _)) => t
    case Some(Container(t, _)) => t
  }

  /** Python's `a or b`. */
  function OrValue(a: Option<Value>, b: Option<Value>): (r: Option<Value>)
    ensures Truthy(r) <==> Truthy(a) || Truthy(b)
  {
    if Truthy(a) then a else b
  }

  /** `str(v)`. */
  function ValueText(v: Value): string {
    match v
    case Str(s) => s
    case Null => "None"
    case Other(_, t) => t
    case Container(_, t) => t
  }

  /** openpyxl's cell setter accepts None, numbers, booleans and strings
      without an illegal control character; it raises `ValueError` for a list
      or a dict and `IllegalCharacterError` for a string holding such a
      character. */
  predicate Storable(v: Value) {
    match v
    case Str(s) => Sheet.LegalText(s)
    case Container(_, _) => false
    case _ => true
  }

  /** The string a `str` field of the task record accepts; any other value
      fails validation. */
  function AsText(v: Value): Option<string> {
    if v.Str? then Some(v.s) else None
  }

  /** `datetime.fromisoformat(v)`; a value that is not a string raises. */
  function ParseDate(v: Value, codec: Sheet.Codec): Option<int> {
    if v.Str? then codec.fromIsoFormat(v.s) else None
  }

  /** `UUID(v)`, giving its canonical text. */
  function ParseId(v: Value, codec: Sheet.Codec): Option<string> {
    if v.Str? then codec.parseUuid(v.s) else None
  }

  /** The first of `keys` that the body lacks. */
  function FirstMissing(body: Body, keys: seq<string>): (r: Option<string>)
    ensures r.None? <==> forall i :: 0 <= i < |keys| ==> keys[i] in body
    ensures r.Some? ==> exists i :: && 0 <= i < |keys| && keys[i] == r.value && keys[i] !in body
                                    && forall j :: 0 <= j < i ==> keys[j] in body
  {
    if |keys| == 0 then None
    else if keys[0] !in body then Some(keys[0])
    else
      var r := FirstMissing(body, keys[1..]);
      if r.Some? then
        var i :| && 0 <= i < |keys| - 1 && keys[1..][i] == r.value && keys[1..][i] !in body
                 && forall j :: 0 <= j < i ==> keys[1..][j] in body;
        assert forall j :: 0 <= j < i + 1 ==> keys[j] in body by {
          forall j | 0 <= j < i + 1 ensures keys[j] in body {
            if j > 0 {
              assert keys[j] == keys[1..][j - 1];
            }
          }
        }
        r
      else
        assert forall i :: 0 <= i < |keys| ==> keys[i] in body by {
          forall i | 0 <= i < |keys| ensures keys[i] in body {
            if i > 0 {
              assert keys[i] == keys[1..][i - 1];
            }
          }
        }
        r
  }

  /** The keys the task record is built from, besides the dates and the id. */
  const TaskKeys := ["asigner", "asignee", "task_name", "task_description", "status"]

  predicate HasTaskKeys(body: Body) {
    "asigner" in body && "asignee" in body && "task_name" in body && "task_description" in body && "status" in body
  }

  predicate HasAddKeys(body: Body) {
    HasTaskKeys(body) && "request_date" in body && "deadline" in body
  }

  lemma TaskKeysPresent(body: Body)
    ensures FirstMissing(body, TaskKeys).None? <==> HasTaskKeys(body)
  {
    if HasTaskKeys(body) {
      forall i | 0 <= i < |TaskKeys| ensures TaskKeys[i] in body {
      }
    } else {
      assert TaskKeys[0] !in body || TaskKeys[1] !in body || TaskKeys[2] !in body || TaskKeys[3] !in body
             || TaskKeys[4] !in body;
    }
  }

  lemma AddKeysPresent(body: Body)
    ensures FirstMissing(body, RequiredFields).None? <==> HasAddKeys(body)
  {
    if HasAddKeys(body) {
      forall i | 0 <= i < |RequiredFields| ensures RequiredFields[i] in body {
      }
    } else {
      assert RequiredFields[0] !in body || RequiredFields[1] !in body || RequiredFields[2] !in body
             || RequiredFields[3] !in body || RequiredFields[4] !in body || RequiredFields[5] !in body
             || RequiredFields[6] !in body;
    }
  }

  // 1. /add-task-from-chat

  /** The text fields of an add-task body, when all are strings. */
  function AddFields(body: Body): Option<seq<string>>
    requires HasTaskKeys(body)
  {
    var vs := [AsText(body["asigner"]), AsText(body["asignee"]), AsText(body["task_name"]),
               AsText(body["task_description"]), AsText(body["status"])];
    if exists i :: 0 <= i < |vs| && vs[i].None? then None
    else Some([vs[0].value, vs[1].value, vs[2].value, vs[3].value, vs[4].value])
  }

  /** The task an add-task body describes, once its keys are present, its
      dates parse and its text fields are strings. */
  function AddedTask(body: Body, env: Env): Sheet.Task
    requires HasAddKeys(body) && AddFields(body).Some?
    requires ParseDate(body["request_date"], env.codec).Some?
  {
    Sheet.Task(body["asigner"].s, body["asignee"].s, ParseDate(body["request_date"], env.codec).value,
               body["task_name"].s, body["task_description"].s, ParseDate(body["deadline"], env.codec),
               body["status"].s, env.freshId)
  }

  /** `add_task_from_chat`: the first missing key of `RequiredFields` is
      reported; then both dates must parse; only presence is checked, so empty
      strings pass. The task gets a fresh id and is appended to the sheet;
      `ws.append` raises, before the save, when a text field holds a character
      a cell refuses. */
  function AddTaskFromChat(body: Body, sheet: Sheet.Sheet, env: Env): (h: Handled)
    ensures FirstMissing(body, RequiredFields).Some? ==>
              h == Handled(Failure(400, "Missing field: " + FirstMissing(body, RequiredFields).value), sheet)
    ensures (HasAddKeys(body) && (ParseDate(body["request_date"], env.codec).None?
                                  || ParseDate(body["deadline"], env.codec).None?)) ==>
              h == Handled(Failure(400, InvalidDate), sheet)
    ensures h.reply == Message(Added) <==>
              && HasAddKeys(body)
              && ParseDate(body["request_date"], env.codec).Some?
              && ParseDate(body["deadline"], env.codec).Some?
              && AddFields(body).Some?
              && Sheet.Writable(AddedTask(body, env))
    ensures (&& HasAddKeys(body)
             && ParseDate(body["request_date"], env.codec).Some?
             && ParseDate(body["deadline"], env.codec).Some?
             && AddFields(body).Some?
             && !Sheet.Writable(AddedTask(body, env))) ==>
              h == Handled(Failure(500, ServerError), sheet)
    ensures h.reply == Message(Added) ==>
              h.sheet == Sheet.AddTask(sheet, Sheet.Task(
                body["asigner"].s, body["asignee"].s, ParseDate(body["request_date"], env.codec).value,
                body["task_name"].s, body["task_description"].s, ParseDate(body["deadline"], env.codec),
                body["status"].s, env.freshId), env.codec)
    ensures h.reply != Message(Added) ==> h.sheet == sheet
  {
    AddKeysPresent(body);
    match FirstMissing(body, RequiredFields)
    case Some(k) => Handled(Failure(400, "Missing field: " + k), sheet)
    case None =>
      var requestDate := ParseDate(body["request_date"], env.codec);
      var deadline := ParseDate(body["deadline"], env.codec);
      if requestDate.None? || deadline.None? then Handled(Failure(400, InvalidDate), sheet)
      else
        match AddFields(body)
        case None => Handled(Failure(500, ServerError), sheet)
        case Some(_) =>
          var t := AddedTask(body, env);
          if !Sheet.Writable(t) then Handled(Failure(500, ServerError), sheet)
          else Handled(Message(Added), Sheet.AddTask(sheet, t, env.codec))
  }

  /** An empty body reports the first required key. */
  lemma EmptyBodyMissesAsigner(sheet: Sheet.Sheet, env: Env)
    ensures AddTaskFromChat(map[], sheet, env).reply == Failure(400, "Missing field: asigner")
  {
    var empty: Body := map[];
    assert RequiredFields[0] !in empty;
  }

  // 2. /get-tasks-by-name

  /** `get_tasks_by_name`: `list_tasks` filters nothing, so whatever the name,
      every listed task is formatted; the format reads a `task` field the
      record (laid out as `Headers`) does not have, so any listed task makes
      the handler raise. */
  function GetTasksByName(body: Body, sheet: Sheet.Sheet, env: Env): (h: Handled)
    ensures h.sheet == sheet
    ensures !Truthy(Get(body, "asignee")) ==> h.reply == Failure(400, MissingName)
    ensures Truthy(Get(body, "asignee")) ==>
              (h.reply == Listing([]) <==> Sheet.ListTasks(sheet, None, env.codec) == [])
    ensures Truthy(Get(body, "asignee")) && Sheet.ListTasks(sheet, None, env.codec) != [] ==>
              h.reply == Failure(500, ServerError)
  {
    var asignee := Get(body, "asignee");
    if !Truthy(asignee) then Handled(Failure(400, MissingName), sheet)
    else
      var query := AsText(asignee.value);
      var tasks := Sheet.ListTasks(sheet, query, env.codec);
      Sheet.ListTasksIgnoresAsignee(sheet, query, None, env.codec);
      if tasks == [] then Handled(Listing([]), sheet) else Handled(Failure(500, ServerError), sheet)
  }

  // 3. /update-task-status

  /** `update_task_status`: both values must be truthy, the id a UUID; the
      store's `mark_task_complete` decides between success and 404. A status
      the cell cannot hold raises when the row is found, before the save. */
  function UpdateTaskStatus(body: Body, sheet: Sheet.Sheet, env: Env): (h: Handled)
    ensures !Truthy(Get(body, "task_id")) || !Truthy(Get(body, "status")) ==>
              h == Handled(Failure(400, MissingIdOrStatus), sheet)
    ensures (Truthy(Get(body, "task_id")) && Truthy(Get(body, "status"))
             && ParseId(body["task_id"], env.codec).None?) ==> h == Handled(Failure(400, InvalidId), sheet)
    ensures (Truthy(Get(body, "task_id")) && Truthy(Get(body, "status"))
             && ParseId(body["task_id"], env.codec).Some?) ==>
              var w := Sheet.MarkTaskComplete(sheet, ParseId(body["task_id"], env.codec).value,
                                              ValueText(body["status"]));
              && (h.reply.Message? <==> w.Written? && Storable(body["status"]))
              && (w.Written? && Storable(body["status"]) ==> h.sheet == w.sheet)
              && (w.Written? && !Storable(body["status"]) ==> h == Handled(Failure(500, ServerError), sheet))
              && (w.NotFound? ==> h == Handled(Failure(404, NotFoundById), sheet))
              && (w.IndexFault? ==> h == Handled(Failure(500, ServerError), sheet))
  {
    var id := Get(body, "task_id");
    var status := Get(body, "status");
    if !Truthy(id) || !Truthy(status) then Handled(Failure(400, MissingIdOrStatus), sheet)
    else
      match ParseId(id.value, env.codec)
      case None => Handled(Failure(400, InvalidId), sheet)
      case Some(u) =>
        match Sheet.MarkTaskComplete(sheet, u, ValueText(status.value))
        case Written(s', _) =>
          if !Storable(status.value) then Handled(Failure(500, ServerError), sheet)
          else Handled(Message("Task status updated to '" + ValueText(status.value) + "'."), s')
        case NotFound => Handled(Failure(404, NotFoundById), sheet)
        case IndexFault => Handled(Failure(500, ServerError), sheet)
  }

  // 4. /update-task-status-by-name

  /** The task name of an update-by-name body: "task" when truthy, else
      "task_name". */
  function TaskNameOf(body: Body): (v: Option<Value>)
    ensures Truthy(Get(body, "task")) ==> v == Get(body, "task")
    ensures !Truthy(Get(body, "task")) ==> v == Get(body, "task_name")
  {
    OrValue(Get(body, "task"), Get(body, "task_name"))
  }

  /** `update_task_status_by_name_endpoint`: the three values must be truthy;
      the keys are compared with the cells exactly. A status the cell cannot
      hold raises when the row is found, before the save. */
  function UpdateStatusByName(body: Body, sheet: Sheet.Sheet, env: Env): (h: Handled)
    ensures !Truthy(Get(body, "asignee")) || !Truthy(TaskNameOf(body)) || !Truthy(Get(body, "status")) ==>
              h == Handled(Failure(400, MissingByName), sheet)
    ensures Truthy(Get(body, "asignee")) && Truthy(TaskNameOf(body)) && Truthy(Get(body, "status")) ==>
              var w := Sheet.UpdateStatusByName(sheet, AsText(body["asignee"]), AsText(TaskNameOf(body).value),
                                                ValueText(body["status"]));
              && (h.reply.Message? <==> w.Written? && Storable(body["status"]))
              && (w.Written? && Storable(body["status"]) ==> h.sheet == w.sheet)
              && (w.Written? && !Storable(body["status"]) ==> h == Handled(Failure(500, ServerError), sheet))
              && (w.NotFound? ==> h == Handled(Failure(404, NotFoundByName), sheet))
              && (w.IndexFault? ==> h == Handled(Failure(500, ServerError), sheet))
  {
    var asignee := Get(body, "asignee");
    var task := TaskNameOf(body);
    var status := Get(body, "status");
    if !Truthy(asignee) || !Truthy(task) || !Truthy(status) then Handled(Failure(400, MissingByName), sheet)
    else
      match Sheet.UpdateStatusByName(sheet, AsText(asignee.value), AsText(task.value), ValueText(status.value))
      case Written(s', _) =>
        if !Storable(status.value) then Handled(Failure(500, ServerError), sheet)
        else Handled(Message("Task '" + ValueText(task.value) + "' status updated to '" + ValueText(status.value) + "'."), s')
      case NotFound => Handled(Failure(404, NotFoundByName), sheet)
      case IndexFault => Handled(Failure(500, ServerError), sheet)
  }

  // 4a. /update-task-status-by-id

  /** A truthy date value of the body is one `fromisoformat` accepts. */
  predicate DateParses(body: Body, key: string, codec: Sheet.Codec) {
    Truthy(Get(body, key)) ==> ParseDate(body[key], codec).Some?
  }

  /** The five text fields of the body are strings, as the record wants. */
  predicate FieldsAreText(body: Body)
    requires HasTaskKeys(body)
  {
    && AsText(body["asigner"]).Some? && AsText(body["asignee"]).Some? && AsText(body["task_name"]).Some?
    && AsText(body["task_description"]).Some? && AsText(body["status"]).Some?
  }

  /** The task of an update-by-id body, built in the order Python evaluates
      it: the dates (an empty request date means now, an empty deadline
      none), the keys in argument order, the id, then field validation. */
  function BuildTask(body: Body, id: Value, env: Env): (r: Result)
    ensures r.Built? <==> && DateParses(body, "request_date", env.codec) && DateParses(body, "deadline", env.codec)
                          && HasTaskKeys(body) && ParseId(id, env.codec).Some? && FieldsAreText(body)
    ensures !DateParses(body, "request_date", env.codec) ==> r == Failed(BadDate("request_date"))
    ensures DateParses(body, "request_date", env.codec) && !DateParses(body, "deadline", env.codec) ==>
              r == Failed(BadDate("deadline"))
    ensures (&& DateParses(body, "request_date", env.codec) && DateParses(body, "deadline", env.codec)
             && FirstMissing(body, TaskKeys).Some?) ==> r == Failed(MissingKey(FirstMissing(body, TaskKeys).value))
    ensures (&& DateParses(body, "request_date", env.codec) && DateParses(body, "deadline", env.codec)
             && HasTaskKeys(body) && ParseId(id, env.codec).None?) ==> r == Failed(BadId)
    ensures (&& DateParses(body, "request_date", env.codec) && DateParses(body, "deadline", env.codec)
             && HasTaskKeys(body) && ParseId(id, env.codec).Some? && !FieldsAreText(body)) ==> r == Failed(NotText)
    ensures r.Built? && Truthy(Get(body, "request_date")) ==>
              ParseDate(body["request_date"], env.codec) == Some(r.task.requestDate)
    ensures r.Built? && Truthy(Get(body, "deadline")) ==> ParseDate(body["deadline"], env.codec) == r.task.deadline
    ensures r.Built? ==> HasTaskKeys(body)
                         && AsText(body["asigner"]) == Some(r.task.asigner)
                         && AsText(body["asignee"]) == Some(r.task.asignee)
                         && AsText(body["task_name"]) == Some(r.task.taskName)
                         && AsText(body["task_description"]) == Some(r.task.taskDescription)
                         && AsText(body["status"]) == Some(r.task.status)
    ensures r.Built? ==> && ParseId(id, env.codec) == Some(r.task.taskId)
                         && (!Truthy(Get(body, "request_date")) ==> r.task.requestDate == env.now)
                         && (!Truthy(Get(body, "deadline")) ==> r.task.deadline.None?)
  {
    var requestDate := if Truthy(Get(body, "request_date")) then ParseDate(body["request_date"], env.codec)
                       else Some(env.now);
    var deadline := if Truthy(Get(body, "deadline")) then ParseDate(body["deadline"], env.codec) else None;
    if requestDate.None? then Failed(BadDate("request_date"))
    else if Truthy(Get(body, "deadline")) && deadline.None? then Failed(BadDate("deadline"))
    else
      TaskKeysPresent(body);
      match FirstMissing(body, TaskKeys)
      case Some(k) => Failed(MissingKey(k))
      case None =>
        match ParseId(id, env.codec)
        case None => Failed(BadId)
        case Some(u) =>
          var vs := [AsText(body["asigner"]), AsText(body["asignee"]), AsText(body["task_name"]),
                     AsText(body["task_description"]), AsText(body["status"])];
          if vs[0].None? || vs[1].None? || vs[2].None? || vs[3].None? || vs[4].None? then Failed(NotText)
          else Built(Sheet.Task(vs[0].value, vs[1].value, requestDate.value, vs[2].value, vs[3].value,
                                deadline, vs[4].value, u))
  }

  datatype Result = Built(task: Sheet.Task) | Failed(error: InputError)

  /** The detail of a failed build: a `KeyError` shows the quoted key. */
  function InputDetail(e: InputError, env: Env): string {
    match e
    case MissingKey(k) => InvalidInput + "'" + k + "'"
    case _ => InvalidInput + env.explain(e)
  }

  /** `update_task_by_id_endpoint`: the store is searched for the id exactly
      as sent, while the row written holds the canonical text of the UUID. A
      text field a cell refuses raises during the writes, before the save. */
  function UpdateById(body: Body, sheet: Sheet.Sheet, env: Env): (h: Handled)
    ensures !Truthy(Get(body, "task_id")) ==> h == Handled(Failure(400, MissingId), sheet)
    ensures h.reply.Failure? && h.reply.code == 400 && Truthy(Get(body, "task_id")) ==>
              StartsWith(h.reply.detail, InvalidInput)
    ensures h.reply.Message? ==> Truthy(Get(body, "task_id")) && BuildTask(body, body["task_id"], env).Built?
    ensures Truthy(Get(body, "task_id")) && BuildTask(body, body["task_id"], env).Failed? ==>
              h == Handled(Failure(400, InputDetail(BuildTask(body, body["task_id"], env).error, env)), sheet)
    ensures (Truthy(Get(body, "task_id")) && BuildTask(body, body["task_id"], env).Built?) ==>
              var w := Sheet.UpdateById(sheet, ValueText(body["task_id"]), BuildTask(body, body["task_id"], env).task,
                                        env.codec);
              var t := BuildTask(body, body["task_id"], env).task;
              && (h.reply.Message? <==> w.Written? && Sheet.Writable(t))
              && (w.Written? && Sheet.Writable(t) ==> h.sheet == w.sheet)
              && (w.Written? && !Sheet.Writable(t) ==> h == Handled(Failure(500, ServerError), sheet))
              && (w.NotFound? ==> h == Handled(Failure(404, NotFoundForId), sheet))
              && (w.IndexFault? ==> h == Handled(Failure(500, ServerError), sheet))
    ensures !h.reply.Message? ==> h.sheet == sheet
  {
    var id := Get(body, "task_id");
    if !Truthy(id) then Handled(Failure(400, MissingId), sheet)
    else
      match BuildTask(body, id.value, env)
      case Failed(e) =>
        assert StartsWith(InputDetail(e, env), InvalidInput) by {
          assert InputDetail(e, env)[..|InvalidInput|] == InvalidInput;
        }
        Handled(Failure(400, InputDetail(e, env)), sheet)
      case Built(t) =>
        match Sheet.UpdateById(sheet, ValueText(id.value), t, env.codec)
        case Written(s', _) =>
          if !Sheet.Writable(t) then Handled(Failure(500, ServerError), sheet)
          else Handled(Message("Task '" + t.taskName + "' updated successfully."), s')
        case NotFound => Handled(Failure(404, NotFoundForId), sheet)
        case IndexFault => Handled(Failure(500, ServerError), sheet)
  }

  /** The body that sends every field of `u`, dates in ISO text, for the
      task id `id`. */
  function ByIdBody(u: Sheet.Task, id: string, codec: Sheet.Codec): Body
    requires u.deadline.Some?
  {
    map["task_id" := Str(id), "asigner" := Str(u.asigner), "asignee" := Str(u.asignee),
        "request_date" := Str(codec.isoFormat(u.requestDate)), "task_name" := Str(u.taskName),
        "task_description" := Str(u.taskDescription), "deadline" := Str(codec.isoFormat(u.deadline.value)),
        "status" := Str(u.status)]
  }

  /** End to end: an update-by-id body carrying the fields of `u`, sent with
      the id of the task just added, is built into `u` itself, answered with
      success, and afterwards `u` is listed in the old task's place. */
  lemma ByIdBodyUpdatesAddedTask(t: Sheet.Task, u: Sheet.Task, env: Env)
    requires Sheet.Listable(u, env.codec) && Sheet.Writable(u) && u.taskId == t.taskId
    ensures var body := ByIdBody(u, t.taskId, env.codec);
            BuildTask(body, body["task_id"], env) == Built(u)
    ensures var s := Sheet.AddTask(Sheet.Sheet(Sheet.HeaderRow(), []), t, env.codec);
            var h := UpdateById(ByIdBody(u, t.taskId, env.codec), s, env);
            && h.reply == Message("Task '" + u.taskName + "' updated successfully.")
            && Sheet.ListTasks(h.sheet, None, env.codec) == [u]
  {
    var body := ByIdBody(u, t.taskId, env.codec);
    assert Truthy(Get(body, "request_date")) && Truthy(Get(body, "deadline"));
    assert Truthy(Get(body, "task_id"));
    var r := BuildTask(body, body["task_id"], env);
    assert r.Built?;
    assert r.task == u;
    Sheet.UpdateByIdReplacesAddedTask(t, u, env.codec);
  }

  // 5. /get-tasks-assigned-to-me

  /** The asignee contains the query, ignoring case. */
  predicate AsigneeMatch(t: Sheet.Task, query: string) {
    Contains(LowerAscii(t.asignee), LowerAscii(query))
  }

  function AsigneeMatches(query: string): Sheet.Task -> bool {
    (t: Sheet.Task) => AsigneeMatch(t, query)
  }

  /** The tasks whose asignee matches the query, one per matching position. */
  function AssignedTo(tasks: seq<Sheet.Task>, query: string): (r: seq<Sheet.Task>)
    ensures Seqs.IsSubsequence(r, tasks)
    ensures forall t :: t in r <==> t in tasks && AsigneeMatch(t, query)
    ensures |r| == Seqs.Count(tasks, AsigneeMatches(query))
  {
    Seqs.FilterIsSubsequence(tasks, AsigneeMatches(query));
    Seqs.FilterLength(tasks, AsigneeMatches(query));
    Seqs.Filter(tasks, AsigneeMatches(query))
  }

  /** The contract of `AssignedTo` fixes its result: any order-preserving
      selection of matching tasks, one per matching position, is that
      result. */
  lemma AssignedToUnique(a: seq<Sheet.Task>, tasks: seq<Sheet.Task>, query: string)
    requires Seqs.IsSubsequence(a, tasks)
    requires forall i :: 0 <= i < |a| ==> AsigneeMatch(a[i], query)
    requires |a| == Seqs.Count(tasks, AsigneeMatches(query))
    ensures a == AssignedTo(tasks, query)
  {
    Seqs.FilterUnique(a, tasks, AsigneeMatches(query));
  }

  function Format(tasks: seq<Sheet.Task>, f: Sheet.Task -> string): (r: seq<string>)
    ensures |r| == |tasks| && forall i :: 0 <= i < |tasks| ==> r[i] == f(tasks[i])
  {
    seq(|tasks|, i requires 0 <= i < |tasks| => f(tasks[i]))
  }

  /** `get_tasks_assigned_to_me`. The query is lower-cased inside the
      comprehension's condition, so a name that is not a string raises only
      when some task is listed. */
  function AssignedToMe(body: Body, sheet: Sheet.Sheet, env: Env): (h: Handled)
    ensures h.sheet == sheet
    ensures !Truthy(Get(body, "asignee")) ==> h.reply == Failure(400, MissingName)
    ensures Truthy(Get(body, "asignee")) && body["asignee"].Str? ==>
              h.reply == Listing(Format(AssignedTo(Sheet.ListTasks(sheet, None, env.codec), body["asignee"].s),
                                        env.formatTask))
    ensures Truthy(Get(body, "asignee")) && !body["asignee"].Str? ==>
              (h.reply == Listing([]) <==> Sheet.ListTasks(sheet, None, env.codec) == [])
    ensures Truthy(Get(body, "asignee")) && !body["asignee"].Str? && Sheet.ListTasks(sheet, None, env.codec) != [] ==>
              h.reply == Failure(500, ServerError)
  {
    var asignee := Get(body, "asignee");
    if !Truthy(asignee) then Handled(Failure(400, MissingName), sheet)
    else if !asignee.value.Str? then
      if Sheet.ListTasks(sheet, None, env.codec) == [] then Handled(Listing([]), sheet)
      else Handled(Failure(500, ServerError), sheet)
    else
      var tasks := AssignedTo(Sheet.ListTasks(sheet, None, env.codec), asignee.value.s);
      Handled(Listing(Format(tasks, env.formatTask)), sheet)
  }

  // 6. /get-tasks-assigned-by-me

  /** `s.strip().lower()`. */
  function Normal(s: string): string {
    LowerAscii(PyStrip(s))
  }

  /** A task is kept when its normalised assigner and the normalised query
      contain one another, either way round. */
  predicate AssignerMatch(t: Sheet.Task, query: string) {
    Contains(Normal(t.asigner), Normal(query)) || Contains(Normal(query), Normal(t.asigner))
  }

  function AssignerMatches(query: string): Sheet.Task -> bool {
    (t: Sheet.Task) => AssignerMatch(t, query)
  }

  /** The tasks whose assigner matches the query, one per matching position. */
  function AssignedBy(tasks: seq<Sheet.Task>, query: string): (r: seq<Sheet.Task>)
    ensures Seqs.IsSubsequence(r, tasks)
    ensures forall t :: t in r <==> t in tasks && AssignerMatch(t, query)
    ensures |r| == Seqs.Count(tasks, AssignerMatches(query))
  {
    Seqs.FilterIsSubsequence(tasks, AssignerMatches(query));
    Seqs.FilterLength(tasks, AssignerMatches(query));
    Seqs.Filter(tasks, AssignerMatches(query))
  }

  /** The contract of `AssignedBy` fixes its result, as for `AssignedTo`. */
  lemma AssignedByUnique(a: seq<Sheet.Task>, tasks: seq<Sheet.Task>, query: string)
    requires Seqs.IsSubsequence(a, tasks)
    requires forall i :: 0 <= i < |a| ==> AssignerMatch(a[i], query)
    requires |a| == Seqs.Count(tasks, AssignerMatches(query))
    ensures a == AssignedBy(tasks, query)
  {
    Seqs.FilterUnique(a, tasks, AssignerMatches(query));
  }

  /** `get_tasks_assigned_by_me`: the query is "assigner" when truthy, else
      "asigner"; `strip()` on a query that is not a string raises. */
  function AssignedByMe(body: Body, sheet: Sheet.Sheet, env: Env): (h: Handled)
    ensures h.sheet == sheet
    ensures !Truthy(OrValue(Get(body, "assigner"), Get(body, "asigner"))) ==>
              h.reply == Failure(400, MissingAssigner)
    ensures var q := OrValue(Get(body, "assigner"), Get(body, "asigner"));
            Truthy(q) && q.value.Str? ==>
              h.reply == Listing(Format(AssignedBy(Sheet.ListTasks(sheet, None, env.codec), q.value.s),
                                        env.formatTask))
    ensures var q := OrValue(Get(body, "assigner"), Get(body, "asigner"));
            Truthy(q) && !q.value.Str? ==> h.reply == Failure(500, ServerError)
  {
    var assigner := OrValue(Get(body, "assigner"), Get(body, "asigner"));
    if !Truthy(assigner) then Handled(Failure(400, MissingAssigner), sheet)
    else if !assigner.value.Str? then Handled(Failure(500, ServerError), sheet)
    else
      var tasks := AssignedBy(Sheet.ListTasks(sheet, None, env.codec), assigner.value.s);
      Handled(Listing(Format(tasks, env.formatTask)), sheet)
  }

  /** Every text contains the empty text. */
  lemma ContainsEmpty(s: string)
    ensures Contains(s, "")
  {
    assert StartsWith(s, "");
  }

  /** A query of whitespace only normalises to "" and so matches every task. */
  lemma BlankQueryMatchesAll(tasks: seq<Sheet.Task>, query: string)
    requires AllPySpace(query)
    ensures AssignedBy(tasks, query) == tasks
  {
    StripEmptyIffAllSpace(query);
    forall t | t in tasks ensures AssignerMatch(t, query) {
      ContainsEmpty(Normal(t.asigner));
    }
    Seqs.FilterKeepsAll(tasks, AssignerMatches(query));
  }

  // The chat bot's requests, as the backend receives them

  /** The JSON body of a chat bot request. */
  function PayloadBody(p: ChatBot.Payload): Body {
    match p
    case AddFromChat(message, assigner) => map["message" := Str(message), "assigner" := Str(assigner)]
    case ByName(asignee) => map["asignee" := Str(asignee)]
    case StatusByName(asignee, task, status) =>
      map["asignee" := Str(asignee), "task" := Str(task), "status" := Str(status)]
    case FormTask(assigner, asignee, requestDate, task, deadline, status) =>
      map["assigner" := Str(assigner), "asignee" := Str(asignee), "request_date" := Str(requestDate),
          "task" := Str(task), "deadline" := Str(deadline), "status" := Str(status)]
  }

  /** Both ways the chat bot adds a task, the add-task message and the
      new-task dialog, send "assigner" where the backend wants "asigner", so
      the backend refuses every such request. */
  lemma ChatAddsAreRefused(p: ChatBot.Payload, sheet: Sheet.Sheet, env: Env)
    requires p.AddFromChat? || p.FormTask?
    ensures AddTaskFromChat(PayloadBody(p), sheet, env) == Handled(Failure(400, "Missing field: asigner"), sheet)
  {
    assert RequiredFields[0] !in PayloadBody(p);
  }

  /** The chat bot's update request, when its three fields are non-empty,
      reaches the store with exactly those fields: the reply is a success
      exactly when the store updated a row and a cell accepts the status;
      a status it refuses gives 500 and saves nothing. */
  lemma ChatUpdateReachesStore(asignee: string, task: string, status: string, sheet: Sheet.Sheet, env: Env)
    requires asignee != "" && task != "" && status != ""
    ensures var h := UpdateStatusByName(PayloadBody(ChatBot.StatusByName(asignee, task, status)), sheet, env);
            var w := Sheet.UpdateStatusByName(sheet, Some(asignee), Some(task), status);
            && (h.reply.Message? <==> w.Written? && Sheet.LegalText(status))
            && (w.Written? && Sheet.LegalText(status) ==> h.sheet == w.sheet)
            && (w.Written? && !Sheet.LegalText(status) ==> h == Handled(Failure(500, ServerError), sheet))
  {
    var b := PayloadBody(ChatBot.StatusByName(asignee, task, status));
    assert Get(b, "asignee") == Some(Str(asignee)) && Get(b, "status") == Some(Str(status));
    assert TaskNameOf(b) == Some(Str(task));
  }

  /** End to end: the chat bot's update request for a task just added, with a
      new status that is not a date, is answered with success and afterwards
      the task is listed no more; a status a cell refuses gets 500 instead,
      and the task stays listed. */
  lemma ChatUpdateHidesTask(t: Sheet.Task, status: string, env: Env)
    requires Sheet.Listable(t, env.codec) && !Sheet.Blank(Some(status))
    requires env.codec.fromIsoFormat(status).None?
    ensures var s := Sheet.AddTask(Sheet.Sheet(Sheet.HeaderRow(), []), t, env.codec);
            Sheet.ListTasks(s, None, env.codec) == [t]
    ensures var s := Sheet.AddTask(Sheet.Sheet(Sheet.HeaderRow(), []), t, env.codec);
            var h := UpdateStatusByName(PayloadBody(ChatBot.StatusByName(t.asignee, t.taskName, status)), s, env);
            Sheet.LegalText(status) ==> h.reply.Message? && Sheet.ListTasks(h.sheet, None, env.codec) == []
    ensures var s := Sheet.AddTask(Sheet.Sheet(Sheet.HeaderRow(), []), t, env.codec);
            var h := UpdateStatusByName(PayloadBody(ChatBot.StatusByName(t.asignee, t.taskName, status)), s, env);
            !Sheet.LegalText(status) ==> h.reply == Failure(500, ServerError) && Sheet.ListTasks(h.sheet, None, env.codec) == [t]
  {
    Sheet.ByNameHidesAddedTask(t, env.codec, status);
    var s := Sheet.AddTask(Sheet.Sheet(Sheet.HeaderRow(), []), t, env.codec);
    assert t.asignee != "" && t.taskName != "" && status != "";
    ChatUpdateReachesStore(t.asignee, t.taskName, status, s, env);
  }
}

=== FILE: ChatBot.dfy ===
/** The Google Chat bot. `onMessage` maps one chat event to one reply,
    calling the backend through an abstract fetch; `onCardClick` turns a
    submitted dialog into an add-task request. The network is an oracle in
    `Env`: each request yields a body or the message of an exception. */
module ChatBot {
  import opened Wrappers
  import opened Text
  import UpdateCommand

  /** `displayName` is "" when the sender has none. */
  datatype Sender = Sender(displayName: string, email: string)

  /** `text` is "" when the message carries no text; `slashCommand` holds the
      command id of a slash command. */
  datatype Message = Message(text: string, sender: Sender, slashCommand: Option<int>)

  /** `dialogRequest` stands for `isDialogEvent && dialogEventType ===
      "REQUEST_DIALOG"`; `appCommandId` for `appCommandMetadata?.appCommandId`. */
  datatype Event = Event(dialogRequest: bool, appCommandId: Option<int>, message: Option<Message>)

  datatype Widget =
    | TextInput(caption: string, name: string, multiline: bool, value: Option<string>)
    | DateTimePicker(caption: string, name: string)

  datatype Dialog = Dialog(actionStatus: string, header: string, widgets: seq<Widget>, submitLabel: string)

  datatype Reply = TextReply(text: string) | DialogReply(dialog: Dialog) | NewMessage(message: string)

  /** The JSON bodies the bot posts. */
  datatype Payload =
    | AddFromChat(message: string, assigner: string)
    | ByName(asignee: string)
    | StatusByName(asignee: string, task: string, status: string)
    | FormTask(assigner: string, asignee: string, requestDate: string, task: string,
               deadline: string, status: string)

  datatype Request = Request(endpoint: string, payload: Payload)

  /** `UrlFetchApp.fetch(...).getContentText()`: the body, or the message of
      the exception thrown. */
  datatype Response = Body(text: string) | Threw(message: string)

  /** `JSON.parse` of a task-list body: the array's strings, or the message of
      the exception thrown. */
  datatype Parsed = TaskArray(items: seq<string>) | ParseFailed(message: string)

  datatype Env = Env(fetch: Request -> Response, parse: string -> Parsed)

  /** The reply and the requests made on the way, in order. */
  datatype Outcome = Outcome(reply: Reply, requests: seq<Request>)

  const AddEndpoint := "/add-task-from-chat"
  const ByNameEndpoint := "/get-tasks-by-name"
  const MineEndpoint := "/get-tasks-assigned-to-me"
  const UpdateEndpoint := "/update-task-status-by-name"

  const HelpCommand := 1
  const NewTaskCommand := 2

  const ResultPrefix := "Result:\n"
  const InvalidCommand := "Invalid command."
  const InvalidUpdate := "Invalid update format. Use: update task for <asignee>: <task>, status: <status>"
  const NoTasks := "No tasks found."
  const ListHeader := "Task List:\n"
  const ConstAssignment := "Assignment to constant variable."
  const NoMessage := "\U{26A0}\U{FE0F} No message detected."
  const CreatedPrefix := "\U{2705} Task Created Successfully!\n\n"
  const CreateFailed := "\U{274C} Failed to create task. Please try again."
  const DefaultStatus := "incomplete"

  const GetForPrefix := "get tasks for "
  const MinePrefix := "get my tasks"
  const MineLongPrefix := "get tasks assigned to me"

  /** The field names of the new-task dialog, which are also the keys
      `onCardClick` reads. */
  const FormKeys := ["assigner", "asignee", "request_date", "task", "deadline", "status"]

  /** The dialog answering the new-task slash command. */
  const NewTaskDialog := Dialog(
    "OK",
    "\U{1F4DD} Create New Task",
    [ TextInput("Assigner", "assigner", false, None),
      TextInput("Assignee", "asignee", false, None),
      DateTimePicker("Request Date", "request_date"),
      TextInput("Task Description", "task", true, None),
      DateTimePicker("Deadline", "deadline"),
      TextInput("Status", "status", false, Some(DefaultStatus)) ],
    "Create Task")

  function ErrorText(message: string): string {
    "Error: " + message
  }

  /** The JavaScript `a || b` on strings. */
  function OrElse(a: string, b: string): string {
    if a != "" then a else b
  }

  const Greeting := "\U{1F44B} Hello "
  const UnknownPrefix := "\U{26A0}\U{FE0F} Unknown slash command (ID: "

  /** The three command lines the help text advertises. */
  const AddLine := "add task <desc>"
  const ForLine := "get tasks for <user>"
  const UpdateLine := "update task for <user>: <task>, status: <status>"

  const HelpIntro := "! I'm your TaskBot.\n\nTry commands like:\n- "
  const HelpLead := HelpIntro + AddLine + "\n- " + ForLine + "\n- "

  function HelpText(sender: Sender): string {
    Greeting + OrElse(sender.displayName, "there") + HelpLead + UpdateLine
  }

  /** The help text greets the sender by display name, or "there", and ends
      with the update command line. */
  lemma HelpTextShape(sender: Sender)
    ensures var r := HelpText(sender);
            && StartsWith(r, Greeting) && OccursAt(r, OrElse(sender.displayName, "there"), |Greeting|)
            && OccursAt(r, UpdateLine, |r| - |UpdateLine|) && r[0] == '\U{1F44B}'
  {
    var name := OrElse(sender.displayName, "there");
    var r := HelpText(sender);
    var head := Greeting + name + HelpLead;
    assert r == head + UpdateLine;
    assert r[..|Greeting|] == Greeting;
    assert r[|Greeting|..|Greeting| + |name|] == name;
    assert r[|head|..] == UpdateLine;
  }

  /** The notice for an unknown slash command ends with its id and ")". */
  lemma UnknownSlashShape(id: int)
    ensures var r := UnknownSlash(id);
            && StartsWith(r, UnknownPrefix) && OccursAt(r, IntToString(id) + ")", |r| - |IntToString(id)| - 1)
            && r[0] == '\U{26A0}'
  {
    var r := UnknownSlash(id);
    assert r[..|UnknownPrefix|] == UnknownPrefix;
    assert r[|UnknownPrefix|..] == IntToString(id) + ")";
  }

  function UnknownSlash(id: int): string {
    UnknownPrefix + IntToString(id) + ")"
  }

  // Free-text commands

  datatype Command = AddTask | GetTasksFor(name: string) | GetMine | Update | NoCommand

  const AddVariants := ["add task", "add the task", "add a task"]

  /** `/^add( the| a)? task/i.test(t)` as the engine runs it: "add", then the
      optional group with its alternatives in order, then " task". Nothing is
      required after "task". */
  predicate AddTaskTest(t: string) {
    && FoldedAt(t, 0, "add")
    && ((FoldedAt(t, 3, " the") && FoldedAt(t, 7, " task"))
        || (FoldedAt(t, 3, " a") && FoldedAt(t, 5, " task"))
        || FoldedAt(t, 3, " task"))
  }

  /** The add-task test accepts exactly the texts that begin, case-insensitively,
      with one of the three phrasings. */
  lemma AddTaskPhrasings(t: string)
    ensures AddTaskTest(t) <==> exists w :: w in AddVariants && FoldedAt(t, 0, w)
  {
    FoldedConcat(t, 0, "add", " task");
    FoldedConcat(t, 0, "add", " the task");
    FoldedConcat(t, 3, " the", " task");
    FoldedConcat(t, 0, "add", " a task");
    FoldedConcat(t, 3, " a", " task");
    assert "add task" == "add" + " task";
    assert "add the task" == "add" + " the task";
    assert " the task" == " the" + " task";
    assert "add a task" == "add" + " a task";
    assert " a task" == " a" + " task";
  }

  /** `messageText.toLowerCase().startsWith(p)`. */
  predicate LowerStartsWith(t: string, p: string) {
    StartsWith(JsLower(t), p)
  }

  /** The free-text dispatch of `onMessage`: the tests in source order, the
      first that passes decides. */
  function Classify(t: string): (c: Command)
    ensures c.AddTask? <==> exists w :: w in AddVariants && FoldedAt(t, 0, w)
    ensures c.GetTasksFor? <==> !AddTaskTest(t) && LowerStartsWith(t, GetForPrefix)
    ensures c.GetTasksFor? ==> |t| >= |GetForPrefix| && c.name == JsTrim(t[|GetForPrefix|..])
    ensures c.GetMine? <==> && !AddTaskTest(t) && !LowerStartsWith(t, GetForPrefix)
                            && (LowerStartsWith(t, MinePrefix) || LowerStartsWith(t, MineLongPrefix))
    ensures c.Update? <==> && !AddTaskTest(t) && !LowerStartsWith(t, GetForPrefix)
                           && !LowerStartsWith(t, MinePrefix) && !LowerStartsWith(t, MineLongPrefix)
                           && exists p :: 0 <= p && FoldedAt(t, p, UpdateCommand.Prefix)
  {
    AddTaskPhrasings(t);
    SearchFoldedFinds(t, UpdateCommand.Prefix, 0);
    if AddTaskTest(t) then AddTask
    else if LowerStartsWith(t, GetForPrefix) then GetTasksFor(JsTrim(t[14..]))
    else if LowerStartsWith(t, MinePrefix) || LowerStartsWith(t, MineLongPrefix) then GetMine
    else if SearchFolded(t, UpdateCommand.Prefix, 0) then Update
    else NoCommand
  }

  /** The lines "1. t1", "2. t2", ... of a task list. */
  function TaskLine(n: nat, t: string): string {
    NatToString(n) + ". " + t
  }

  function Numbered(items: seq<string>): (lines: seq<string>)
    ensures |lines| == |items|
    ensures forall i :: 0 <= i < |items| ==> lines[i] == TaskLine(i + 1, items[i])
  {
    seq(|items|, i requires 0 <= i < |items| => TaskLine(i + 1, items[i]))
  }

  /** `Array.prototype.join("\n")`. */
  function JoinLines(lines: seq<string>): string {
    if |lines| == 0 then ""
    else if |lines| == 1 then lines[0]
    else lines[0] + "\n" + JoinLines(lines[1..])
  }

  /** The reply text for a task-list body. */
  function FormatTaskList(items: seq<string>): (r: string)
    ensures r == NoTasks <==> items == []
    ensures items != [] ==> StartsWith(r, ListHeader)
    ensures |items| == 1 ==> r == ListHeader + TaskLine(1, items[0])
  {
    if |items| == 0 then NoTasks
    else
      assert (ListHeader + JoinLines(Numbered(items)))[0] == 'T';
      ListHeader + JoinLines(Numbered(items))
  }

  /** Joining one more line appends a separator and the line. */
  lemma {:induction false} JoinLinesAppend(lines: seq<string>, l: string)
    requires |lines| > 0
    ensures JoinLines(lines + [l]) == JoinLines(lines) + "\n" + l
    decreases |lines|
  {
    if |lines| > 1 {
      JoinLinesAppend(lines[1..], l);
      assert (lines + [l])[1..] == lines[1..] + [l];
    }
  }

  /** A task list grows line by line: one more task adds one more numbered
      line at the end. */
  lemma FormatTaskListAppend(items: seq<string>, t: string)
    requires |items| > 0
    ensures FormatTaskList(items + [t]) == FormatTaskList(items) + "\n" + TaskLine(|items| + 1, t)
  {
    assert Numbered(items + [t]) == Numbered(items) + [TaskLine(|items| + 1, t)];
    JoinLinesAppend(Numbered(items), TaskLine(|items| + 1, t));
  }

  /** The text of `apiResponseText` after a plain fetch. */
  function Answer(r: Response): string {
    match r
    case Body(b) => b
    case Threw(message) => ErrorText(message)
  }

  /** A task-list answer shows an error exactly when the fetch threw or the
      body did not parse; a formatted list never looks like an error. */
  lemma ListAnswerShowsErrors(r: Response, parse: string -> Parsed)
    ensures StartsWith(ListAnswer(r, parse), "Error: ") <==> r.Threw? || parse(r.text).ParseFailed?
    ensures r.Threw? ==> ListAnswer(r, parse) == ErrorText(r.message)
    ensures r.Body? && parse(r.text).TaskArray? ==> ListAnswer(r, parse) == FormatTaskList(parse(r.text).items)
  {
    if r.Body? && parse(r.text).TaskArray? {
      var items := parse(r.text).items;
      var a := FormatTaskList(items);
      if items == [] {
        assert a[0] == 'N';
      } else {
        assert a[0] == ListHeader[0];
      }
    }
  }

  /** The text of `apiResponseText` after a task-list fetch. */
  function ListAnswer(r: Response, parse: string -> Parsed): string {
    match r
    case Threw(message) => ErrorText(message)
    case Body(b) =>
      match parse(b)
      case ParseFailed(message) => ErrorText(message)
      case TaskArray(items) => FormatTaskList(items)
  }

  /** `apiResponseText` at the end of the try block, and the requests made. */
  datatype Step = Step(text: string, requests: seq<Request>)

  /** The free-text branch for every command but the update command. */
  function RunQuery(c: Command, t: string, sender: Sender, env: Env): (st: Step)
    requires !c.Update?
    ensures c.NoCommand? <==> st.requests == []
    ensures c.NoCommand? ==> st.text == InvalidCommand
    ensures c.AddTask? ==> st.requests == [Request(AddEndpoint, AddFromChat(t, sender.email))]
    ensures c.GetTasksFor? ==> st.requests == [Request(ByNameEndpoint, ByName(c.name))]
    ensures c.GetMine? ==> st.requests == [Request(MineEndpoint, ByName(OrElse(sender.displayName, sender.email)))]
    ensures c.AddTask? ==> st.text == Answer(env.fetch(st.requests[0]))
    ensures c.GetTasksFor? || c.GetMine? ==> st.text == ListAnswer(env.fetch(st.requests[0]), env.parse)
  {
    match c
    case AddTask =>
      var req := Request(AddEndpoint, AddFromChat(t, sender.email));
      Step(Answer(env.fetch(req)), [req])
    case GetTasksFor(name) =>
      var req := Request(ByNameEndpoint, ByName(name));
      Step(ListAnswer(env.fetch(req), env.parse), [req])
    case GetMine =>
      var req := Request(MineEndpoint, ByName(OrElse(sender.displayName, sender.email)));
      Step(ListAnswer(env.fetch(req), env.parse), [req])
    case NoCommand =>
      Step(InvalidCommand, [])
  }

  /** The reply to a slash command: the help text for the help command, a
      notice naming the id for any other. */
  function SlashReply(id: int, sender: Sender): (r: string)
    ensures |r| > 0
    ensures id == HelpCommand <==> r[0] == '\U{1F44B}'
    ensures id == HelpCommand ==>
              StartsWith(r, Greeting) && OccursAt(r, OrElse(sender.displayName, "there"), |Greeting|)
    ensures id == HelpCommand ==> OccursAt(r, UpdateLine, |r| - |UpdateLine|)
    ensures id != HelpCommand ==> StartsWith(r, UnknownPrefix)
    ensures id != HelpCommand ==> OccursAt(r, IntToString(id) + ")", |r| - |IntToString(id)| - 1)
  {
    if id == HelpCommand then
      HelpTextShape(sender);
      HelpText(sender)
    else
      UnknownSlashShape(id);
      UnknownSlash(id)
  }

  /** A text beginning with "update task for " is the update command. */
  lemma UpdatePrefixFolded(t: string)
    requires StartsWith(t, UpdateCommand.Prefix)
    ensures FoldedAt(t, 0, UpdateCommand.Prefix)
  {
    forall i | 0 <= i < |UpdateCommand.Prefix| ensures FoldAscii(t[i]) == UpdateCommand.Prefix[i] {
      assert t[i] == UpdateCommand.Prefix[i];
    }
  }

  /** A text starting with 'u' passes none of the three query tests. */
  lemma UStartNoQuery(t: string)
    requires |t| > 0 && t[0] == 'u'
    ensures !AddTaskTest(t)
    ensures !LowerStartsWith(t, GetForPrefix)
    ensures !LowerStartsWith(t, MinePrefix) && !LowerStartsWith(t, MineLongPrefix)
  {
    assert FoldAscii(t[0]) != "add"[0];
    assert JsLower(t)[0] == 'u';
  }

  lemma UpdatePrefixIsUpdate(t: string)
    requires StartsWith(t, UpdateCommand.Prefix)
    ensures Classify(t).Update?
  {
    UpdatePrefixFolded(t);
    assert t[0] == UpdateCommand.Prefix[0];
    UStartNoQuery(t);
  }

  lemma AddLineIsAdd()
    ensures Classify(AddLine).AddTask?
  {
    assert FoldedAt(AddLine, 0, "add") && FoldedAt(AddLine, 3, " task");
  }

  lemma ForLineIsGetFor()
    ensures Classify(ForLine) == GetTasksFor("<user>")
  {
    assert FoldAscii(ForLine[0]) != "add"[0];
    assert JsLower(ForLine)[..|GetForPrefix|] == GetForPrefix;
    assert ForLine[|GetForPrefix|..] == "<user>";
    TrimUntouched("<user>", IsJsSpace);
  }

  /** Each command line the help text advertises is classified as the
      command it names; the queried name of the second is its placeholder. */
  lemma HelpLinesClassify()
    ensures Classify(AddLine).AddTask?
    ensures Classify(ForLine) == GetTasksFor("<user>")
    ensures Classify(UpdateLine).Update?
  {
    AddLineIsAdd();
    ForLineIsGetFor();
    assert UpdateLine[..|UpdateCommand.Prefix|] == UpdateCommand.Prefix;
    UpdatePrefixIsUpdate(UpdateLine);
  }

  /** `apiResponseText` after the try block of a trimmed free text `t`, as
      written: the update command throws before doing anything. */
  function FreeText(t: string, sender: Sender, env: Env): (st: Step)
    ensures |st.requests| <= 1
    ensures Classify(t).Update? ==> st == Step(ErrorText(ConstAssignment), [])
    ensures Classify(t).NoCommand? ==> st == Step(InvalidCommand, [])
  {
    var c := Classify(t);
    if c.Update? then Step(ErrorText(ConstAssignment), []) else RunQuery(c, t, sender, env)
  }

  /** The event is a new-task dialog request. */
  predicate DialogCase(e: Event) {
    e.dialogRequest && e.appCommandId == Some(NewTaskCommand)
  }

  /** The event reaches the text handling: a message with non-empty text. */
  predicate HasText(e: Event) {
    e.message.Some? && e.message.value.text != ""
  }

  /** The event is free text (not a slash command) whose command is the
      update command. */
  predicate UpdateCase(e: Event) {
    && !DialogCase(e) && HasText(e) && e.message.value.slashCommand.None?
    && Classify(JsTrim(e.message.value.text)).Update?
  }

  /** `onMessage` as written, run as ES2015 or later JavaScript. In the update
      branch, line 107 assigns to the `const` declared at line 40; the engine
      throws a TypeError there, and the catch turns it into the reply, before
      any request is made. */
  function OnMessage(e: Event, env: Env): (o: Outcome)
    ensures DialogCase(e) ==> o == Outcome(DialogReply(NewTaskDialog), [])
    ensures !DialogCase(e) && !HasText(e) ==> o.reply == TextReply(NoMessage) && o.requests == []
    ensures !DialogCase(e) && HasText(e) && e.message.value.slashCommand.Some? ==>
              o == Outcome(TextReply(SlashReply(e.message.value.slashCommand.value, e.message.value.sender)), [])
    ensures !DialogCase(e) && HasText(e) && e.message.value.slashCommand.None? ==>
              o.reply.TextReply? && StartsWith(o.reply.text, ResultPrefix) && |o.requests| <= 1
    ensures UpdateCase(e) ==> o == Outcome(TextReply(ResultPrefix + ErrorText(ConstAssignment)), [])
    ensures !DialogCase(e) && HasText(e) && e.message.value.slashCommand.None? && !UpdateCase(e) ==>
              var t := JsTrim(e.message.value.text);
              var st := RunQuery(Classify(t), t, e.message.value.sender, env);
              o == Outcome(TextReply(ResultPrefix + st.text), st.requests)
  {
    if DialogCase(e) then
      Outcome(DialogReply(NewTaskDialog), [])
    else if !HasText(e) then
      Outcome(TextReply(NoMessage), [])
    else
      var m := e.message.value;
      if m.slashCommand.Some? then
        Outcome(TextReply(SlashReply(m.slashCommand.value, m.sender)), [])
      else
        var st := FreeText(JsTrim(m.text), m.sender, env);
        Outcome(TextReply(ResultPrefix + st.text), st.requests)
  }

  /** A well-formed update command, in the form the help text shows. */
  const UpdateExample := "update task for Bob: report, status: done"

  lemma UpdateExampleHasPrefix()
    ensures FoldedAt(UpdateExample, 0, UpdateCommand.Prefix)
  {
    assert UpdateExample[..|UpdateCommand.Prefix|] == UpdateCommand.Prefix;
  }

  lemma UpdateExampleNoQuery()
    ensures !AddTaskTest(UpdateExample)
    ensures !LowerStartsWith(UpdateExample, GetForPrefix)
    ensures !LowerStartsWith(UpdateExample, MinePrefix) && !LowerStartsWith(UpdateExample, MineLongPrefix)
  {
    assert FoldAscii(UpdateExample[0]) != "add"[0];
    assert JsLower(UpdateExample)[0] == 'u';
  }

  /** The example is free text that the dispatch sends to the update branch. */
  lemma UpdateExampleIsUpdate()
    ensures JsTrim(UpdateExample) == UpdateExample
    ensures Classify(UpdateExample).Update?
  {
    TrimUntouched(UpdateExample, IsJsSpace);
    UpdateExampleHasPrefix();
    UpdateExampleNoQuery();
  }

  /** As written, a well-formed update command is answered with the
      TypeError of line 107 and sends nothing. */
  lemma UpdateExampleGetsError(sender: Sender, env: Env)
    ensures OnMessage(Event(false, None, Some(Message(UpdateExample, sender, None))), env)
            == Outcome(TextReply(ResultPrefix + ErrorText(ConstAssignment)), [])
  {
    UpdateExampleIsUpdate();
    var e := Event(false, None, Some(Message(UpdateExample, sender, None)));
    assert UpdateCase(e);
  }

  /** The new-task dialog offers the six fields `onCardClick` reads, in the
      same order, with the status prefilled. */
  lemma NewTaskDialogFields()
    ensures |NewTaskDialog.widgets| == |FormKeys|
    ensures forall i :: 0 <= i < |FormKeys| ==> NewTaskDialog.widgets[i].name == FormKeys[i]
    ensures NewTaskDialog.widgets[5].TextInput? && NewTaskDialog.widgets[5].value == Some(DefaultStatus)
  {
  }

  function FieldsOf(p: Payload): UpdateCommand.UpdateFields
    requires p.StatusByName?
  {
    UpdateCommand.UpdateFields(p.asignee, p.task, p.status)
  }

  /** Lines 107-126 as their author meant them, for the trimmed text `t`: the
      text is normalised and matched against the update pattern; no match
      gives the usage text and no request, a match posts the trimmed groups of
      the regex engine's match. */
  method UpdateBranch(t: string, env: Env) returns (st: Step)
    ensures st.requests == [] <==> forall c, k, j, m :: !UpdateCommand.Shape(UpdateCommand.Normalize(t), c, k, j, m)
    ensures st.requests == [] ==> st.text == InvalidUpdate
    ensures st.requests != [] ==>
              && |st.requests| == 1 && st.requests[0].endpoint == UpdateEndpoint
              && st.requests[0].payload.StatusByName?
    ensures st.requests != [] ==> UpdateCommand.Extracts(t, FieldsOf(st.requests[0].payload))
    ensures st.requests != [] ==> st.text == Answer(env.fetch(st.requests[0]))
  {
    var fields := UpdateCommand.Extract(t);
    match fields {
      case None =>
        st := Step(InvalidUpdate, []);
      case Some(f) =>
        var req := Request(UpdateEndpoint, StatusByName(f.asignee, f.task, f.status));
        st := Step(Answer(env.fetch(req)), [req]);
    }
  }

  /** `onMessage` with the update branch working as its author meant. Every
      other event is handled exactly as `OnMessage` handles it. */
  method OnMessageIntended(e: Event, env: Env) returns (o: Outcome)
    ensures !UpdateCase(e) ==> o == OnMessage(e, env)
    ensures UpdateCase(e) ==> o.reply.TextReply? && StartsWith(o.reply.text, ResultPrefix)
    ensures UpdateCase(e) ==>
              (o.requests == [] <==>
                 forall c, k, j, m :: !UpdateCommand.Shape(UpdateCommand.Normalize(JsTrim(e.message.value.text)), c, k, j, m))
    ensures UpdateCase(e) && o.requests == [] ==> o.reply == TextReply(ResultPrefix + InvalidUpdate)
    ensures UpdateCase(e) && o.requests != [] ==>
              && |o.requests| == 1 && o.requests[0].endpoint == UpdateEndpoint
              && o.requests[0].payload.StatusByName?
              && UpdateCommand.Extracts(JsTrim(e.message.value.text), FieldsOf(o.requests[0].payload))
              && o.reply == TextReply(ResultPrefix + Answer(env.fetch(o.requests[0])))
  {
    if !UpdateCase(e) {
      return OnMessage(e, env);
    }
    var st := UpdateBranch(JsTrim(e.message.value.text), env);
    o := Outcome(TextReply(ResultPrefix + st.text), st.requests);
  }

  /** `e.common?.formInputs`: for each submitted field, its string values. */
  datatype CardClick = CardClick(formInputs: map<string, seq<string>>)

  /** `formInputs[key]?.stringInputs?.value[0] || ""`. */
  function FieldValue(e: CardClick, key: string): (v: string)
    ensures key !in e.formInputs ==> v == ""
    ensures key in e.formInputs && |e.formInputs[key]| > 0 ==> v == e.formInputs[key][0]
  {
    if key in e.formInputs && |e.formInputs[key]| > 0 then e.formInputs[key][0] else ""
  }

  /** `onCardClick`: one add-task request built from the form, a missing field
      read as "" and an empty status as "incomplete"; the reply says whether
      the request came back. */
  function OnCardClick(e: CardClick, fetch: Request -> Response): (o: Outcome)
    ensures |o.requests| == 1 && o.requests[0].endpoint == AddEndpoint
    ensures var p := o.requests[0].payload;
            && p.FormTask?
            && p.assigner == FieldValue(e, "assigner") && p.asignee == FieldValue(e, "asignee")
            && p.requestDate == FieldValue(e, "request_date") && p.task == FieldValue(e, "task")
            && p.deadline == FieldValue(e, "deadline")
            && p.status != ""
            && (FieldValue(e, "status") == "" ==> p.status == DefaultStatus)
            && (FieldValue(e, "status") != "" ==> p.status == FieldValue(e, "status"))
    ensures o.reply.NewMessage?
    ensures fetch(o.requests[0]).Body? <==> StartsWith(o.reply.message, CreatedPrefix)
    ensures fetch(o.requests[0]).Body? ==> o.reply.message == CreatedPrefix + fetch(o.requests[0]).text
    ensures fetch(o.requests[0]).Threw? ==> o.reply.message == CreateFailed
  {
    var p := FormTask(FieldValue(e, "assigner"), FieldValue(e, "asignee"), FieldValue(e, "request_date"),
                      FieldValue(e, "task"), FieldValue(e, "deadline"),
                      OrElse(FieldValue(e, "status"), DefaultStatus));
    var req := Request(AddEndpoint, p);
    match fetch(req)
    case Body(b) => Outcome(NewMessage(CreatedPrefix + b), [req])
    case Threw(_) =>
      assert CreateFailed[0] != CreatedPrefix[0];
      Outcome(NewMessage(CreateFailed), [req])
  }
}

=== FILE: Seqs.dfy ===
/** Order-preserving filtering and counting over sequences, as JavaScript's
    `Array.prototype.filter` and Python's list comprehensions do it. */
module Seqs {

  /** `a` can be obtained from `b` by deleting elements, keeping order. */
  predicate IsSubsequence<T(==)>(a: seq<T>, b: seq<T>)
    decreases |b|
  {
    if |a| == 0 then true
    else if |b| == 0 then false
    else if a[0] == b[0] then IsSubsequence(a[1..], b[1..])
    else IsSubsequence(a, b[1..])
  }

  /** The elements of `s` satisfying `p`, in their original order. */
  function Filter<T>(s: seq<T>, p: T -> bool): (r: seq<T>)
    ensures |r| <= |s|
    ensures forall i :: 0 <= i < |r| ==> r[i] in s && p(r[i])
    ensures forall i :: 0 <= i < |s| && p(s[i]) ==> s[i] in r
  {
    if |s| == 0 then [] else (if p(s[0]) then [s[0]] else []) + Filter(s[1..], p)
  }

  /** The number of positions of `s` holding an element that satisfies `p`. */
  function Count<T>(s: seq<T>, p: T -> bool): nat {
    if |s| == 0 then 0 else (if p(s[0]) then 1 else 0) + Count(s[1..], p)
  }

  lemma {:induction false} FilterLength<T>(s: seq<T>, p: T -> bool)
    ensures |Filter(s, p)| == Count(s, p)
  {
    if |s| > 0 {
      FilterLength(s[1..], p);
    }
  }

  lemma {:induction false} FilterIsSubsequence<T>(s: seq<T>, p: T -> bool)
    ensures IsSubsequence(Filter(s, p), s)
  {
    if |s| > 0 {
      FilterIsSubsequence(s[1..], p);
      var r := Filter(s, p);
      if p(s[0]) {
        assert r[0] == s[0] && r[1..] == Filter(s[1..], p);
      } else {
        assert r == Filter(s[1..], p);
      }
    }
  }

  /** Filtering distributes over concatenation. */
  lemma {:induction false} FilterAppend<T>(a: seq<T>, b: seq<T>, p: T -> bool)
    ensures Filter(a + b, p) == Filter(a, p) + Filter(b, p)
  {
    if |a| == 0 {
      assert a + b == b;
    } else {
      assert (a + b)[1..] == a[1..] + b;
      FilterAppend(a[1..], b, p);
    }
  }

  /** A filter that keeps every element is the identity. */
  lemma {:induction false} FilterKeepsAll<T>(s: seq<T>, p: T -> bool)
    requires forall i :: 0 <= i < |s| ==> p(s[i])
    ensures Filter(s, p) == s
  {
    if |s| > 0 {
      FilterKeepsAll(s[1..], p);
    }
  }

  /** Filtering twice by the same predicate is filtering once. */
  lemma FilterIdempotent<T>(s: seq<T>, p: T -> bool)
    ensures Filter(Filter(s, p), p) == Filter(s, p)
  {
    FilterKeepsAll(Filter(s, p), p);
  }

  /** A subsequence whose elements all satisfy `p` has at most as many
      elements as `s` has positions satisfying `p`. */
  lemma {:induction false} SubsequenceCountBound<T>(a: seq<T>, s: seq<T>, p: T -> bool)
    requires IsSubsequence(a, s)
    requires forall i :: 0 <= i < |a| ==> p(a[i])
    ensures |a| <= Count(s, p)
    decreases |s|
  {
    if |a| > 0 {
      if a[0] == s[0] {
        SubsequenceCountBound(a[1..], s[1..], p);
      } else {
        SubsequenceCountBound(a, s[1..], p);
      }
    }
  }

  /** Filter is the only order-preserving subsequence of `s` that consists of
      elements satisfying `p` and has one element per satisfying position. */
  lemma {:induction false} FilterUnique<T>(a: seq<T>, s: seq<T>, p: T -> bool)
    requires IsSubsequence(a, s)
    requires forall i :: 0 <= i < |a| ==> p(a[i])
    requires |a| == Count(s, p)
    ensures a == Filter(s, p)
    decreases |s|
  {
    if |s| == 0 {
    } else if |a| == 0 {
      assert !p(s[0]);
      FilterUnique(a, s[1..], p);
    } else if a[0] == s[0] {
      FilterUnique(a[1..], s[1..], p);
      assert a == [a[0]] + a[1..];
    } else {
      SubsequenceCountBound(a, s[1..], p);
      assert !p(s[0]);
      FilterUnique(a, s[1..], p);
    }
  }
}

=== FILE: Sheet.dfy ===
/** The task worksheet of the backend (src/ritvik/excel_utils.py), held in
    memory. A cell holds the `str()` text of its value, or nothing. The sheet
    is read the way openpyxl reads it: `iter_rows` yields every row with the
    sheet's width, the widest extent of non-empty cells over all rows, so a
    stored row shorter than that is padded with empty cells and a column
    beyond it does not exist. */
module Sheet {
  import opened Wrappers
  import opened Text

  type Cell = Option<string>
  type Row = seq<Cell>

  /** `rows` are the data rows, from row 2 up to the last row with a
      non-empty cell, as stored. */
  datatype Sheet = Sheet(header: Row, rows: seq<Row>)

  const Headers := ["asigner", "asignee", "request_date", "task_name", "task_description",
                    "deadline", "status", "task_id"]

  /** The task record. Dates are abstract instants; `taskId` holds the
      canonical text of the UUID. */
  datatype Task = Task(asigner: string, asignee: string, requestDate: int, taskName: string,
                       taskDescription: string, deadline: Option<int>, status: string, taskId: string)

  /** The characters openpyxl's cell setter refuses in a string, raising
      `IllegalCharacterError`: the control characters other than tab, line
      feed and carriage return. */
  predicate IllegalChar(c: char) {
    c <= '\U{0008}' || c == '\U{000B}' || c == '\U{000C}' || ('\U{000E}' <= c <= '\U{001F}')
  }

  /** A string a cell accepts. */
  predicate LegalText(s: string) {
    forall i :: 0 <= i < |s| ==> !IllegalChar(s[i])
  }

  /** Every text field of the task is a string a cell accepts, so writing its
      row does not raise. */
  predicate Writable(t: Task) {
    && LegalText(t.asigner) && LegalText(t.asignee) && LegalText(t.taskName)
    && LegalText(t.taskDescription) && LegalText(t.status) && LegalText(t.taskId)
  }

  /** `datetime.isoformat`, `datetime.fromisoformat` and `UUID(...)`; the last
      gives the canonical text of a well-formed UUID. */
  datatype Codec = Codec(isoFormat: int -> string, fromIsoFormat: string -> Option<int>,
                         parseUuid: string -> Option<string>)

  function Max(a: nat, b: nat): nat {
    if a < b then b else a
  }

  /** The cell in column `k` (from 0) of a stored row; a cell never written is
      empty. */
  function CellAt(r: Row, k: int): Cell {
    if 0 <= k < |r| then r[k] else None
  }

  /** `str(cell.value)`. */
  function CellText(c: Cell): string {
    match c
    case None => "None"
    case Some(v) => v
  }

  /** The number of columns up to the last non-empty cell of a row. */
  function Extent(r: Row): (n: nat)
    ensures n <= |r|
    ensures forall k :: n <= k ==> CellAt(r, k).None?
    ensures n > 0 ==> r[n - 1].Some?
  {
    if |r| == 0 then 0
    else if r[|r| - 1].Some? then |r|
    else
      var n := Extent(r[..|r| - 1]);
      assert forall k :: n <= k ==> CellAt(r, k).None? by {
        forall k | n <= k ensures CellAt(r, k).None? {
          if k < |r| - 1 {
            assert CellAt(r[..|r| - 1], k) == r[k];
          }
        }
      }
      n
  }

  function MaxExtent(rows: seq<Row>): (n: nat)
    ensures forall i :: 0 <= i < |rows| ==> Extent(rows[i]) <= n
  {
    if |rows| == 0 then 0
    else Max(MaxExtent(rows[..|rows| - 1]), Extent(rows[|rows| - 1]))
  }

  /** `ws.max_column`: no non-empty cell lies beyond it. */
  function Width(s: Sheet): (w: nat)
    ensures forall k :: w <= k ==> CellAt(s.header, k).None?
    ensures forall i, k :: 0 <= i < |s.rows| && w <= k ==> CellAt(s.rows[i], k).None?
  {
    Max(Extent(s.header), MaxExtent(s.rows))
  }

  /** A stored row as `iter_rows` yields it: `w` cells. */
  function Padded(r: Row, w: nat): (p: Row)
    ensures |p| == w
    ensures forall k :: 0 <= k < w ==> p[k] == CellAt(r, k)
  {
    seq(w, k requires 0 <= k < w => CellAt(r, k))
  }

  /** The data rows as `ws.iter_rows(min_row=2)` yields them. */
  function Yielded(s: Sheet): (rs: seq<Row>)
    ensures |rs| == |s.rows|
    ensures forall i :: 0 <= i < |rs| ==> rs[i] == Padded(s.rows[i], Width(s))
  {
    seq(|s.rows|, i requires 0 <= i < |s.rows| => Padded(s.rows[i], Width(s)))
  }

  /** Reading a row at the sheet's width loses no cell. */
  lemma YieldedKeepsCells(s: Sheet, i: int)
    requires 0 <= i < |s.rows|
    ensures forall k :: CellAt(Yielded(s)[i], k) == CellAt(s.rows[i], k)
  {
  }

  /** `cell.value = v` on column `k` of a stored row. */
  function SetCell(r: Row, k: nat, v: Cell): (r': Row)
    ensures CellAt(r', k) == v
    ensures forall k' :: k' != k ==> CellAt(r', k') == CellAt(r, k')
  {
    if k < |r| then r[k := v]
    else r + seq(k - |r|, _ => None) + [v]
  }

  // add_task

  /** The row `add_task` appends, in the order of `Headers`. */
  function TaskRow(t: Task, codec: Codec): (r: Row)
    ensures |r| == |Headers|
  {
    [ Some(t.asigner), Some(t.asignee), Some(codec.isoFormat(t.requestDate)), Some(t.taskName),
      Some(t.taskDescription),
      if t.deadline.Some? then Some(codec.isoFormat(t.deadline.value)) else None,
      Some(t.status), Some(t.taskId) ]
  }

  /** `add_task`: one row appended after the last, holding the task's fields
      in the order of `Headers`; the deadline cell is empty when the task has
      none. */
  function AddTask(s: Sheet, t: Task, codec: Codec): (s': Sheet)
    ensures s'.header == s.header && |s'.rows| == |s.rows| + 1 && s'.rows[..|s.rows|] == s.rows
    ensures var r := s'.rows[|s.rows|];
            && |r| == |Headers| && r[0] == Some(t.asigner) && r[1] == Some(t.asignee)
            && r[3] == Some(t.taskName) && r[4] == Some(t.taskDescription)
            && r[6] == Some(t.status) && r[7] == Some(t.taskId)
            && (r[5].None? <==> t.deadline.None?)
  {
    Sheet(s.header, s.rows + [TaskRow(t, codec)])
  }

  // list_tasks

  /** Python's `x or d` on a cell: an empty or blank-free falsy value gives `d`. */
  function OrText(c: Cell, d: string): Cell {
    if c.Some? && c.value != "" then c else Some(d)
  }

  /** The eight fields of a yielded row, in the order of `Headers`: a 7-cell
      row has the legacy layout, whose one task cell gives both the name and
      the description. */
  function Fields(r: Row): (f: Row)
    requires |r| == 7 || |r| == 8
    ensures |f| == 8
  {
    if |r| == 7 then [r[0], r[1], r[2], OrText(r[3], "(no name)"), OrText(r[3], "(no description)"), r[4], r[5], r[6]]
    else r
  }

  /** `x is None or str(x).strip() == ""`; a text strips to "" exactly when
      it is all whitespace (`StripEmptyIffAllSpace`). */
  predicate Blank(c: Cell) {
    c.None? || AllPySpace(c.value)
  }

  /** The task `list_tasks` makes of one yielded row, or None when it skips
      the row. */
  function ParseRow(r: Row, codec: Codec): (t: Option<Task>)
    ensures t.Some? ==> (|r| == 7 || |r| == 8) && (forall k :: 0 <= k < 8 ==> !Blank(Fields(r)[k]))
    ensures t.Some? && (|r| == 7 || |r| == 8) ==>
              var f := Fields(r);
              && t.value.asigner == f[0].value && t.value.asignee == f[1].value
              && t.value.taskName == f[3].value && t.value.taskDescription == f[4].value
              && t.value.status == f[6].value
              && Some(t.value.requestDate) == codec.fromIsoFormat(f[2].value)
              && t.value.deadline == codec.fromIsoFormat(f[5].value)
              && Some(t.value.taskId) == codec.parseUuid(f[7].value)
  {
    if |r| != 7 && |r| != 8 then None
    else
      var f := Fields(r);
      if exists k :: 0 <= k < 8 && Blank(f[k]) then None
      else
        // line 60 compares the row's own asignee with itself
        var asignee := f[1].value;
        if asignee != "" && asignee != asignee then None
        else
          var requestDate := codec.fromIsoFormat(f[2].value);
          var deadline := codec.fromIsoFormat(f[5].value);
          var id := codec.parseUuid(f[7].value);
          if requestDate.None? || deadline.None? || id.None? then None
          else Some(Task(f[0].value, f[1].value, requestDate.value, f[3].value, f[4].value,
                         deadline, f[6].value, id.value))
  }

  /** The tasks of the kept rows, in row order: a row is kept exactly when
      it parses, and a single row gives its own task or nothing; with
      `KeptAppend` this fixes the listing row by row. */
  function Kept(rows: seq<Row>, codec: Codec): (ts: seq<Task>)
    ensures |ts| <= |rows|
    ensures forall t :: t in ts ==> exists i :: 0 <= i < |rows| && ParseRow(rows[i], codec) == Some(t)
    ensures forall i :: 0 <= i < |rows| && ParseRow(rows[i], codec).Some? ==> ParseRow(rows[i], codec).value in ts
    ensures |rows| == 1 ==>
              ts == (if ParseRow(rows[0], codec).Some? then [ParseRow(rows[0], codec).value] else [])
  {
    if |rows| == 0 then []
    else
      var last := rows[|rows| - 1];
      var init := Kept(rows[..|rows| - 1], codec);
      assert forall t :: t in init ==> exists i :: 0 <= i < |rows| && ParseRow(rows[i], codec) == Some(t) by {
        forall t | t in init ensures exists i :: 0 <= i < |rows| && ParseRow(rows[i], codec) == Some(t) {
          var i :| 0 <= i < |rows| - 1 && ParseRow(rows[..|rows| - 1][i], codec) == Some(t);
          assert rows[..|rows| - 1][i] == rows[i];
        }
      }
      assert forall i :: 0 <= i < |rows| - 1 && ParseRow(rows[i], codec).Some? ==> ParseRow(rows[i], codec).value in init by {
        forall i | 0 <= i < |rows| - 1 && ParseRow(rows[i], codec).Some?
          ensures ParseRow(rows[i], codec).value in init
        {
          assert rows[..|rows| - 1][i] == rows[i];
        }
      }
      match ParseRow(last, codec)
      case Some(t) => init + [t]
      case None => init
  }

  /** Kept rows of a concatenation: the rows are read one by one, in order. */
  lemma {:induction false} KeptAppend(a: seq<Row>, b: seq<Row>, codec: Codec)
    ensures Kept(a + b, codec) == Kept(a, codec) + Kept(b, codec)
    decreases |b|
  {
    if |b| > 0 {
      assert (a + b)[..|a + b| - 1] == a + b[..|b| - 1];
      KeptAppend(a, b[..|b| - 1], codec);
    } else {
      assert a + b == a;
    }
  }

  /** `list_tasks(asignee)`: the argument takes no part, because line 60
      compares the row's own asignee, which shadows it, with itself. */
  function ListTasks(s: Sheet, asignee: Option<string>, codec: Codec): (ts: seq<Task>)
    ensures |ts| <= |s.rows|
    ensures forall t :: t in ts ==> exists i :: 0 <= i < |s.rows| && ParseRow(Yielded(s)[i], codec) == Some(t)
    ensures forall i :: 0 <= i < |s.rows| && ParseRow(Yielded(s)[i], codec).Some? ==>
              ParseRow(Yielded(s)[i], codec).value in ts
  {
    Kept(Yielded(s), codec)
  }

  /** The result of `list_tasks` does not depend on its argument. */
  lemma ListTasksIgnoresAsignee(s: Sheet, a: Option<string>, b: Option<string>, codec: Codec)
    ensures ListTasks(s, a, codec) == ListTasks(s, b, codec)
  {
  }

  /** The header row `init_excel` writes. */
  function HeaderRow(): (r: Row)
    ensures |r| == |Headers| && forall k :: 0 <= k < |r| ==> r[k] == Some(Headers[k])
  {
    seq(|Headers|, k requires 0 <= k < |Headers| => Some(Headers[k]))
  }

  /** A task `list_tasks` can read back after `add_task` wrote it: every cell
      non-blank (so it has a deadline), and the date and id texts parse back to
      the task's values. */
  predicate Listable(t: Task, codec: Codec) {
    && t.deadline.Some?
    && !Blank(Some(t.asigner)) && !Blank(Some(t.asignee)) && !Blank(Some(t.taskName))
    && !Blank(Some(t.taskDescription)) && !Blank(Some(t.status)) && !Blank(Some(t.taskId))
    && !Blank(Some(codec.isoFormat(t.requestDate))) && !Blank(Some(codec.isoFormat(t.deadline.value)))
    && codec.fromIsoFormat(codec.isoFormat(t.requestDate)) == Some(t.requestDate)
    && codec.fromIsoFormat(codec.isoFormat(t.deadline.value)) == t.deadline
    && codec.parseUuid(t.taskId) == Some(t.taskId)
  }

  /** The row of a listable task reads back as the task; the row of a task
      without a deadline is skipped. */
  lemma TaskRowParses(t: Task, codec: Codec)
    ensures Listable(t, codec) ==> ParseRow(TaskRow(t, codec), codec) == Some(t)
    ensures t.deadline.None? ==> ParseRow(TaskRow(t, codec), codec).None?
  {
    var r := TaskRow(t, codec);
    assert Fields(r) == r;
    if Listable(t, codec) {
      assert !Blank(r[0]) && !Blank(r[1]) && !Blank(r[2]) && !Blank(r[3]);
      assert !Blank(r[4]) && !Blank(r[5]) && !Blank(r[6]) && !Blank(r[7]);
      assert forall k :: 0 <= k < 8 ==> !Blank(r[k]) by {
        forall k | 0 <= k < 8 ensures !Blank(r[k]) {
          assert k in {0, 1, 2, 3, 4, 5, 6, 7};
        }
      }
    }
    if t.deadline.None? {
      assert Blank(r[5]);
    }
  }

  /** The sheet grows to at least eight columns when a task is added. */
  lemma WidthAfterAdd(s: Sheet, t: Task, codec: Codec)
    ensures Width(AddTask(s, t, codec)) == Max(Width(s), 8)
  {
    var s' := AddTask(s, t, codec);
    assert s'.rows[..|s'.rows| - 1] == s.rows;
    assert TaskRow(t, codec)[7].Some?;
  }

  /** No row is kept when none parses. */
  lemma {:induction false} KeptNone(rows: seq<Row>, codec: Codec)
    requires forall i :: 0 <= i < |rows| ==> ParseRow(rows[i], codec).None?
    ensures Kept(rows, codec) == []
  {
    if |rows| > 0 {
      KeptNone(rows[..|rows| - 1], codec);
    }
  }

  /** On a sheet of width eight, a listable task that is added is listed
      after the tasks already there. */
  lemma AddThenList(s: Sheet, t: Task, codec: Codec)
    requires Listable(t, codec) && Width(s) == 8
    ensures ListTasks(AddTask(s, t, codec), None, codec) == ListTasks(s, None, codec) + [t]
  {
    var s' := AddTask(s, t, codec);
    WidthAfterAdd(s, t, codec);
    TaskRowParses(t, codec);
    assert Yielded(s') == Yielded(s) + [TaskRow(t, codec)] by {
      assert Padded(TaskRow(t, codec), 8) == TaskRow(t, codec);
      forall i | 0 <= i < |s.rows| ensures Yielded(s')[i] == Yielded(s)[i] {
        assert s'.rows[i] == s.rows[i];
      }
    }
    KeptAppend(Yielded(s), [TaskRow(t, codec)], codec);
  }

  /** On a sheet narrower than eight columns, adding a task widens the sheet
      to eight, and every earlier row, read at the new width, has an empty
      task id and is skipped: a seven-column legacy sheet loses all its tasks
      from the listing. */
  lemma AddHidesNarrowRows(s: Sheet, t: Task, codec: Codec)
    requires Listable(t, codec) && Width(s) < 8
    ensures ListTasks(AddTask(s, t, codec), None, codec) == [t]
  {
    var s' := AddTask(s, t, codec);
    WidthAfterAdd(s, t, codec);
    TaskRowParses(t, codec);
    var old' := Yielded(s')[..|s.rows|];
    assert Yielded(s') == old' + [TaskRow(t, codec)] by {
      assert Padded(TaskRow(t, codec), 8) == TaskRow(t, codec);
    }
    forall i | 0 <= i < |old'| ensures ParseRow(old'[i], codec).None? {
      assert s'.rows[i] == s.rows[i];
      assert old'[i][7] == CellAt(s.rows[i], 7);
      assert Blank(Fields(old'[i])[7]);
    }
    KeptNone(old', codec);
    KeptAppend(old', [TaskRow(t, codec)], codec);
  }

  /** On a sheet wider than eight columns no row has seven or eight cells, so
      nothing is listed, not even a task just added. */
  lemma WideSheetListsNothing(s: Sheet, codec: Codec)
    requires Width(s) > 8
    ensures ListTasks(s, None, codec) == []
  {
    KeptNone(Yielded(s), codec);
  }

  // First-match updates

  /** What one loop step of an update does with a row: go on, update it, or
      raise IndexError on a column beyond the sheet's width. A yielded row
      has `Width` cells, and its cell `k` is `CellAt` of the stored row. */
  datatype Test = Skip | Hit | Fault

  datatype Scan = Found(i: nat) | Faulted(i: nat) | Exhausted

  /** The loop of an update: the first row whose step is not `Skip`. */
  function ScanRows(rows: seq<Row>, test: Row -> Test, from: nat): (r: Scan)
    requires from <= |rows|
    ensures r.Found? ==> from <= r.i < |rows| && test(rows[r.i]) == Hit
    ensures r.Faulted? ==> from <= r.i < |rows| && test(rows[r.i]) == Fault
    ensures !r.Exhausted? ==> forall j :: from <= j < r.i ==> test(rows[j]) == Skip
    ensures r.Exhausted? ==> forall j :: from <= j < |rows| ==> test(rows[j]) == Skip
    decreases |rows| - from
  {
    if from == |rows| then Exhausted
    else
      match test(rows[from])
      case Skip => ScanRows(rows, test, from + 1)
      case Hit => Found(from)
      case Fault => Faulted(from)
  }

  /** The outcome of an update: `True` with the updated sheet and the row
      written, `False`, or an IndexError. */
  datatype Write = Written(sheet: Sheet, row: nat) | NotFound | IndexFault

  /** The test of `mark_task_complete` (line 84). */
  function MarkTest(r: Row, width: nat, id: string): Test {
    if width < 7 then Fault
    else if CellText(CellAt(r, 6)) == id then Hit
    else Skip
  }

  /** `mark_task_complete(task_id, status)`: sets column 5 of the first row
      whose column 6 reads as the id. These are the legacy column positions;
      in the layout of `Headers` column 6 is the status and column 5 the
      deadline. */
  function MarkTaskComplete(s: Sheet, id: string, status: string): (w: Write)
    ensures w.IndexFault? <==> |s.rows| > 0 && Width(s) < 7
    ensures w.NotFound? <==> ((|s.rows| == 0 || Width(s) >= 7)
                             && forall j :: 0 <= j < |s.rows| ==> CellText(CellAt(s.rows[j], 6)) != id)
    ensures w.Written? ==>
              && w.row < |s.rows| && CellText(CellAt(s.rows[w.row], 6)) == id
              && (forall j :: 0 <= j < w.row ==> CellText(CellAt(s.rows[j], 6)) != id)
              && w.sheet.header == s.header && |w.sheet.rows| == |s.rows|
              && (forall j :: 0 <= j < |s.rows| && j != w.row ==> w.sheet.rows[j] == s.rows[j])
              && CellAt(w.sheet.rows[w.row], 5) == Some(status)
              && (forall k :: k != 5 ==> CellAt(w.sheet.rows[w.row], k) == CellAt(s.rows[w.row], k))
  {
    match ScanRows(s.rows, r => MarkTest(r, Width(s), id), 0)
    case Found(i) => Written(Sheet(s.header, s.rows[i := SetCell(s.rows[i], 5, Some(status))]), i)
    case Faulted(_) => IndexFault
    case Exhausted => NotFound
  }

  /** The test of `update_task_status_by_name` (line 96) when the status is
      written to column `col`. A key that is not a string (None here) equals
      no cell; the `and` reads column 3 only when column 1 matched, and the
      write needs column `col`. */
  function ByNameTest(r: Row, width: nat, asignee: Option<string>, taskName: Option<string>, col: nat): Test {
    if width < 2 then Fault
    else if !(asignee.Some? && CellAt(r, 1) == asignee) then Skip
    else if width < 4 then Fault
    else if !(taskName.Some? && CellAt(r, 3) == taskName) then Skip
    else if width <= col then Fault
    else Hit
  }

  /** A row matches by name: its asignee and task name cells equal the keys
      exactly. */
  predicate NameMatch(r: Row, asignee: Option<string>, taskName: Option<string>) {
    asignee.Some? && taskName.Some? && CellAt(r, 1) == asignee && CellAt(r, 3) == taskName
  }

  /** `update_task_status_by_name`: sets column 5 of the first row whose
      columns 1 and 3 equal the keys, case and spacing included. Column 5 is
      the status in the seven-column legacy layout, but the deadline in the
      layout of `Headers`. */
  function UpdateStatusByName(s: Sheet, asignee: Option<string>, taskName: Option<string>, status: string): (w: Write)
    ensures Width(s) >= 6 ==> !w.IndexFault?
    ensures w.NotFound? ==> forall j :: 0 <= j < |s.rows| ==> !NameMatch(s.rows[j], asignee, taskName)
    ensures Width(s) >= 6 && (forall j :: 0 <= j < |s.rows| ==> !NameMatch(s.rows[j], asignee, taskName)) ==> w.NotFound?
    ensures w.Written? ==>
              && w.row < |s.rows| && NameMatch(s.rows[w.row], asignee, taskName)
              && (forall j :: 0 <= j < w.row ==> !NameMatch(s.rows[j], asignee, taskName))
              && w.sheet.header == s.header && |w.sheet.rows| == |s.rows|
              && (forall j :: 0 <= j < |s.rows| && j != w.row ==> w.sheet.rows[j] == s.rows[j])
              && CellAt(w.sheet.rows[w.row], 5) == Some(status)
              && (forall k :: k != 5 ==> CellAt(w.sheet.rows[w.row], k) == CellAt(s.rows[w.row], k))
  {
    match ScanRows(s.rows, r => ByNameTest(r, Width(s), asignee, taskName, 5), 0)
    case Found(i) => Written(Sheet(s.header, s.rows[i := SetCell(s.rows[i], 5, Some(status))]), i)
    case Faulted(_) => IndexFault
    case Exhausted => NotFound
  }

  /** The test of `update_task_by_id` (line 113). */
  function ByIdTest(r: Row, width: nat, id: string): Test {
    if width < 8 then Fault
    else if CellText(CellAt(r, 7)) == id then Hit
    else Skip
  }

  /** The first eight columns replaced, the rest kept. */
  function Overwrite(r: Row, cells: Row): (r': Row)
    requires |cells| == 8
    ensures forall k :: 0 <= k < 8 ==> CellAt(r', k) == cells[k]
    ensures forall k :: 8 <= k ==> CellAt(r', k) == CellAt(r, k)
  {
    if |r| > 8 then cells + r[8..] else cells
  }

  /** `update_task_by_id(task_id, task)`: overwrites the eight columns of the
      first row whose column 7 reads as `id` with the task's row. */
  function UpdateById(s: Sheet, id: string, t: Task, codec: Codec): (w: Write)
    ensures w.IndexFault? <==> |s.rows| > 0 && Width(s) < 8
    ensures w.NotFound? <==> ((|s.rows| == 0 || Width(s) >= 8)
                             && forall j :: 0 <= j < |s.rows| ==> CellText(CellAt(s.rows[j], 7)) != id)
    ensures w.Written? ==>
              && w.row < |s.rows| && CellText(CellAt(s.rows[w.row], 7)) == id
              && (forall j :: 0 <= j < w.row ==> CellText(CellAt(s.rows[j], 7)) != id)
              && w.sheet.header == s.header && |w.sheet.rows| == |s.rows|
              && (forall j :: 0 <= j < |s.rows| && j != w.row ==> w.sheet.rows[j] == s.rows[j])
              && (forall k :: 0 <= k < 8 ==> CellAt(w.sheet.rows[w.row], k) == TaskRow(t, codec)[k])
              && (forall k :: 8 <= k ==> CellAt(w.sheet.rows[w.row], k) == CellAt(s.rows[w.row], k))
  {
    match ScanRows(s.rows, r => ByIdTest(r, Width(s), id), 0)
    case Found(i) => Written(Sheet(s.header, s.rows[i := Overwrite(s.rows[i], TaskRow(t, codec))]), i)
    case Faulted(_) => IndexFault
    case Exhausted => NotFound
  }

  /** `mark_task_complete` and `update_task_by_id` disagree on where the id
      is: given the id of a task just written by `add_task` (and a status that
      differs from it), the first finds nothing, because its column 6 holds the
      status, while the second finds the row. */
  lemma MarkMissesAddedTask(t: Task, u: Task, codec: Codec, status: string)
    requires t.status != t.taskId
    ensures MarkTaskComplete(AddTask(Sheet(HeaderRow(), []), t, codec), t.taskId, status).NotFound?
    ensures UpdateById(AddTask(Sheet(HeaderRow(), []), t, codec), t.taskId, u, codec).Written?
  {
    var s := AddTask(Sheet(HeaderRow(), []), t, codec);
    WidthAfterAdd(Sheet(HeaderRow(), []), t, codec);
    assert CellAt(s.rows[0], 6) == Some(t.status);
    assert CellAt(s.rows[0], 7) == Some(t.taskId);
  }

  /** `mark_task_complete` with the columns of `Headers`: sets the status
      (column 6) of the first row whose task id (column 7) reads as `id`. */
  function MarkTaskCompleteByHeaders(s: Sheet, id: string, status: string): (w: Write)
    ensures w.IndexFault? <==> |s.rows| > 0 && Width(s) < 8
    ensures w.NotFound? <==> ((|s.rows| == 0 || Width(s) >= 8)
                             && forall j :: 0 <= j < |s.rows| ==> CellText(CellAt(s.rows[j], 7)) != id)
    ensures w.Written? ==>
              && w.row < |s.rows| && CellText(CellAt(s.rows[w.row], 7)) == id
              && (forall j :: 0 <= j < w.row ==> CellText(CellAt(s.rows[j], 7)) != id)
              && w.sheet.header == s.header && |w.sheet.rows| == |s.rows|
              && (forall j :: 0 <= j < |s.rows| && j != w.row ==> w.sheet.rows[j] == s.rows[j])
              && CellAt(w.sheet.rows[w.row], 6) == Some(status)
              && (forall k :: k != 6 ==> CellAt(w.sheet.rows[w.row], k) == CellAt(s.rows[w.row], k))
  {
    match ScanRows(s.rows, r => ByIdTest(r, Width(s), id), 0)
    case Found(i) => Written(Sheet(s.header, s.rows[i := SetCell(s.rows[i], 6, Some(status))]), i)
    case Faulted(_) => IndexFault
    case Exhausted => NotFound
  }

  /** Updating by id the task just added overwrites its row: reading the
      sheet back lists the new task in its place. */
  lemma UpdateByIdReplacesAddedTask(t: Task, u: Task, codec: Codec)
    requires Listable(u, codec)
    ensures var s := AddTask(Sheet(HeaderRow(), []), t, codec);
            var w := UpdateById(s, t.taskId, u, codec);
            && w.Written? && w.row == 0
            && ListTasks(w.sheet, None, codec) == [u]
  {
    var s := AddTask(Sheet(HeaderRow(), []), t, codec);
    WidthAfterAdd(Sheet(HeaderRow(), []), t, codec);
    assert CellAt(s.rows[0], 7) == Some(t.taskId);
    var w := UpdateById(s, t.taskId, u, codec);
    assert w.sheet.rows[0] == TaskRow(u, codec);
    assert w.sheet == AddTask(Sheet(HeaderRow(), []), u, codec);
    AddThenList(Sheet(HeaderRow(), []), u, codec);
    assert ListTasks(Sheet(HeaderRow(), []), None, codec) == [];
  }

  /** With the columns of `Headers`, marking the task just added finds its
      row and changes its status and nothing else: reading the sheet back
      lists the task with the new status. */
  lemma MarkByHeadersFindsAddedTask(t: Task, codec: Codec, status: string)
    requires Listable(t, codec) && !Blank(Some(status))
    ensures var s := AddTask(Sheet(HeaderRow(), []), t, codec);
            var w := MarkTaskCompleteByHeaders(s, t.taskId, status);
            && w.Written? && w.row == 0
            && ListTasks(w.sheet, None, codec) == [t.(status := status)]
  {
    var s := AddTask(Sheet(HeaderRow(), []), t, codec);
    WidthAfterAdd(Sheet(HeaderRow(), []), t, codec);
    assert CellAt(s.rows[0], 7) == Some(t.taskId);
    var w := MarkTaskCompleteByHeaders(s, t.taskId, status);
    var t' := t.(status := status);
    assert Listable(t', codec);
    assert w.sheet.rows[0] == TaskRow(t', codec) by {
      var r := w.sheet.rows[0];
      assert |r| == 8;
      forall k | 0 <= k < 8 ensures r[k] == TaskRow(t', codec)[k] {
        assert CellAt(r, k) == r[k];
      }
    }
    assert w.sheet == AddTask(Sheet(HeaderRow(), []), t', codec);
    AddThenList(Sheet(HeaderRow(), []), t', codec);
    assert ListTasks(Sheet(HeaderRow(), []), None, codec) == [];
  }

  /** `update_task_status_by_name` with the columns of `Headers`: sets the
      status (column 6) of the first row whose columns 1 and 3 equal the keys. */
  function UpdateStatusByNameByHeaders(s: Sheet, asignee: Option<string>, taskName: Option<string>, status: string): (w: Write)
    ensures Width(s) >= 7 ==> !w.IndexFault?
    ensures w.NotFound? ==> forall j :: 0 <= j < |s.rows| ==> !NameMatch(s.rows[j], asignee, taskName)
    ensures Width(s) >= 7 && (forall j :: 0 <= j < |s.rows| ==> !NameMatch(s.rows[j], asignee, taskName)) ==> w.NotFound?
    ensures w.Written? ==>
              && w.row < |s.rows| && NameMatch(s.rows[w.row], asignee, taskName)
              && (forall j :: 0 <= j < w.row ==> !NameMatch(s.rows[j], asignee, taskName))
              && w.sheet.header == s.header && |w.sheet.rows| == |s.rows|
              && (forall j :: 0 <= j < |s.rows| && j != w.row ==> w.sheet.rows[j] == s.rows[j])
              && CellAt(w.sheet.rows[w.row], 6) == Some(status)
              && (forall k :: k != 6 ==> CellAt(w.sheet.rows[w.row], k) == CellAt(s.rows[w.row], k))
  {
    match ScanRows(s.rows, r => ByNameTest(r, Width(s), asignee, taskName, 6), 0)
    case Found(i) => Written(Sheet(s.header, s.rows[i := SetCell(s.rows[i], 6, Some(status))]), i)
    case Faulted(_) => IndexFault
    case Exhausted => NotFound
  }

  /** The sheet holding just the header and one row. */
  lemma OneRowWidth(r: Row)
    requires |r| == 8 && r[7].Some?
    ensures Width(Sheet(HeaderRow(), [r])) == 8
    ensures Yielded(Sheet(HeaderRow(), [r])) == [r]
  {
    assert Extent(r) == 8;
    assert MaxExtent([r]) == 8 by {
      assert [r][..0] == [];
    }
    assert Padded(r, 8) == r;
  }

  /** Updating by name the task just added writes its status into the
      deadline column; when the status is not a date, the row no longer
      parses and the task drops out of every listing. */
  lemma ByNameHidesAddedTask(t: Task, codec: Codec, status: string)
    requires Listable(t, codec) && !Blank(Some(status)) && codec.fromIsoFormat(status).None?
    ensures var s := AddTask(Sheet(HeaderRow(), []), t, codec);
            var w := UpdateStatusByName(s, Some(t.asignee), Some(t.taskName), status);
            && w.Written? && w.row == 0
            && ListTasks(s, None, codec) == [t]
            && ListTasks(w.sheet, None, codec) == []
  {
    var s := AddTask(Sheet(HeaderRow(), []), t, codec);
    AddThenList(Sheet(HeaderRow(), []), t, codec);
    assert ListTasks(Sheet(HeaderRow(), []), None, codec) == [];
    WidthAfterAdd(Sheet(HeaderRow(), []), t, codec);
    assert NameMatch(s.rows[0], Some(t.asignee), Some(t.taskName));
    var w := UpdateStatusByName(s, Some(t.asignee), Some(t.taskName), status);
    var r := w.sheet.rows[0];
    assert |r| == 8 && r[7].Some? && r[5] == Some(status) by {
      assert CellAt(r, 7) == CellAt(s.rows[0], 7);
      assert CellAt(r, 5) == r[5];
    }
    assert w.sheet == Sheet(HeaderRow(), [r]);
    OneRowWidth(r);
    assert Fields(r) == r;
    assert ParseRow(r, codec).None?;
  }

  /** With the columns of `Headers`, updating the task just added by name
      changes its status and nothing else: listing gives the task with the
      new status. */
  lemma ByNameByHeadersUpdatesAddedTask(t: Task, codec: Codec, status: string)
    requires Listable(t, codec) && !Blank(Some(status))
    ensures var s := AddTask(Sheet(HeaderRow(), []), t, codec);
            var w := UpdateStatusByNameByHeaders(s, Some(t.asignee), Some(t.taskName), status);
            && w.Written? && w.row == 0
            && ListTasks(w.sheet, None, codec) == [t.(status := status)]
  {
    var s := AddTask(Sheet(HeaderRow(), []), t, codec);
    WidthAfterAdd(Sheet(HeaderRow(), []), t, codec);
    assert NameMatch(s.rows[0], Some(t.asignee), Some(t.taskName));
    var w := UpdateStatusByNameByHeaders(s, Some(t.asignee), Some(t.taskName), status);
    var t' := t.(status := status);
    assert Listable(t', codec);
    assert w.sheet.rows[0] == TaskRow(t', codec) by {
      var r := w.sheet.rows[0];
      assert |r| == 8;
      forall k | 0 <= k < 8 ensures r[k] == TaskRow(t', codec)[k] {
        assert CellAt(r, k) == r[k];
      }
    }
    assert w.sheet == AddTask(Sheet(HeaderRow(), []), t', codec);
    AddThenList(Sheet(HeaderRow(), []), t', codec);
    assert ListTasks(Sheet(HeaderRow(), []), None, codec) == [];
  }
}

=== FILE: TaskCard.dfy ===
/** The task record of the web UI and what a task card derives from it:
    the overdue predicate, the status badge, the priority colour and the
    status buttons. Dates are timestamps; `now` is always a parameter. */
module TaskCard {
  import opened Wrappers

  datatype TaskStatus = Pending | Progress | Completed | Overdue

  datatype Priority = Low | Medium | High

  datatype Task = Task(
    id: string,
    title: string,
    description: string,
    status: TaskStatus,
    assignedTo: string,
    assignedBy: string,
    dueDate: int,
    createdAt: int,
    priority: Priority)

  /** One entry of the status table shared by the card and the detail modal. */
  datatype StatusOption = StatusOption(status: TaskStatus, caption: string, variant: string)

  /** The callbacks a task card or the detail modal can fire. */
  datatype UiAction =
    | ChangeStatus(taskId: string, newStatus: TaskStatus)
    | EditTask(task: Task)
    | DeleteTask(taskId: string)
    | OpenTask(task: Task)

  /** A status button: its caption (label), whether it is drawn as the current status,
      and the callback its click fires. */
  datatype StatusButton = StatusButton(caption: string, current: bool, action: UiAction)

  datatype Badge = Badge(caption: Option<string>, variant: string)

  /** The status table, in display order. */
  const StatusOptions: seq<StatusOption> := [
    StatusOption(Pending, "Pending", "pending"),
    StatusOption(Progress, "In Progress", "progress"),
    StatusOption(Completed, "Completed", "completed"),
    StatusOption(Overdue, "Overdue", "overdue")
  ]

  /** A task is shown as overdue when its due date has passed and it is not
      completed, whatever its stored status. */
  predicate IsOverdue(t: Task, now: int) {
    t.dueDate < now && t.status != Completed
  }

  /** `Array.prototype.find`: the first option whose status is `s`. */
  function FindOption(options: seq<StatusOption>, s: TaskStatus): (r: Option<StatusOption>)
    ensures r.Some? ==> r.value in options && r.value.status == s
    ensures r.None? ==> forall i :: 0 <= i < |options| ==> options[i].status != s
    ensures r.Some? ==> exists i :: 0 <= i < |options| && options[i] == r.value
                                    && (forall j :: 0 <= j < i ==> options[j].status != s)
  {
    if |options| == 0 then None
    else if options[0].status == s then Some(options[0])
    else
      var r := FindOption(options[1..], s);
      if r.Some? then
        var i :| 0 <= i < |options[1..]| && options[1..][i] == r.value
                 && (forall j :: 0 <= j < i ==> options[1..][j].status != s);
        assert options[i + 1] == r.value;
        r
      else r
  }

  /** The table lists every status exactly once, so the lookup of a stored
      status always succeeds and returns that status's own entry. */
  lemma StatusOptionsComplete(s: TaskStatus)
    ensures FindOption(StatusOptions, s).Some?
    ensures FindOption(StatusOptions, s).value.status == s
    ensures forall i, j :: 0 <= i < j < |StatusOptions| ==> StatusOptions[i].status != StatusOptions[j].status
  {
  }

  /** The badge of a card: "Overdue" when the task is overdue, otherwise the
      caption and variant of the stored status's entry, the variant falling back
      to "pending" when the lookup finds nothing. */
  function StatusBadge(t: Task, now: int): (b: Badge)
    ensures IsOverdue(t, now) ==> b == Badge(Some("Overdue"), "overdue")
    ensures !IsOverdue(t, now) ==>
      var o := FindOption(StatusOptions, t.status);
      b.caption == (if o.Some? then Some(o.value.caption) else None)
  {
    var current := FindOption(StatusOptions, t.status);
    if IsOverdue(t, now) then Badge(Some("Overdue"), "overdue")
    else
      Badge(
        if current.Some? then Some(current.value.caption) else None,
        if current.Some? && current.value.variant != "" then current.value.variant else "pending")
  }

  /** The badge shows "Overdue" exactly when the task is overdue or stored as
      overdue; otherwise it shows the stored status's own label and variant. */
  lemma {:induction false} BadgeShowsOverdue(t: Task, now: int)
    ensures StatusBadge(t, now).caption == Some("Overdue") <==> IsOverdue(t, now) || t.status == Overdue
    ensures !IsOverdue(t, now) ==>
      StatusBadge(t, now) == Badge(Some(StatusCaption(t.status)), StatusVariant(t.status))
  {
    StatusOptionsComplete(t.status);
  }

  function StatusCaption(s: TaskStatus): string {
    match s
    case Pending => "Pending"
    case Progress => "In Progress"
    case Completed => "Completed"
    case Overdue => "Overdue"
  }

  function StatusVariant(s: TaskStatus): string {
    match s
    case Pending => "pending"
    case Progress => "progress"
    case Completed => "completed"
    case Overdue => "overdue"
  }

  /** A completed task is never overdue, however old its due date. */
  lemma CompletedNeverOverdue(t: Task, now: int)
    requires t.status == Completed
    ensures !IsOverdue(t, now) && StatusBadge(t, now).caption == Some("Completed")
  {
    StatusOptionsComplete(Completed);
  }

  /** A task stored as overdue keeps the "Overdue" badge even when its due
      date is still ahead: the label then comes from the status table. */
  lemma StoredOverdueShowsOverdue(t: Task, now: int)
    requires t.status == Overdue && t.dueDate >= now
    ensures !IsOverdue(t, now) && StatusBadge(t, now) == Badge(Some("Overdue"), "overdue")
  {
    StatusOptionsComplete(Overdue);
  }

  /** The text colour class of each priority. */
  function PriorityColor(p: Priority): (c: string)
    ensures c in {"text-success", "text-warning", "text-destructive"}
  {
    match p
    case Low => "text-success"
    case Medium => "text-warning"
    case High => "text-destructive"
  }

  /** The three priorities get three different colours. */
  lemma PriorityColorsDistinct(p: Priority, q: Priority)
    requires p != q
    ensures PriorityColor(p) != PriorityColor(q)
  {
  }

  /** One status button per table entry, in table order. */
  function StatusButtons(t: Task): (bs: seq<StatusButton>)
    ensures |bs| == |StatusOptions|
    ensures forall i :: 0 <= i < |bs| ==>
      bs[i].action == ChangeStatus(t.id, StatusOptions[i].status)
      && bs[i].caption == StatusOptions[i].caption
      && (bs[i].current <==> t.status == StatusOptions[i].status)
  {
    seq(|StatusOptions|, i requires 0 <= i < |StatusOptions| =>
      StatusButton(StatusOptions[i].caption, t.status == StatusOptions[i].status,
                   ChangeStatus(t.id, StatusOptions[i].status)))
  }

  /** Every status is offered by exactly one button, which forwards the task's
      id with that status, and exactly one button is drawn as current. */
  lemma {:induction false} EachStatusHasOneButton(t: Task, s: TaskStatus)
    ensures exists i :: 0 <= i < |StatusButtons(t)| && StatusButtons(t)[i].action == ChangeStatus(t.id, s)
    ensures forall i, j :: 0 <= i < j < |StatusButtons(t)| ==>
      StatusButtons(t)[i].action != StatusButtons(t)[j].action
    ensures exists i :: 0 <= i < |StatusButtons(t)| && StatusButtons(t)[i].current
  {
    var bs := StatusButtons(t);
    var k := match s case Pending => 0 case Progress => 1 case Completed => 2 case Overdue => 3;
    assert bs[k].action == ChangeStatus(t.id, s);
    var c := match t.status case Pending => 0 case Progress => 1 case Completed => 2 case Overdue => 3;
    assert bs[c].current;
  }

  /** Clicking a card opens that task. */
  function CardClick(t: Task): (a: UiAction)
    ensures a.OpenTask? && a.task == t
  {
    OpenTask(t)
  }
}

=== FILE: TaskList.dfy ===
/** A titled list of task cards: the per-status badges above it, the grid or
    the empty state, and which task the detail modal shows. */
module TaskList {
  import opened Wrappers
  import opened Seqs
  import opened TaskCard
  import TaskModal

  datatype StatusCounts = StatusCounts(pending: nat, progress: nat, completed: nat, overdue: nat)

  function HasStatus(s: TaskStatus): Task -> bool {
    (t: Task) => t.status == s
  }

  function OverdueAt(now: int): Task -> bool {
    (t: Task) => IsOverdue(t, now)
  }

  /** The four badge counts of a list at time `now`. */
  function CountStatuses(tasks: seq<Task>, now: int): StatusCounts {
    StatusCounts(
      |Filter(tasks, HasStatus(Pending))|,
      |Filter(tasks, HasStatus(Progress))|,
      |Filter(tasks, HasStatus(Completed))|,
      |Filter(tasks, OverdueAt(now))|)
  }

  /** The first three counts are counts by stored status and the fourth counts
      the tasks shown as overdue; the stored statuses partition the list, so the
      first three plus the stored-overdue tasks make up the whole list. */
  lemma CountStatusesMeaning(tasks: seq<Task>, now: int)
    ensures CountStatuses(tasks, now).pending == Count(tasks, HasStatus(Pending))
    ensures CountStatuses(tasks, now).progress == Count(tasks, HasStatus(Progress))
    ensures CountStatuses(tasks, now).completed == Count(tasks, HasStatus(Completed))
    ensures CountStatuses(tasks, now).overdue == Count(tasks, OverdueAt(now))
    ensures var c := CountStatuses(tasks, now);
      c.pending + c.progress + c.completed + Count(tasks, HasStatus(Overdue)) == |tasks|
  {
    FilterLength(tasks, HasStatus(Pending));
    FilterLength(tasks, HasStatus(Progress));
    FilterLength(tasks, HasStatus(Completed));
    FilterLength(tasks, OverdueAt(now));
    StatusesPartition(tasks);
  }

  lemma {:induction false} StatusesPartition(tasks: seq<Task>)
    ensures Count(tasks, HasStatus(Pending)) + Count(tasks, HasStatus(Progress))
      + Count(tasks, HasStatus(Completed)) + Count(tasks, HasStatus(Overdue)) == |tasks|
  {
    if |tasks| > 0 {
      StatusesPartition(tasks[1..]);
    }
  }

  /** The overdue count is bounded by the tasks not completed. */
  lemma {:induction false} OverdueAtMostUncompleted(tasks: seq<Task>, now: int)
    ensures Count(tasks, OverdueAt(now)) + Count(tasks, HasStatus(Completed)) <= |tasks|
  {
    if |tasks| > 0 {
      OverdueAtMostUncompleted(tasks[1..], now);
    }
  }

  /** The counts overlap: a past-due pending task is counted both as pending
      and as overdue, and a task stored as overdue is in none of the first three. */
  lemma CountsOverlap(t: Task, u: Task, now: int)
    requires t.status == Pending && t.dueDate < now
    requires u.status == Overdue
    ensures CountStatuses([t], now) == StatusCounts(1, 0, 0, 1)
    ensures var c := CountStatuses([u], now); c.pending == 0 && c.progress == 0 && c.completed == 0
  {
  }

  /** The overdue badge is drawn only when something is overdue. */
  predicate ShowsOverdueBadge(c: StatusCounts) {
    c.overdue > 0
  }

  lemma OverdueBadgeShown(tasks: seq<Task>, now: int)
    ensures ShowsOverdueBadge(CountStatuses(tasks, now)) <==>
      exists i :: 0 <= i < |tasks| && IsOverdue(tasks[i], now)
  {
    var f := Filter(tasks, OverdueAt(now));
    if |f| > 0 {
      assert f[0] in tasks && OverdueAt(now)(f[0]);
    }
    if exists i :: 0 <= i < |tasks| && IsOverdue(tasks[i], now) {
      var i :| 0 <= i < |tasks| && IsOverdue(tasks[i], now);
      assert OverdueAt(now)(tasks[i]);
      assert tasks[i] in f;
    }
  }

  datatype Grid = EmptyState | Cards(cards: seq<Task>)

  /** The empty state for an empty list, otherwise one card per task in list order. */
  function RenderGrid(tasks: seq<Task>): (g: Grid)
    ensures g.EmptyState? <==> |tasks| == 0
    ensures g.Cards? ==> g.cards == tasks
  {
    if |tasks| == 0 then EmptyState else Cards(tasks)
  }

  /** The grid and the badges agree: an empty list shows the empty state with
      every badge at zero, and the grid has cards exactly when the stored
      statuses the badges split count some task. */
  lemma GridMatchesBadges(tasks: seq<Task>, now: int)
    ensures RenderGrid(tasks).EmptyState? ==> CountStatuses(tasks, now) == StatusCounts(0, 0, 0, 0)
    ensures RenderGrid(tasks).Cards? <==>
      var c := CountStatuses(tasks, now);
      c.pending + c.progress + c.completed + Count(tasks, HasStatus(Overdue)) > 0
  {
    CountStatusesMeaning(tasks, now);
  }

  /** Which task the detail modal holds and whether it is open. */
  datatype ListState = ListState(selected: Option<Task>, modalOpen: bool)

  const Initial := ListState(None, false)

  /** Clicking a card selects its task and opens the modal. */
  function ClickTask(st: ListState, t: Task): (r: ListState)
    ensures r.selected == Some(t) && r.modalOpen
  {
    ListState(Some(t), true)
  }

  /** Closing the modal clears the selection and closes it. */
  function CloseModal(st: ListState): (r: ListState)
    ensures r.selected.None? && !r.modalOpen
  {
    ListState(None, false)
  }

  /** After a click the modal renders the clicked task; after closing it
      renders nothing. */
  lemma ClickThenClose(st: ListState, t: Task, now: int)
    ensures TaskModal.Render(ClickTask(st, t).selected, now).Some?
    ensures TaskModal.Render(ClickTask(st, t).selected, now).value.delete == DeleteTask(t.id)
    ensures CloseModal(ClickTask(st, t)) == Initial
    ensures TaskModal.Render(CloseModal(st).selected, now).None?
  {
  }

  /** Clicking the k-th card of the grid opens the modal on that very task:
      its status buttons and its delete button act on that task's id. */
  lemma GridCardOpensItsTask(st: ListState, tasks: seq<Task>, k: nat, now: int)
    requires k < |tasks|
    ensures RenderGrid(tasks).Cards? && k < |RenderGrid(tasks).cards|
    ensures var a := CardClick(RenderGrid(tasks).cards[k]);
            var v := TaskModal.Render(ClickTask(st, a.task).selected, now);
            && v.Some?
            && v.value.delete == DeleteTask(tasks[k].id)
            && forall i :: 0 <= i < |v.value.buttons| ==>
                 v.value.buttons[i].action == ChangeStatus(tasks[k].id, StatusOptions[i].status)
  {
  }
}

=== FILE: TaskModal.dfy ===
/** The task detail modal: nothing without a task; otherwise the same badge
    rule and status table as the card, plus edit and delete callbacks. */
module TaskModal {
  import opened Wrappers
  import opened TaskCard

  datatype ModalView = ModalView(
    title: string,
    badge: Badge,
    priorityColor: string,
    buttons: seq<StatusButton>,
    edit: UiAction,
    delete: UiAction)

  /** The modal rendered for an optional task at time `now`. */
  function Render(task: Option<Task>, now: int): (v: Option<ModalView>)
    ensures task.None? <==> v.None?
    ensures v.Some? ==> v.value.edit == EditTask(task.value) && v.value.delete == DeleteTask(task.value.id)
    ensures v.Some? ==>
      (v.value.badge.caption == Some("Overdue") <==> IsOverdue(task.value, now) || task.value.status == Overdue)
    ensures v.Some? && !IsOverdue(task.value, now) ==>
      v.value.badge == Badge(Some(StatusCaption(task.value.status)), StatusVariant(task.value.status))
    ensures v.Some? ==> |v.value.buttons| == |StatusOptions|
    ensures v.Some? ==> forall i :: 0 <= i < |v.value.buttons| ==>
      v.value.buttons[i].action == ChangeStatus(task.value.id, StatusOptions[i].status)
  {
    match task
    case None => None
    case Some(t) =>
      BadgeShowsOverdue(t, now);
      Some(ModalView(t.title, StatusBadge(t, now), PriorityColor(t.priority),
                     StatusButtons(t), EditTask(t), DeleteTask(t.id)))
  }
}

=== FILE: TaskStore.dfy ===
/** The page controller of the web UI: the task list it holds, the three views
    over it, the dashboard counts, and the status-change, create and delete
    transitions. The signed-in user and today's date are parameters. */
module TaskStore {
  import opened Text
  import opened Seqs
  import opened TaskCard

  datatype TaskFilter = AssignedToMe | AssignedByMe | Dashboard

  /** The fields the create form supplies; id, creation date and assigner are
      filled in by the page. */
  datatype Draft = Draft(
    title: string,
    description: string,
    status: TaskStatus,
    assignedTo: string,
    dueDate: int,
    priority: Priority)

  datatype TaskCounts = TaskCounts(
    assignedToMe: nat,
    assignedByMe: nat,
    myPending: nat,
    myInProgress: nat,
    myCompleted: nat,
    delegatedPending: nat,
    delegatedInProgress: nat,
    delegatedCompleted: nat)

  /** Which side of a task the user is on. */
  datatype Role = Assignee | Assigner

  function IsMine(role: Role, user: string): Task -> bool {
    (t: Task) => match role case Assignee => t.assignedTo == user case Assigner => t.assignedBy == user
  }

  function IsMineWith(role: Role, user: string, s: TaskStatus): Task -> bool {
    (t: Task) => IsMine(role, user)(t) && t.status == s
  }

  function HasId(id: string): Task -> bool {
    (t: Task) => t.id == id
  }

  function HasOtherId(id: string): Task -> bool {
    (t: Task) => t.id != id
  }

  /** The tasks a view shows: the user's own tasks, the tasks the user handed
      out, or everything. */
  function FilteredTasks(tasks: seq<Task>, filter: TaskFilter, user: string): (r: seq<Task>)
    ensures IsSubsequence(r, tasks)
    ensures filter == Dashboard ==> r == tasks
    ensures filter == AssignedToMe ==>
      (forall i :: 0 <= i < |r| ==> r[i].assignedTo == user)
      && (forall i :: 0 <= i < |tasks| && tasks[i].assignedTo == user ==> tasks[i] in r)
    ensures filter == AssignedByMe ==>
      (forall i :: 0 <= i < |r| ==> r[i].assignedBy == user)
      && (forall i :: 0 <= i < |tasks| && tasks[i].assignedBy == user ==> tasks[i] in r)
  {
    match filter
    case AssignedToMe =>
      FilterIsSubsequence(tasks, IsMine(Assignee, user));
      Filter(tasks, IsMine(Assignee, user))
    case AssignedByMe =>
      FilterIsSubsequence(tasks, IsMine(Assigner, user));
      Filter(tasks, IsMine(Assigner, user))
    case Dashboard =>
      FilterKeepsAll(tasks, (t: Task) => true);
      FilterIsSubsequence(tasks, (t: Task) => true);
      tasks
  }

  /** A view of the user's tasks is exactly the order-preserving subsequence
      of the user's tasks: any subsequence with only the user's tasks and as
      many of them as the list holds is that view. */
  lemma ViewIsTheSubsequence(tasks: seq<Task>, role: Role, user: string, a: seq<Task>)
    requires IsSubsequence(a, tasks)
    requires forall i :: 0 <= i < |a| ==> IsMine(role, user)(a[i])
    requires |a| == Count(tasks, IsMine(role, user))
    ensures a == FilteredTasks(tasks, if role == Assignee then AssignedToMe else AssignedByMe, user)
  {
    FilterUnique(a, tasks, IsMine(role, user));
  }

  function PageTitle(filter: TaskFilter): (title: string)
    ensures filter == AssignedToMe <==> title == "Tasks Assigned to Me"
    ensures filter == AssignedByMe <==> title == "Tasks Assigned by Me"
    ensures filter == Dashboard <==> title == "Dashboard"
  {
    match filter
    case AssignedToMe => "Tasks Assigned to Me"
    case AssignedByMe => "Tasks Assigned by Me"
    case Dashboard => "Dashboard"
  }

  function CountTasks(tasks: seq<Task>, user: string): TaskCounts {
    TaskCounts(
      |Filter(tasks, IsMine(Assignee, user))|,
      |Filter(tasks, IsMine(Assigner, user))|,
      |Filter(tasks, IsMineWith(Assignee, user, Pending))|,
      |Filter(tasks, IsMineWith(Assignee, user, Progress))|,
      |Filter(tasks, IsMineWith(Assignee, user, Completed))|,
      |Filter(tasks, IsMineWith(Assigner, user, Pending))|,
      |Filter(tasks, IsMineWith(Assigner, user, Progress))|,
      |Filter(tasks, IsMineWith(Assigner, user, Completed))|)
  }

  /** Each count is the number of tasks satisfying its predicate, and the two
      totals are the lengths of the two filtered views. */
  lemma CountsMatchViews(tasks: seq<Task>, user: string)
    ensures var c := CountTasks(tasks, user);
      && c.assignedToMe == Count(tasks, IsMine(Assignee, user)) == |FilteredTasks(tasks, AssignedToMe, user)|
      && c.assignedByMe == Count(tasks, IsMine(Assigner, user)) == |FilteredTasks(tasks, AssignedByMe, user)|
      && c.myPending == Count(tasks, IsMineWith(Assignee, user, Pending))
      && c.myInProgress == Count(tasks, IsMineWith(Assignee, user, Progress))
      && c.myCompleted == Count(tasks, IsMineWith(Assignee, user, Completed))
      && c.delegatedPending == Count(tasks, IsMineWith(Assigner, user, Pending))
      && c.delegatedInProgress == Count(tasks, IsMineWith(Assigner, user, Progress))
      && c.delegatedCompleted == Count(tasks, IsMineWith(Assigner, user, Completed))
  {
    FilterLength(tasks, IsMine(Assignee, user));
    FilterLength(tasks, IsMine(Assigner, user));
    FilterLength(tasks, IsMineWith(Assignee, user, Pending));
    FilterLength(tasks, IsMineWith(Assignee, user, Progress));
    FilterLength(tasks, IsMineWith(Assignee, user, Completed));
    FilterLength(tasks, IsMineWith(Assigner, user, Pending));
    FilterLength(tasks, IsMineWith(Assigner, user, Progress));
    FilterLength(tasks, IsMineWith(Assigner, user, Completed));
  }

  /** A role's total splits by stored status; the dashboard's three status
      counts leave out the tasks stored as overdue. */
  lemma {:induction false} RoleCountSplits(tasks: seq<Task>, role: Role, user: string)
    ensures Count(tasks, IsMineWith(role, user, Pending)) + Count(tasks, IsMineWith(role, user, Progress))
      + Count(tasks, IsMineWith(role, user, Completed)) + Count(tasks, IsMineWith(role, user, Overdue))
      == Count(tasks, IsMine(role, user))
  {
    if |tasks| > 0 {
      RoleCountSplits(tasks[1..], role, user);
    }
  }

  /** The user's pending, in-progress and completed counts add up to at most
      the user's total, and to strictly less once one of the user's tasks is
      stored as overdue. */
  lemma MyStatusCountsBounded(tasks: seq<Task>, user: string)
    ensures var c := CountTasks(tasks, user);
      c.myPending + c.myInProgress + c.myCompleted <= c.assignedToMe
      && c.delegatedPending + c.delegatedInProgress + c.delegatedCompleted <= c.assignedByMe
    ensures (exists i :: 0 <= i < |tasks| && tasks[i].assignedTo == user && tasks[i].status == Overdue) ==>
      var c := CountTasks(tasks, user);
      c.myPending + c.myInProgress + c.myCompleted < c.assignedToMe
  {
    CountsMatchViews(tasks, user);
    RoleCountSplits(tasks, Assignee, user);
    RoleCountSplits(tasks, Assigner, user);
    if exists i :: 0 <= i < |tasks| && tasks[i].assignedTo == user && tasks[i].status == Overdue {
      var i :| 0 <= i < |tasks| && tasks[i].assignedTo == user && tasks[i].status == Overdue;
      var p := IsMineWith(Assignee, user, Overdue);
      assert p(tasks[i]);
      assert tasks[i] in Filter(tasks, p);
      FilterLength(tasks, p);
    }
  }

  /** A given task of the user stored as overdue is in the user's view and in
      none of the lists the three status counts measure, so they fall short. */
  lemma OverdueEscapesStatusCounts(tasks: seq<Task>, user: string, i: nat)
    requires i < |tasks| && tasks[i].assignedTo == user && tasks[i].status == Overdue
    ensures tasks[i] in FilteredTasks(tasks, AssignedToMe, user)
    ensures forall s :: s != Overdue ==> tasks[i] !in Filter(tasks, IsMineWith(Assignee, user, s))
    ensures var c := CountTasks(tasks, user);
      c.myPending + c.myInProgress + c.myCompleted < c.assignedToMe
  {
    MyStatusCountsBounded(tasks, user);
    assert IsMine(Assignee, user)(tasks[i]);
  }

  /** The sidebar badge of each view; the dashboard entry adds both totals. */
  function SidebarCount(filter: TaskFilter, c: TaskCounts): (n: nat)
    ensures filter == AssignedToMe ==> n == c.assignedToMe
    ensures filter == AssignedByMe ==> n == c.assignedByMe
    ensures filter == Dashboard ==> n == c.assignedToMe + c.assignedByMe
  {
    match filter
    case AssignedToMe => c.assignedToMe
    case AssignedByMe => c.assignedByMe
    case Dashboard => c.assignedToMe + c.assignedByMe
  }

  /** Each sidebar badge counts a view: the two role entries show the length
      of their filtered list, and the dashboard entry the sum of both lengths,
      not the length of the dashboard's own list. */
  lemma SidebarCountIsViewSize(tasks: seq<Task>, user: string)
    ensures SidebarCount(AssignedToMe, CountTasks(tasks, user)) == |FilteredTasks(tasks, AssignedToMe, user)|
    ensures SidebarCount(AssignedByMe, CountTasks(tasks, user)) == |FilteredTasks(tasks, AssignedByMe, user)|
    ensures SidebarCount(Dashboard, CountTasks(tasks, user))
            == |FilteredTasks(tasks, AssignedToMe, user)| + |FilteredTasks(tasks, AssignedByMe, user)|
  {
    CountsMatchViews(tasks, user);
  }

  /** A task the user assigned to themself is counted twice by the dashboard
      entry of the sidebar. */
  lemma SelfAssignedCountedTwice(t: Task, user: string)
    requires t.assignedTo == user && t.assignedBy == user
    ensures SidebarCount(Dashboard, CountTasks([t], user)) == 2
  {
  }

  /** Sets the status of every task carrying `id`; nothing else changes. */
  function ChangeStatus(tasks: seq<Task>, id: string, s: TaskStatus): (r: seq<Task>)
    ensures |r| == |tasks|
    ensures forall i :: 0 <= i < |tasks| && tasks[i].id == id ==> r[i] == tasks[i].(status := s)
    ensures forall i :: 0 <= i < |tasks| && tasks[i].id != id ==> r[i] == tasks[i]
  {
    seq(|tasks|, i requires 0 <= i < |tasks| => if tasks[i].id == id then tasks[i].(status := s) else tasks[i])
  }

  /** A status change keeps every id in place and, for an unknown id, returns
      the list it was given. */
  lemma ChangeStatusKeepsIds(tasks: seq<Task>, id: string, s: TaskStatus)
    ensures forall i :: 0 <= i < |tasks| ==> ChangeStatus(tasks, id, s)[i].id == tasks[i].id
    ensures (forall i :: 0 <= i < |tasks| ==> tasks[i].id != id) ==> ChangeStatus(tasks, id, s) == tasks
    ensures ChangeStatus(ChangeStatus(tasks, id, s), id, s) == ChangeStatus(tasks, id, s)
  {
  }

  /** Appends the new task with the next id, today's date and the user as assigner. */
  function CreateTask(tasks: seq<Task>, d: Draft, user: string, today: int): (r: seq<Task>)
    ensures |r| == |tasks| + 1 && r[..|tasks|] == tasks
    ensures r[|tasks|] == Task(NatToString(|tasks| + 1), d.title, d.description, d.status,
                               d.assignedTo, user, d.dueDate, today, d.priority)
  {
    var t := Task(NatToString(|tasks| + 1), d.title, d.description, d.status,
                  d.assignedTo, user, d.dueDate, today, d.priority);
    assert (tasks + [t])[..|tasks|] == tasks;
    tasks + [t]
  }

  /** Removes every task carrying `id`, keeping the rest in order. */
  function DeleteTask(tasks: seq<Task>, id: string): (r: seq<Task>)
    ensures forall i :: 0 <= i < |r| ==> r[i].id != id
    ensures forall i :: 0 <= i < |tasks| && tasks[i].id != id ==> tasks[i] in r
    ensures IsSubsequence(r, tasks)
    ensures |r| == |tasks| - Count(tasks, HasId(id))
  {
    FilterIsSubsequence(tasks, HasOtherId(id));
    FilterLength(tasks, HasOtherId(id));
    CountComplement(tasks, id);
    Filter(tasks, HasOtherId(id))
  }

  lemma {:induction false} CountComplement(tasks: seq<Task>, id: string)
    ensures Count(tasks, HasOtherId(id)) + Count(tasks, HasId(id)) == |tasks|
  {
    if |tasks| > 0 {
      CountComplement(tasks[1..], id);
    }
  }

  /** Deleting twice is deleting once, and deleting an unknown id changes nothing. */
  lemma DeleteIdempotent(tasks: seq<Task>, id: string)
    ensures DeleteTask(DeleteTask(tasks, id), id) == DeleteTask(tasks, id)
    ensures (forall i :: 0 <= i < |tasks| ==> tasks[i].id != id) ==> DeleteTask(tasks, id) == tasks
  {
    FilterIdempotent(tasks, HasOtherId(id));
    if forall i :: 0 <= i < |tasks| ==> tasks[i].id != id {
      FilterKeepsAll(tasks, HasOtherId(id));
    }
  }

  /** Deleting the task just created restores the list when its id was new. */
  lemma CreateThenDelete(tasks: seq<Task>, d: Draft, user: string, today: int)
    requires forall i :: 0 <= i < |tasks| ==> tasks[i].id != NatToString(|tasks| + 1)
    ensures DeleteTask(CreateTask(tasks, d, user, today), NatToString(|tasks| + 1)) == tasks
  {
    var id := NatToString(|tasks| + 1);
    var r := CreateTask(tasks, d, user, today);
    assert r == tasks + [r[|tasks|]];
    FilterAppend(tasks, [r[|tasks|]], HasOtherId(id));
    FilterKeepsAll(tasks, HasOtherId(id));
  }

  /** Ids are unique in a list when no two positions share one. */
  predicate UniqueIds(tasks: seq<Task>) {
    forall i, j :: 0 <= i < j < |tasks| ==> tasks[i].id != tasks[j].id
  }

  const MockTasks: seq<Task> := [
    Task("1", "Implement user authentication",
         "Set up login/logout functionality with email validation and secure session management.",
         Progress, "john.doe@company.com", "manager@company.com", 1734220800000, 1733011200000, High),
    Task("2", "Design database schema",
         "Create PostgreSQL database schema for task management system with proper relationships.",
         Pending, "jane.smith@company.com", "john.doe@company.com", 1734652800000, 1733097600000, Medium),
    Task("3", "Write API documentation",
         "Document all REST API endpoints with examples and response formats.",
         Completed, "john.doe@company.com", "manager@company.com", 1733788800000, 1732752000000, Low),
    Task("4", "Set up email notifications",
         "Configure email service for task assignments and status updates.",
         Pending, "alice.wilson@company.com", "john.doe@company.com", 1734480000000, 1733184000000, Medium),
    Task("5", "Mobile responsive testing",
         "Test and fix mobile responsiveness across different devices and screen sizes.",
         Overdue, "john.doe@company.com", "manager@company.com", 1733356800000, 1732492800000, High)
  ]

  /** The initial list has unique ids. */
  lemma MockIdsUnique()
    ensures UniqueIds(MockTasks)
  {
    assert MockTasks[0].id == "1" && MockTasks[1].id == "2" && MockTasks[2].id == "3";
    assert MockTasks[3].id == "4" && MockTasks[4].id == "5";
  }

  /** Deleting task "1" from the initial list leaves the other four in order. */
  lemma DeleteFirstMock()
    ensures DeleteTask(MockTasks, "1") == MockTasks[1..]
  {
    var rest := MockTasks[1..];
    assert rest[0].id == "2" && rest[1].id == "3" && rest[2].id == "4" && rest[3].id == "5";
    FilterKeepsAll(rest, HasOtherId("1"));
    assert !HasOtherId("1")(MockTasks[0]);
  }

  /** The id rule `length + 1` is not fresh: after deleting task "1" from the
      initial list, creating a task gives a second task with id "5". */
  lemma DeleteThenCreateCollides(d: Draft, user: string, today: int)
    ensures var r := CreateTask(DeleteTask(MockTasks, "1"), d, user, today);
      |r| == 5 && r[3].id == "5" && r[4].id == "5" && !UniqueIds(r)
  {
    DeleteFirstMock();
    var r := CreateTask(MockTasks[1..], d, user, today);
    assert NatToString(5) == "5";
    assert r[3] == MockTasks[4];
    assert r[3].id == "5" && r[4].id == "5";
  }

  /** Task "5" of the initial list is john.doe's and is stored as overdue. */
  lemma MockTaskFive()
    ensures MockTasks[4].id == "5" && MockTasks[4].status == Overdue
    ensures MockTasks[4].assignedTo == "john.doe@company.com"
  {
  }

  /** The user's pending, in-progress and completed counts on the initial list
      miss task "5", which is stored as overdue: it is in the user's view and
      in none of the three status lists. */
  lemma MockCountsMissStoredOverdue()
    ensures MockTasks[4].id == "5"
    ensures MockTasks[4] in FilteredTasks(MockTasks, AssignedToMe, "john.doe@company.com")
    ensures forall s :: s != Overdue ==> MockTasks[4] !in Filter(MockTasks, IsMineWith(Assignee, "john.doe@company.com", s))
    ensures var c := CountTasks(MockTasks, "john.doe@company.com");
      c.myPending + c.myInProgress + c.myCompleted < c.assignedToMe
  {
    MockTaskFive();
    OverdueEscapesStatusCounts(MockTasks, "john.doe@company.com", 4);
  }

  /** What a callback fired by a card or the modal does to the list: a status
      change or a delete transforms it, an edit or an open leaves it alone. */
  function Apply(tasks: seq<Task>, a: UiAction): (r: seq<Task>)
    ensures a.ChangeStatus? ==> |r| == |tasks|
    ensures a.ChangeStatus? ==> forall i :: 0 <= i < |r| ==> r[i].id == tasks[i].id
    ensures a.DeleteTask? ==> forall i :: 0 <= i < |r| ==> r[i].id != a.taskId
    ensures a.EditTask? || a.OpenTask? ==> r == tasks
  {
    match a
    case ChangeStatus(id, s) => ChangeStatus(tasks, id, s)
    case DeleteTask(id) => DeleteTask(tasks, id)
    case EditTask(_) => tasks
    case OpenTask(_) => tasks
  }

  /** Pressing a status button on a listed task sets that task's status. */
  lemma StatusButtonSetsStatus(tasks: seq<Task>, k: nat, b: nat)
    requires k < |tasks| && b < |StatusOptions|
    ensures Apply(tasks, StatusButtons(tasks[k])[b].action)[k].status == StatusOptions[b].status
  {
  }
}

=== FILE: Text.dfy ===
/** Character classes, case folding, trimming and decimal rendering used by
    both the JavaScript and the Python parts of the system. */
module Text {

  predicate IsAsciiUpper(c: char) {
    'A' <= c <= 'Z'
  }

  predicate IsDigit(c: char) {
    '0' <= c <= '9'
  }

  /** Case folding of a JavaScript regular expression with the `i` flag and no
      `u` flag: a non-ASCII character never folds onto an ASCII one, so for
      patterns written in ASCII only the letters A-Z matter. */
  function FoldAscii(c: char): char {
    if IsAsciiUpper(c) then (c as int + 32) as char else c
  }

  /** `String.prototype.toLowerCase` as far as a comparison with lower-case
      ASCII text can observe it: A-Z, and the Kelvin sign U+212A, which is the
      only character that lower-cases to a single ASCII letter. */
  function JsLowerChar(c: char): char {
    if c == '\U{212A}' then 'k' else FoldAscii(c)
  }

  function LowerAscii(s: string): (r: string)
    ensures |r| == |s|
    ensures forall i :: 0 <= i < |s| ==> r[i] == FoldAscii(s[i])
  {
    seq(|s|, i requires 0 <= i < |s| => FoldAscii(s[i]))
  }

  function JsLower(s: string): (r: string)
    ensures |r| == |s|
    ensures forall i :: 0 <= i < |s| ==> r[i] == JsLowerChar(s[i])
  {
    seq(|s|, i requires 0 <= i < |s| => JsLowerChar(s[i]))
  }

  /** JavaScript's `\s` class, which is also what `String.prototype.trim`
      removes (WhiteSpace and LineTerminator of ECMA-262). */
  predicate IsJsSpace(c: char) {
    ('\t' <= c <= '\r') || c == ' ' || c == '\U{00A0}' || c == '\U{1680}'
    || ('\U{2000}' <= c <= '\U{200A}') || c == '\U{2028}' || c == '\U{2029}'
    || c == '\U{202F}' || c == '\U{205F}' || c == '\U{3000}' || c == '\U{FEFF}'
  }

  /** The characters JavaScript's `.` refuses to match. */
  predicate IsLineTerminator(c: char) {
    c == '\n' || c == '\r' || c == '\U{2028}' || c == '\U{2029}'
  }

  /** Python's `str.isspace`, which is what `str.strip()` removes. */
  predicate IsPySpace(c: char) {
    ('\t' <= c <= '\r') || ('\U{001C}' <= c <= '\U{001F}') || c == ' '
    || c == '\U{0085}' || c == '\U{00A0}' || c == '\U{1680}'
    || ('\U{2000}' <= c <= '\U{200A}') || c == '\U{2028}' || c == '\U{2029}'
    || c == '\U{202F}' || c == '\U{205F}' || c == '\U{3000}'
  }

  /** The length of the longest prefix of `s` whose characters satisfy `space`. */
  function LeadCount(s: string, space: char -> bool): (n: nat)
    ensures n <= |s|
    ensures forall i :: 0 <= i < n ==> space(s[i])
    ensures n < |s| ==> !space(s[n])
  {
    if |s| > 0 && space(s[0]) then 1 + LeadCount(s[1..], space) else 0
  }

  /** The length of the longest suffix of `s` whose characters satisfy `space`. */
  function TrailCount(s: string, space: char -> bool): (n: nat)
    ensures n <= |s|
    ensures forall i :: |s| - n <= i < |s| ==> space(s[i])
    ensures n < |s| ==> !space(s[|s| - 1 - n])
  {
    if |s| > 0 && space(s[|s| - 1]) then 1 + TrailCount(s[..|s| - 1], space) else 0
  }

  /** Both ends trimmed: the result is a slice of `s` with no `space` character
      at either end, and everything cut off is `space`. */
  function Trim(s: string, space: char -> bool): (r: string)
    ensures exists a :: TrimmedAt(s, r, a, space)
    ensures |r| > 0 ==> !space(r[0]) && !space(r[|r| - 1])
  {
    var a := LeadCount(s, space);
    var n := TrailCount(s[a..], space);
    assert forall i :: a + (|s| - a - n) <= i < |s| ==> space(s[i]) by {
      forall i | |s| - n <= i < |s| ensures space(s[i]) {
        assert s[i] == s[a..][i - a];
      }
    }
    if a + n < |s| then
      assert s[a..][|s| - a - 1 - n] == s[|s| - 1 - n];
      assert TrimmedAt(s, s[a..|s| - n], a, space);
      s[a..|s| - n]
    else
      assert TrimmedAt(s, [], a, space);
      []
  }

  /** `r` is the slice of `s` starting at `a`, and everything of `s` outside
      that slice satisfies `space`. */
  predicate TrimmedAt(s: string, r: string, a: int, space: char -> bool) {
    && 0 <= a && a + |r| <= |s| && r == s[a..a + |r|]
    && (forall i :: 0 <= i < a ==> space(s[i]))
    && (forall i :: a + |r| <= i < |s| ==> space(s[i]))
  }

  /** Text with no `space` character at either end is its own trim. */
  lemma TrimUntouched(s: string, space: char -> bool)
    requires |s| > 0 && !space(s[0]) && !space(s[|s| - 1])
    ensures Trim(s, space) == s
  {
    var r := Trim(s, space);
    var a :| TrimmedAt(s, r, a, space);
    assert a == 0 && |r| == |s|;
  }

  function JsTrim(s: string): string {
    Trim(s, IsJsSpace)
  }

  function PyStrip(s: string): string {
    Trim(s, IsPySpace)
  }

  /** Every character of `s` is Python whitespace. */
  predicate AllPySpace(s: string) {
    forall i :: 0 <= i < |s| ==> IsPySpace(s[i])
  }

  /** `s.strip() == ""` exactly when `s` is all whitespace. */
  lemma StripEmptyIffAllSpace(s: string)
    ensures PyStrip(s) == "" <==> AllPySpace(s)
  {
    var r := PyStrip(s);
    var a :| TrimmedAt(s, r, a, IsPySpace);
    if r == "" {
      forall i | 0 <= i < |s| ensures IsPySpace(s[i]) {
        if i >= a {
          assert a + |r| <= i;
        }
      }
    }
  }

  /** True when `p` is a prefix of `s`. */
  predicate StartsWith(s: string, p: string) {
    |p| <= |s| && s[..|p|] == p
  }

  /** Python's `p in s` on strings, JavaScript's `s.includes(p)`. */
  predicate Contains(s: string, p: string)
    decreases |s|
  {
    StartsWith(s, p) || (|s| > 0 && Contains(s[1..], p))
  }

  /** Contains holds exactly when `p` occurs at some position of `s`. */
  lemma {:induction false} ContainsAt(s: string, p: string)
    ensures Contains(s, p) <==> exists i :: OccursAt(s, p, i)
    decreases |s|
  {
    if |s| > 0 {
      ContainsAt(s[1..], p);
      if Contains(s[1..], p) {
        var i :| OccursAt(s[1..], p, i);
        assert s[i + 1..i + 1 + |p|] == s[1..][i..i + |p|];
        assert OccursAt(s, p, i + 1);
      }
      if !StartsWith(s, p) && exists i :: OccursAt(s, p, i) {
        var i :| OccursAt(s, p, i);
        assert i != 0;
        assert s[1..][i - 1..i - 1 + |p|] == s[i..i + |p|];
        assert OccursAt(s[1..], p, i - 1);
      }
    } else if exists i :: OccursAt(s, p, i) {
      var i :| OccursAt(s, p, i);
      assert StartsWith(s, p);
    }
    if StartsWith(s, p) {
      assert OccursAt(s, p, 0);
    }
  }

  /** `p` occurs in `s` starting at position `i`. */
  predicate OccursAt(s: string, p: string, i: int) {
    0 <= i && i + |p| <= |s| && s[i..i + |p|] == p
  }

  /** The lower-case ASCII text `lit` matches `s` at position `p` under a JavaScript
      regular expression with the `i` flag. */
  predicate FoldedAt(s: string, p: int, lit: string) {
    0 <= p && p + |lit| <= |s| && forall i :: 0 <= i < |lit| ==> FoldAscii(s[p + i]) == lit[i]
  }

  /** Folded match of a concatenation: `a + b` matches at `p` exactly when `a`
      matches at `p` and `b` right after it. */
  lemma FoldedConcat(s: string, p: int, a: string, b: string)
    ensures FoldedAt(s, p, a + b) <==> FoldedAt(s, p, a) && FoldedAt(s, p + |a|, b)
  {
    if FoldedAt(s, p, a) && FoldedAt(s, p + |a|, b) {
      forall i | 0 <= i < |a + b|
        ensures FoldAscii(s[p + i]) == (a + b)[i]
      {
        if i >= |a| {
          assert FoldAscii(s[p + |a| + (i - |a|)]) == b[i - |a|];
        }
      }
    }
    if FoldedAt(s, p, a + b) {
      forall i | 0 <= i < |a|
        ensures FoldAscii(s[p + i]) == a[i]
      {
        assert (a + b)[i] == a[i];
      }
      forall i | 0 <= i < |b|
        ensures FoldAscii(s[p + |a| + i]) == b[i]
      {
        assert (a + b)[|a| + i] == b[i];
      }
    }
  }

  /** An unanchored search for `lit` under the `i` flag, trying the start
      positions `p`, `p + 1`, ... in turn, as `RegExp.prototype.test` does. */
  predicate SearchFolded(s: string, lit: string, p: nat)
    decreases |s| - p
  {
    p + |lit| <= |s| && (FoldedAt(s, p, lit) || SearchFolded(s, lit, p + 1))
  }

  /** The search from `p` succeeds exactly when `lit` matches at some
      position from `p` on. */
  lemma {:induction false} SearchFoldedFinds(s: string, lit: string, p: nat)
    ensures SearchFolded(s, lit, p) <==> exists q :: p <= q && FoldedAt(s, q, lit)
    decreases |s| - p
  {
    if p + |lit| <= |s| {
      SearchFoldedFinds(s, lit, p + 1);
      if exists q :: p <= q && FoldedAt(s, q, lit) {
        var q :| p <= q && FoldedAt(s, q, lit);
        if q != p {
          assert p + 1 <= q;
        }
      }
    }
  }

  function DigitChar(d: nat): (c: char)
    requires d < 10
    ensures IsDigit(c) && c as int - '0' as int == d
  {
    ('0' as int + d) as char
  }

  /** The decimal rendering of a natural number, as JavaScript's
      `Number.prototype.toString` and Python's `str` give it. */
  function NatToString(n: nat): (r: string)
    ensures |r| >= 1
    ensures forall i :: 0 <= i < |r| ==> IsDigit(r[i])
    ensures r[0] == '0' ==> n == 0
  {
    if n < 10 then [DigitChar(n)] else NatToString(n / 10) + [DigitChar(n % 10)]
  }

  /** Decimal rendering of an integer, with a leading '-' when negative. */
  function IntToString(n: int): (r: string)
    ensures n >= 0 ==> r == NatToString(n)
    ensures n < 0 ==> r == "-" + NatToString(-n)
  {
    if n < 0 then "-" + NatToString(-n) else NatToString(n)
  }

  function DigitValue(c: char): nat
    requires IsDigit(c)
  {
    c as int - '0' as int
  }

  /** The value of a string of decimal digits. */
  function DecimalValue(s: string): nat
    requires forall i :: 0 <= i < |s| ==> IsDigit(s[i])
  {
    if |s| == 0 then 0
    else DecimalValue(s[..|s| - 1]) * 10 + DigitValue(s[|s| - 1])
  }

  /** Reading a rendered number back gives the number. */
  lemma {:induction false} DecimalRoundTrip(n: nat)
    ensures DecimalValue(NatToString(n)) == n
  {
    if n >= 10 {
      DecimalRoundTrip(n / 10);
      var r := NatToString(n);
      assert r[..|r| - 1] == NatToString(n / 10);
    }
  }

  /** Distinct numbers render as distinct strings. */
  lemma NatToStringInjective(a: nat, b: nat)
    requires NatToString(a) == NatToString(b)
    ensures a == b
  {
    DecimalRoundTrip(a);
    DecimalRoundTrip(b);
  }
}

=== FILE: UpdateCommand.dfy ===
/** The extraction pattern of the chat bot's update command,
      ^update task for (.+?):\s*(.+?)\s*,\sstatus:\s(.+)$   (flag i)
    written out as a backtracking search. A match is described by positions:
    the colon ending group 1 at `c`, `k` spaces after it, group 2 of length
    `j`, then `m` spaces before the comma. The regex engine returns the first
    match in its backtracking order: smallest `c` (lazy group 1), then largest
    `k` (greedy spaces), then smallest `j` (lazy group 2). */
module UpdateCommand {
  import opened Wrappers
  import opened Text

  const Prefix := "update task for "
  const StatusWord := "status:"

  datatype UpdateFields = UpdateFields(asignee: string, task: string, status: string)

  /** `\s` accepts the character at position `q`. */
  predicate SpaceAt(s: string, q: int) {
    0 <= q < |s| && IsJsSpace(s[q])
  }

  /** `.` accepts the character at position `q`: it is not a line terminator. */
  predicate DotAt(s: string, q: int) {
    0 <= q < |s| && !IsLineTerminator(s[q])
  }

  /** Positions a..b of `s` hold whitespace only (`\s*`). */
  predicate SpacesBetween(s: string, a: int, b: int) {
    forall q :: a <= q < b ==> SpaceAt(s, q)
  }

  /** Positions a..b of `s` hold no line terminator (`.*`). */
  predicate NoTerminatorBetween(s: string, a: int, b: int) {
    forall q :: a <= q < b ==> DotAt(s, q)
  }

  /** `,\sstatus:\s(.+)$` matches `s` from position `p` to the end. */
  predicate StatusTailAt(s: string, p: int) {
    && 0 <= p && p + 11 <= |s|
    && s[p] == ',' && SpaceAt(s, p + 1)
    && FoldedAt(s, p + 2, StatusWord)
    && SpaceAt(s, p + 9)
    && NoTerminatorBetween(s, p + 10, |s|)
  }

  /** `\s*(.+?)\s*,\sstatus:\s(.+)$` matches after the colon at `c` with `k`
      spaces, group 2 of length `j`, and `m` spaces. */
  predicate TailShape(s: string, c: int, k: int, j: int, m: int) {
    && 0 <= c && 0 <= k && 1 <= j && 0 <= m && c + 1 + k + j + m <= |s|
    && SpacesBetween(s, c + 1, c + 1 + k)
    && NoTerminatorBetween(s, c + 1 + k, c + 1 + k + j)
    && SpacesBetween(s, c + 1 + k + j, c + 1 + k + j + m)
    && StatusTailAt(s, c + 1 + k + j + m)
  }

  /** The whole pattern matches `s` with the given choices. */
  predicate Shape(s: string, c: int, k: int, j: int, m: int) {
    && FoldedAt(s, 0, Prefix)
    && |Prefix| < c < |s| && NoTerminatorBetween(s, |Prefix|, c) && s[c] == ':'
    && TailShape(s, c, k, j, m)
  }

  /** No match comes before (c, k, j) in the engine's backtracking order. */
  ghost predicate FirstShape(s: string, c: int, k: int, j: int) {
    forall c', k', j', m' :: Shape(s, c', k', j', m') ==>
      c < c' || (c == c' && (k > k' || (k == k' && j <= j')))
  }

  /** The three capture groups of a match. */
  function GroupsAt(s: string, c: int, k: int, j: int, m: int): UpdateFields
    requires Shape(s, c, k, j, m)
  {
    var g := c + 1 + k;
    UpdateFields(s[|Prefix|..c], s[g..g + j], s[g + j + m + 10..])
  }

  /** The number of whitespace characters starting at `p`. */
  function SpaceRun(s: string, p: int): (n: nat)
    requires 0 <= p <= |s|
    ensures p + n <= |s| && SpacesBetween(s, p, p + n)
    ensures !SpaceAt(s, p + n)
    decreases |s| - p
  {
    if SpaceAt(s, p) then 1 + SpaceRun(s, p + 1) else 0
  }

  /** Any run of spaces from `p` is at most the maximal one, and one followed
      by a non-space is the maximal one. */
  lemma {:induction false} SpaceRunMaximal(s: string, p: int, n: int)
    requires 0 <= p && 0 <= n && p + n <= |s| && SpacesBetween(s, p, p + n)
    ensures n <= SpaceRun(s, p)
    ensures !SpaceAt(s, p + n) ==> SpaceRun(s, p) == n
    decreases n
  {
    if n > 0 {
      assert SpaceAt(s, p);
      SpaceRunMaximal(s, p + 1, n - 1);
    }
  }

  /** Group 2 occupies `g..g+j` and the rest of the pattern matches after it;
      the spaces before the comma are then the maximal run. */
  predicate Group2At(s: string, g: int, j: int) {
    && 0 <= g && 1 <= j && g + j <= |s|
    && NoTerminatorBetween(s, g, g + j)
    && StatusTailAt(s, g + j + SpaceRun(s, g + j))
  }

  /** A match after the colon is exactly a space count within the maximal run
      followed by a group 2, with the spaces before the comma forced. */
  lemma TailShapeParts(s: string, c: int, k: int, j: int, m: int)
    requires TailShape(s, c, k, j, m)
    ensures k <= SpaceRun(s, c + 1) && Group2At(s, c + 1 + k, j)
    ensures m == SpaceRun(s, c + 1 + k + j)
  {
    SpaceRunMaximal(s, c + 1, k);
    SpaceRunMaximal(s, c + 1 + k + j, m);
  }

  lemma TailShapeFromParts(s: string, c: int, k: int, j: int)
    requires 0 <= c < |s| && 0 <= k <= SpaceRun(s, c + 1) && Group2At(s, c + 1 + k, j)
    ensures TailShape(s, c, k, j, SpaceRun(s, c + 1 + k + j))
  {
  }

  lemma TerminatorBreaks(s: string, a: int, q: int, b: int)
    requires a <= q < b && !DotAt(s, q)
    ensures !NoTerminatorBetween(s, a, b)
  {
  }

  lemma ExtendNoTerminator(s: string, a: int, b: int)
    requires NoTerminatorBetween(s, a, b - 1) && DotAt(s, b - 1)
    ensures NoTerminatorBetween(s, a, b)
  {
  }

  /** A line terminator inside group 2's range stops every longer group 2. */
  lemma Group2Blocked(s: string, g: int, j: int)
    requires 0 <= g && 1 <= j && g + j <= |s| && !DotAt(s, g + j - 1)
    ensures forall j' :: j <= j' ==> !Group2At(s, g, j')
  {
    forall j' | j <= j'
      ensures !Group2At(s, g, j')
    {
      if g + j' <= |s| {
        TerminatorBreaks(s, g, g + j - 1, g + j');
      }
    }
  }

  /** No group 2 shorter than `j` completes the match from `g`. */
  ghost predicate ShorterGroup2Fail(s: string, g: int, j: int) {
    forall j' :: 1 <= j' < j ==> !Group2At(s, g, j')
  }

  /** No group 2 of any length completes the match from a start in `a+1..b`. */
  ghost predicate NoGroup2Between(s: string, a: int, b: int) {
    forall g, j' :: a < g <= b ==> !Group2At(s, g, j')
  }

  /** Lazy group 2 starting at `g`: the smallest length that completes the
      match, or None when no length does. */
  method SearchGroup2(s: string, g: int) returns (r: Option<int>)
    requires 0 <= g <= |s|
    ensures r.Some? ==> Group2At(s, g, r.value)
    ensures r.Some? ==> ShorterGroup2Fail(s, g, r.value)
    ensures r.None? ==> NoGroup2Between(s, g - 1, g)
  {
    var j := 1;
    while g + j <= |s|
      invariant 1 <= j <= |s| - g + 1
      invariant NoTerminatorBetween(s, g, g + j - 1)
      invariant forall j' :: 1 <= j' < j ==> !Group2At(s, g, j')
      decreases |s| - j
    {
      if !DotAt(s, g + j - 1) {
        Group2Blocked(s, g, j);
        return None;
      }
      ExtendNoTerminator(s, g, g + j);
      if StatusTailAt(s, g + j + SpaceRun(s, g + j)) {
        return Some(j);
      }
      j := j + 1;
    }
    return None;
  }

  /** Choices made after the colon: spaces skipped and group 2's length. */
  datatype TailChoice = TailChoice(k: int, j: int)

  /** After the colon at `c`, `t` is the engine's choice: a space count
      within the run at which group 2 matches, no larger count working, and
      group 2 as short as possible. */
  ghost predicate TailFirst(s: string, c: int, t: TailChoice) {
    && 0 <= c < |s| && 0 <= t.k <= SpaceRun(s, c + 1) && Group2At(s, c + 1 + t.k, t.j)
    && ShorterGroup2Fail(s, c + 1 + t.k, t.j)
    && NoGroup2Between(s, c + 1 + t.k, c + 1 + SpaceRun(s, c + 1))
  }

  /** Greedy spaces after the colon at `c`: the largest count within the
      whitespace run at which group 2 can match, with group 2's lazy length. */
  method SearchSpaces(s: string, c: int) returns (r: Option<TailChoice>)
    requires 0 <= c < |s|
    ensures r.Some? ==> TailFirst(s, c, r.value)
    ensures r.None? ==> NoGroup2Between(s, c, c + 1 + SpaceRun(s, c + 1))
  {
    var k: int := SpaceRun(s, c + 1);
    while k >= 0
      invariant -1 <= k <= SpaceRun(s, c + 1)
      invariant NoGroup2Between(s, c + 1 + k, c + 1 + SpaceRun(s, c + 1))
      decreases k
    {
      var t := SearchGroup2(s, c + 1 + k);
      if t.Some? {
        return Some(TailChoice(k, t.value));
      }
      k := k - 1;
    }
    return None;
  }

  /** The colon at `c` can end group 1: the prefix runs to it with no line
      terminator and some space count within the run lets group 2 match. */
  ghost predicate ColonOk(s: string, c: int) {
    && |Prefix| < c < |s| && NoTerminatorBetween(s, |Prefix|, c) && s[c] == ':'
    && !NoGroup2Between(s, c, c + 1 + SpaceRun(s, c + 1))
  }

  /** Where a match was found: the colon and the choices made after it. */
  datatype Found = Found(c: int, tail: TailChoice)

  /** Every match has its colon accepted, its space count within the run and
      the spaces before the comma forced. */
  lemma ShapeParts(s: string, c: int, k: int, j: int, m: int)
    requires Shape(s, c, k, j, m)
    ensures k <= SpaceRun(s, c + 1) && Group2At(s, c + 1 + k, j)
    ensures m == SpaceRun(s, c + 1 + k + j)
    ensures ColonOk(s, c)
  {
    TailShapeParts(s, c, k, j, m);
  }

  /** A line terminator inside group 1's range stops every later colon. */
  lemma ColonBlocked(s: string, c: int)
    requires |Prefix| < c <= |s| && !DotAt(s, c - 1)
    ensures forall c' :: c <= c' ==> !ColonOk(s, c')
  {
    forall c' | c <= c'
      ensures !ColonOk(s, c')
    {
      if c' < |s| {
        TerminatorBreaks(s, |Prefix|, c - 1, c');
      }
    }
  }

  /** Lazy group 1: the first colon that completes the match, with the
      choices the later searches make there. */
  method SearchColon(s: string) returns (r: Option<Found>)
    requires |Prefix| < |s|
    ensures r.Some? ==> ColonOk(s, r.value.c)
    ensures r.Some? ==> forall c' :: c' < r.value.c ==> !ColonOk(s, c')
    ensures r.Some? ==> TailFirst(s, r.value.c, r.value.tail)
    ensures r.None? ==> forall c' :: !ColonOk(s, c')
  {
    var c := |Prefix| + 1;
    while c < |s|
      invariant |Prefix| < c <= |s| && NoTerminatorBetween(s, |Prefix|, c - 1)
      invariant forall c' :: c' < c ==> !ColonOk(s, c')
      decreases |s| - c
    {
      if !DotAt(s, c - 1) {
        ColonBlocked(s, c);
        return None;
      }
      ExtendNoTerminator(s, |Prefix|, c);
      if s[c] == ':' {
        var t := SearchSpaces(s, c);
        if t.Some? {
          return Some(Found(c, t.value));
        }
      }
      c := c + 1;
    }
    return None;
  }

  /** The capture groups of the pattern on `s`, or None when it does not
      match. A result is always the groups of a match, and of the first match
      in the regex engine's backtracking order; None means no match exists. */
  method Match(s: string) returns (r: Option<UpdateFields>)
    ensures r.Some? <==> exists c, k, j, m :: Shape(s, c, k, j, m)
    ensures r.Some? ==> exists c, k, j, m :: Shape(s, c, k, j, m) && FirstShape(s, c, k, j)
                                            && r.value == GroupsAt(s, c, k, j, m)
  {
    if |s| <= |Prefix| || !FoldedAt(s, 0, Prefix) {
      return None;
    }
    var f := SearchColon(s);
    if f.None? {
      NoColonNoShape(s);
      return None;
    }
    var Found(c, TailChoice(k, j)) := f.value;
    var m := SpaceRun(s, c + 1 + k + j);
    FoundIsFirst(s, f.value);
    r := Some(GroupsAt(s, c, k, j, m));
  }

  lemma NoColonNoShape(s: string)
    requires forall c :: !ColonOk(s, c)
    ensures forall c, k, j, m :: !Shape(s, c, k, j, m)
  {
    forall c, k, j, m | Shape(s, c, k, j, m)
      ensures ColonOk(s, c)
    {
      ShapeParts(s, c, k, j, m);
    }
  }

  /** What the searches found is a match, and no match precedes it. */
  lemma FoundIsFirst(s: string, f: Found)
    requires FoldedAt(s, 0, Prefix) && ColonOk(s, f.c)
    requires forall c' :: c' < f.c ==> !ColonOk(s, c')
    requires TailFirst(s, f.c, f.tail)
    ensures Shape(s, f.c, f.tail.k, f.tail.j, SpaceRun(s, f.c + 1 + f.tail.k + f.tail.j))
    ensures FirstShape(s, f.c, f.tail.k, f.tail.j)
  {
    TailShapeFromParts(s, f.c, f.tail.k, f.tail.j);
    forall c, k, j, m | Shape(s, c, k, j, m)
      ensures f.c < c || (f.c == c && (f.tail.k > k || (f.tail.k == k && f.tail.j <= j)))
    {
      ShapeParts(s, c, k, j, m);
      ColonNotBefore(s, f.c, c);
      FoundPrecedes(s, f, c, k, j);
    }
  }

  /** A match found by the searches comes no later than any match at the same
      or a later colon, given by its space count and group 2. */
  lemma FoundPrecedes(s: string, f: Found, c: int, k: int, j: int)
    requires 0 <= f.c <= c < |s|
    requires NoGroup2Between(s, f.c + 1 + f.tail.k, f.c + 1 + SpaceRun(s, f.c + 1))
    requires ShorterGroup2Fail(s, f.c + 1 + f.tail.k, f.tail.j)
    requires 0 <= k <= SpaceRun(s, c + 1) && Group2At(s, c + 1 + k, j)
    ensures f.c < c || (f.c == c && (f.tail.k > k || (f.tail.k == k && f.tail.j <= j)))
  {
    if c == f.c {
      NotAfterGreedy(s, f.c + 1 + f.tail.k, f.c + 1 + SpaceRun(s, f.c + 1), c + 1 + k, j);
      if k == f.tail.k {
        NotShorterThanLazy(s, f.c + 1 + f.tail.k, f.tail.j, j);
      }
    }
  }

  lemma ColonNotBefore(s: string, first: int, c: int)
    requires forall c' :: c' < first ==> !ColonOk(s, c')
    requires ColonOk(s, c)
    ensures first <= c
  {
  }

  lemma NotAfterGreedy(s: string, a: int, b: int, g: int, j: int)
    requires NoGroup2Between(s, a, b) && Group2At(s, g, j) && g <= b
    ensures g <= a
  {
  }

  lemma NotShorterThanLazy(s: string, g: int, j: int, j': int)
    requires ShorterGroup2Fail(s, g, j) && Group2At(s, g, j')
    ensures j <= j'
  {
  }

  /** The first match is unique: the backtracking order is total on the
      choices, and the spaces before the comma are forced. */
  lemma FirstShapeUnique(s: string, c: int, k: int, j: int, m: int, c': int, k': int, j': int, m': int)
    requires Shape(s, c, k, j, m) && FirstShape(s, c, k, j)
    requires Shape(s, c', k', j', m') && FirstShape(s, c', k', j')
    ensures c == c' && k == k' && j == j' && m == m'
  {
    ShapeParts(s, c, k, j, m);
    ShapeParts(s, c', k', j', m');
  }

  /** The command text a user types for `f`, in the form the bot's help
      text shows. */
  function Compose(f: UpdateFields): string {
    Prefix + f.asignee + ": " + f.task + ", " + StatusWord + " " + f.status
  }

  /** Fields that survive a round trip through the pattern: group 1 stops at
      the first colon, so the assignee has none; group 2 is lazy and the
      spaces around it greedy, so the task has no comma and no whitespace at
      either end; no group holds a line terminator. */
  predicate Recoverable(f: UpdateFields) {
    && |f.asignee| > 0 && |f.task| > 0 && |f.status| > 0
    && (forall i :: 0 <= i < |f.asignee| ==> f.asignee[i] != ':' && !IsLineTerminator(f.asignee[i]))
    && (forall i :: 0 <= i < |f.task| ==> f.task[i] != ',' && !IsLineTerminator(f.task[i]))
    && !IsJsSpace(f.task[0]) && !IsJsSpace(f.task[|f.task| - 1])
    && (forall i :: 0 <= i < |f.status| ==> !IsLineTerminator(f.status[i]))
  }

  /** `s` is laid out as the composed command for `f`: the prefix, the
      assignee, ": ", the task, ", ", the status word, " ", the status. */
  ghost predicate Composed(s: string, f: UpdateFields) {
    var c := |Prefix| + |f.asignee|;
    var e := c + 2 + |f.task|;
    && |s| == e + 10 + |f.status|
    && (forall q :: 0 <= q < |Prefix| ==> s[q] == Prefix[q])
    && (forall q :: |Prefix| <= q < c ==> s[q] == f.asignee[q - |Prefix|])
    && s[c] == ':' && s[c + 1] == ' '
    && (forall q :: c + 2 <= q < e ==> s[q] == f.task[q - c - 2])
    && s[e] == ',' && s[e + 1] == ' '
    && (forall q :: e + 2 <= q < e + 9 ==> s[q] == StatusWord[q - e - 2])
    && s[e + 9] == ' '
    && (forall q :: e + 10 <= q < |s| ==> s[q] == f.status[q - e - 10])
  }

  lemma ComposeLayout(f: UpdateFields)
    ensures Composed(Compose(f), f)
  {
    var head := Prefix + f.asignee + ": ";
    var tail := f.task + ", " + StatusWord + " " + f.status;
    assert Compose(f) == head + tail;
    var c := |Prefix| + |f.asignee|;
    assert forall q :: 0 <= q < c + 2 ==> Compose(f)[q] == head[q];
    assert forall q :: c + 2 <= q < |Compose(f)| ==> Compose(f)[q] == tail[q - c - 2];
  }

  /** The letters of the pattern's fixed words are already lower case. */
  lemma LiteralsFold()
    ensures forall i :: 0 <= i < |Prefix| ==> FoldAscii(Prefix[i]) == Prefix[i]
    ensures forall i :: 0 <= i < |StatusWord| ==> FoldAscii(StatusWord[i]) == StatusWord[i]
  {
    forall i | 0 <= i < |Prefix|
      ensures FoldAscii(Prefix[i]) == Prefix[i]
    {
      assert i in {0, 1, 2, 3, 4, 5, 6, 7, 8, 9, 10, 11, 12, 13, 14, 15};
    }
    forall i | 0 <= i < |StatusWord|
      ensures FoldAscii(StatusWord[i]) == StatusWord[i]
    {
      assert i in {0, 1, 2, 3, 4, 5, 6};
    }
  }

  /** A run of spaces from `p` ends at the first non-space. */
  lemma RunStopsAt(s: string, p: int, q: int)
    requires 0 <= p <= q && !SpaceAt(s, q) && p <= |s|
    ensures p + SpaceRun(s, p) <= q
  {
  }

  /** The whitespace runs of a composed command: one space after the colon,
      none after the task. */
  lemma ComposedSpaceRuns(s: string, f: UpdateFields)
    requires Recoverable(f) && Composed(s, f)
    ensures SpaceRun(s, |Prefix| + |f.asignee| + 1) == 1
    ensures SpaceRun(s, |Prefix| + |f.asignee| + 2 + |f.task|) == 0
  {
    var c := |Prefix| + |f.asignee|;
    assert SpaceAt(s, c + 1) && !SpaceAt(s, c + 2);
    assert !SpaceAt(s, c + 2 + |f.task|);
  }

  /** A composed command matches with its pieces where they were put. */
  lemma ComposedShape(s: string, f: UpdateFields)
    requires Recoverable(f) && Composed(s, f)
    ensures Shape(s, |Prefix| + |f.asignee|, 1, |f.task|, 0)
  {
    var c := |Prefix| + |f.asignee|;
    var e := c + 2 + |f.task|;
    LiteralsFold();
    assert StatusTailAt(s, e);
    ComposedSpaceRuns(s, f);
    TailShapeFromParts(s, c, 1, |f.task|);
  }

  predicate CommaAt(s: string, p: int) {
    0 <= p < |s| && s[p] == ','
  }

  /** A colon, space count and group 2 of a composed command come no earlier
      than its pieces. */
  lemma ComposedPrecedes(s: string, f: UpdateFields, c: int, k: int, j: int)
    requires Recoverable(f) && Composed(s, f)
    requires |Prefix| < c < |s| && s[c] == ':'
    requires 0 <= k <= SpaceRun(s, c + 1) && 1 <= j && c + 1 + k + j <= |s|
    requires CommaAt(s, c + 1 + k + j + SpaceRun(s, c + 1 + k + j))
    ensures |Prefix| + |f.asignee| < c || (|Prefix| + |f.asignee| == c && (1 > k || (1 == k && |f.task| <= j)))
  {
    if c == |Prefix| + |f.asignee| {
      assert SpaceAt(s, c + 1) && !SpaceAt(s, c + 2);
      if k == 1 && j < |f.task| {
        RunStopsAt(s, c + 2 + j, c + 1 + |f.task|);
      }
    }
  }

  /** No match of a composed command precedes the one at its pieces. */
  lemma ComposedFirst(s: string, f: UpdateFields)
    requires Recoverable(f) && Composed(s, f)
    ensures FirstShape(s, |Prefix| + |f.asignee|, 1, |f.task|)
  {
    forall c', k', j', m' | Shape(s, c', k', j', m')
      ensures |Prefix| + |f.asignee| < c' || (|Prefix| + |f.asignee| == c' && (1 > k' || (1 == k' && |f.task| <= j')))
    {
      ShapeParts(s, c', k', j', m');
      ComposedPrecedes(s, f, c', k', j');
    }
  }

  /** The capture groups of a composed command are its fields. */
  lemma ComposedGroups(s: string, f: UpdateFields)
    requires Recoverable(f) && Composed(s, f)
    ensures Shape(s, |Prefix| + |f.asignee|, 1, |f.task|, 0)
    ensures GroupsAt(s, |Prefix| + |f.asignee|, 1, |f.task|, 0) == f
  {
    var c := |Prefix| + |f.asignee|;
    var e := c + 2 + |f.task|;
    ComposedShape(s, f);
    assert s[|Prefix|..c] == f.asignee;
    assert s[c + 2..e] == f.task;
    assert s[e + 10..] == f.status;
  }

  /** Round trip: the pattern gives back the fields a command was composed
      from, whenever they are recoverable. */
  method MatchComposed(f: UpdateFields) returns (r: Option<UpdateFields>)
    requires Recoverable(f)
    ensures r == Some(f)
  {
    var s := Compose(f);
    r := Match(s);
    ComposeLayout(f);
    ComposedGroups(s, f);
    ComposedFirst(s, f);
    ghost var c, k, j, m :| Shape(s, c, k, j, m) && FirstShape(s, c, k, j)
                            && r.value == GroupsAt(s, c, k, j, m);
    FirstShapeUnique(s, |Prefix| + |f.asignee|, 1, |f.task|, 0, c, k, j, m);
  }

  /** `replace(/\s+/g, ' ')`: every maximal run of whitespace becomes a
      single space. */
  function CollapseSpaces(s: string): (r: string)
    ensures |r| <= |s|
    ensures |s| > 0 ==> |r| > 0 && (r[0] == ' ' <==> IsJsSpace(s[0]))
    ensures Collapsed(r)
    decreases |s|
  {
    if |s| == 0 then
      []
    else if IsJsSpace(s[0]) then
      var rest := CollapseSpaces(s[LeadCount(s, IsJsSpace)..]);
      [' '] + rest
    else
      [s[0]] + CollapseSpaces(s[1..])
  }

  /** The only whitespace is a plain space, and no two spaces are adjacent. */
  predicate Collapsed(r: string) {
    && (forall i :: 0 <= i < |r| && IsJsSpace(r[i]) ==> r[i] == ' ')
    && (forall i :: 0 < i < |r| && r[i] == ' ' ==> r[i - 1] != ' ')
  }

  /** Collapsed text is left as it is, so collapsing twice is collapsing once. */
  lemma {:induction false} CollapsedFixed(r: string)
    requires Collapsed(r)
    ensures CollapseSpaces(r) == r
    decreases |r|
  {
    if |r| > 0 {
      CollapsedFixed(r[1..]);
      if IsJsSpace(r[0]) {
        assert |r| > 1 ==> r[1] != ' ';
        assert LeadCount(r, IsJsSpace) == 1;
      }
    }
  }

  lemma CollapseIdempotent(s: string)
    ensures CollapseSpaces(CollapseSpaces(s)) == CollapseSpaces(s)
  {
    CollapsedFixed(CollapseSpaces(s));
  }

  /** The text the update branch means to match: whitespace collapsed, then
      trimmed (the Unicode NFKC step is not modelled). */
  function Normalize(s: string): (r: string)
    ensures forall i :: 0 <= i < |r| ==> !IsLineTerminator(r[i])
    ensures Collapsed(r)
  {
    TrimKeepsCollapsed(CollapseSpaces(s));
    JsTrim(CollapseSpaces(s))
  }

  /** Trimming collapsed text keeps it collapsed; collapsed text holds no
      line terminator, since every line terminator is whitespace. */
  lemma TrimKeepsCollapsed(t: string)
    requires Collapsed(t)
    ensures Collapsed(JsTrim(t))
    ensures forall i :: 0 <= i < |JsTrim(t)| ==> !IsLineTerminator(JsTrim(t)[i])
  {
    var r := JsTrim(t);
    var a :| TrimmedAt(t, r, a, IsJsSpace);
    assert forall i :: 0 <= i < |r| ==> r[i] == t[a + i];
  }

  /** The payload sent for a match: each group trimmed. */
  function Payload(g: UpdateFields): (p: UpdateFields)
    ensures p.asignee == JsTrim(g.asignee) && p.task == JsTrim(g.task) && p.status == JsTrim(g.status)
  {
    UpdateFields(JsTrim(g.asignee), JsTrim(g.task), JsTrim(g.status))
  }

  /** `f` is what the update branch extracts from the text `t`: the trimmed
      groups of the regex engine's match in the normalised text. */
  ghost predicate Extracts(t: string, f: UpdateFields) {
    var n := Normalize(t);
    exists c, k, j, m :: Shape(n, c, k, j, m) && FirstShape(n, c, k, j) && f == Payload(GroupsAt(n, c, k, j, m))
  }

  /** Lines 107-116 of the update branch: normalise, match, trim the groups;
      None is the "Invalid update format" reply. */
  method Extract(text: string) returns (r: Option<UpdateFields>)
    ensures r.None? <==> forall c, k, j, m :: !Shape(Normalize(text), c, k, j, m)
    ensures r.Some? ==> Extracts(text, r.value)
  {
    var g := Match(Normalize(text));
    r := if g.Some? then Some(Payload(g.value)) else None;
  }
}

=== FILE: Wrappers.dfy ===
/** The optional value shared by every module of the model: JavaScript's
    `undefined`/`null` and Python's `None` both become `None`. */
module Wrappers {

  datatype Option<+T> = None | Some(value: T) {

    /** The value, or `default` when there is none. */
    function GetOr(default: T): T {
      match this
      case Some(v) => v
      case None => default
    }
  }
}
